=== FILE: README.md ===
# Satoshis Grid — the bookkeeping core in Dafny

Satoshis Grid is a browser visualisation of the Bitcoin mempool. Unconfirmed
transactions arrive from mempool.space and drive across a neon grid as
vehicles, one tier per value band. Found blocks are celebrated by two
"mining" scene objects: the light cycle and the mining cube. A heads-up
display shows height, halving countdown, difficulty, fees and price.

This project models the decision and bookkeeping layer between the live
feed and the renderer. It has one module per source file:

- `Transactions` (`js/transactions.js`): tier classification, speed, motion,
  disposal, and the ledger of at most 50 live transactions.
- `Feed` (`js/websocket.js`): the connect/reconnect state machine and the
  fall-back to demo mode, the block-height rules, transaction normalisation,
  and the demo generator given its random draws.
- `Effects` (`js/effects.js`): the 500 ms whale throttle, the single-flight
  bloom pulse, and the reused overlay elements.
- `Hud` (`js/hud.js`): the display's classification rules and guards.
- `LightCycle` (`js/light-cycle.js`) and `MiningCube` (`js/mining-cube.js`):
  the fill gauge, the pushing block, the monument list of at most ten,
  particle pruning, and teardown.

Shared helper modules:

- `Values`: JavaScript truthiness of numbers and `Math.round`.
- `Fifo`: the `while (list.length > max) list.shift()` loops.
- `Sweep`: the backward splice loop that every per-frame prune uses.
- `Scene`: abstract scene and GPU-resource events.
- `Gauge`: the saturating fill level and transaction count.
- `Particles`: particle fading.

How the outside world appears in the model:

- Time and random draws are parameters; every draw lies in [0, 1), the range
  of `Math.random`.
- Three.js and DOM effects are returned as event lists: added, removed,
  material or geometry disposed, timer cleared or scheduled. The contract
  of each member that lets objects go states, object by object, which of
  these releases it emits.
- Satoshi values are integers. The fill level is counted in hundredths.
  Fee rates, strengths and scales are `real`.
- A JavaScript number that may be `undefined`, `null` or `NaN` is an
  `Option`; its falsiness is `Values.Truthy`.

Facts about the code that shape the contracts:

- **Heights can go down.** The `blocks` snapshot and the REST poll only ever
  raise the stored block height (`Feed.ObservedHeightsIncrease`). The pushed
  `block` message stores its height unconditionally (`js/websocket.js:131`),
  so it can lower the height (`Feed.HandleNewBlockCanLowerHeight`).
- **Disposal is not a guard.** `LightCycle.onBlockFound` never reads
  `isDisposed`. After `dispose` its `effects` reference is null, so a found
  block while still mining throws. `LightCycle.OnBlockFound` returns
  `ThrowsTypeError` for that case.
- **Transactions release shared state.** A transaction's disposal disposes
  the module-wide hitbox material that every vehicle shares (finding 1
  below). The ledger operations take the disposal as a parameter
  (`Transactions.Disposal`); `AsWritten` is the code's behaviour, and their
  contracts count the hitbox releases under each choice.
- **Some code is never reached from `js/main.js`.** `main.js` never imports
  the mining cube, never calls `LightCycle.createMonument`, and never calls
  `Effects.onNewBlock`. They are modelled all the same, as the source
  defines them.
- **The light cycle never creates particles.** Its `addTransaction` creates
  none (`js/light-cycle.js:277`). Its particle list therefore stays empty in
  practice, but pruning, reset and dispose are modelled over any list.

## Model

| member | source | states |
|---|---|---|
| Values.JsRound | js/hud.js:315 | `Math.round` gives an integer within half a unit of its argument |
| Fifo.Trim | js/light-cycle.js:385-386 | shifting from the front until at most `cap` remain keeps exactly the newest `min(len, cap)` entries, as a suffix |
| Fifo.Evicted | js/mining-cube.js:230-231 | the shifted-out entries are the oldest ones; together with the kept suffix they make up the list again |
| Fifo.PushTrim | js/hud.js:402-405 | pushing onto a list that respects the bound shifts out nothing below the bound and exactly the single oldest entry at it |
| Fifo.TrimKeepsNewest | js/light-cycle.js:382-386 | the entry just pushed survives the trim, and no entry is invented |
| Fifo.Push | js/light-cycle.js:382-386 | push-and-shift: the evicted entries followed by the kept ones are the old list plus the new entry; the length is `min(len + 1, cap)`; the new entry is last; at most the one oldest entry goes |
| Sweep.SweepBackward | js/transactions.js:458-467 | the loop from the last index down, splicing out dead entries, leaves exactly the advanced live entries in their original order and returns the dead ones last-first |
| Sweep.SurvivorsAndCasualtiesPartition | js/transactions.js:463-466 | the advanced entries, counted with multiplicity, are exactly the kept ones plus the dropped ones, so none is lost or both kept and dropped; the two counts add up to the list's length |
| Sweep.AllAliveKeepsAll | js/transactions.js:463-466 | when every advanced entry stays alive, nothing is spliced out |
| Sweep.CasualtyDropped | js/mining-cube.js:316-320 | every entry whose step leaves it dead is among the dropped |
| Gauge.AddTransaction | js/light-cycle.js:275-276 | the count goes up by one; the fill goes up by one hundredth until it saturates at full, and never exceeds full |
| Gauge.FillAfter | js/mining-cube.js:130-133 | after `n` transactions into an empty gauge the count is `n` and the fill is `min(n, 100)` hundredths |
| Gauge.FillFrom | js/light-cycle.js:275-276 | from any valid gauge, `n` transactions add `n` to the count and saturate the fill at full |
| Particles.Fade | js/light-cycle.js:471 | a frame takes twice the frame time off a particle's life and keeps its identity |
| Particles.Prune | js/light-cycle.js:468-479 | the particle loop keeps exactly the particles still alive after fading, in order, and removes the rest |
| Transactions.DetermineType | js/transactions.js:73-80 | each value gets exactly one tier: below 0.1 BTC light cycle, below 10 armored transport, below 100 small recognizer, else large recognizer (each direction of each band) |
| Transactions.DetermineTypeMatchesBtc | js/transactions.js:74-79 | comparing satoshis against 10^7, 10^9 and 10^10 is the same as comparing BTC against 0.1, 10 and 100 |
| Transactions.DetermineTypeMonotone | js/transactions.js:9-14 | a larger value never gets a lower tier |
| Transactions.CalculateSpeed | js/transactions.js:82-88 | a falsy fee rate counts as 10 (speed 30); for a non-negative fee the speed lies in [20, 70] and is 70 from fee 50 |
| Transactions.CalculateSpeedMonotone | js/transactions.js:84-87 | for positive fee rates a higher fee never means a slower vehicle |
| Transactions.InitialSpeed | js/transactions.js:271 | recognizers start at 85% of the fee speed, the other tiers at the full fee speed, so speeds lie in [17, 70] |
| Transactions.NewTransaction | js/transactions.js:60-71 | a new transaction is active at z = -150 with its value's tier and its initial speed, in a lane within ±40 |
| Transactions.Step | js/transactions.js:306-321 | an active transaction moves `speed·delta` toward the camera and is active afterwards exactly when it has not passed z = 50; an inactive or disposed one is left untouched |
| Transactions.AdvanceMoves | js/transactions.js:306-321 | over `n` frames an active transaction has moved `n·speed·delta`, and after at least one frame it has not passed z = 50 |
| Transactions.StepLeavesScreen | js/transactions.js:306-321 | a transaction moving toward the camera is inactive after a bounded number of frames, the bound given by its distance to z = 50 |
| Transactions.MeshMaterials | js/transactions.js:124-269 | every vehicle holds the shared hitbox material first and otherwise only materials it owns |
| Transactions.DisposeAsWritten | js/transactions.js:323-339 | as written, disposal removes the mesh and disposes the material of every child, the shared hitbox's included; a second call does nothing |
| Transactions.DisposeAsWrittenReleasesSharedMaterial | js/transactions.js:326-336 | every disposal as written releases the module-wide hitbox material |
| Transactions.Dispose | js/transactions.js:323-339 | corrected disposal removes the mesh and disposes only materials the transaction owns |
| Transactions.DisposeIdempotent | js/transactions.js:324-337 | disposing twice releases nothing the second time |
| Transactions.DisposeBy | js/transactions.js:323-339 | either disposal takes a meshed transaction out of the scene exactly once, first, and clears its mesh; as written the shared hitbox material is released exactly once per meshed transaction, corrected never, and only owned materials are disposed; each of the transaction's own materials is disposed exactly once under either disposal |
| Transactions.DisposeSlots | js/transactions.js:323-339 | corrected disposal of a meshed transaction disposes each material it owns exactly once and no other owned slot; an unmeshed one disposes none |
| Transactions.DisposeAsWrittenSlots | js/transactions.js:323-339 | disposal as written also disposes each owned material of a meshed transaction exactly once, and none of an unmeshed one |
| Transactions.OwnedSlotsOnce | js/transactions.js:124-269 | a vehicle's owned materials are distinct, so disposing them disposes each exactly once |
| Transactions.HitboxOnceAsWritten | js/transactions.js:326-336 | as written, one disposal releases the shared hitbox material exactly once, and none once the mesh is gone |
| Transactions.DisposeAll | js/transactions.js:501-503 | every entry that still has a mesh is taken out of the scene exactly once, under either disposal; as written the shared hitbox material is released once for each of them, corrected never and only owned materials are disposed; each owned material slot is disposed once for every meshed entry that has it; nothing is released when no entry has a mesh |
| Transactions.CleanupOldest | js/transactions.js:449-454 | the oldest entry is shifted off and released by the chosen disposal, which as written releases the shared hitbox material once when it has a mesh; an empty ledger is left as it is |
| Transactions.AddTransaction | js/transactions.js:431-447 | a ledger with 50 or more entries first shifts off its oldest and releases it by the chosen disposal; the new transaction is appended last; the bound of 50 is kept; the whale effect fires exactly from 100 BTC, always with `isLarge` set |
| Transactions.AddTransactionIsFifo | js/transactions.js:433-438 | evict-then-push on a bounded ledger equals push-then-trim to 50, oldest first |
| Transactions.AddAllBounded | js/transactions.js:431-438 | after any sequence of insertions the ledger holds at most 50 entries and the last insertion is the newest entry |
| Transactions.Update | js/transactions.js:456-468 | the frame update keeps exactly the transactions still active after their step, in order, and releases the rest, last first, by the chosen disposal; the bound is kept |
| Transactions.CountTier | js/transactions.js:479-483 | a per-tier count never exceeds the ledger's size |
| Transactions.GetStats | js/transactions.js:471-486 | the three per-tier counts add up to the total, which is the ledger's size |
| Transactions.DisposeManager | js/transactions.js:501-504 | the ledger is left empty and every entry with a mesh is taken out of the scene exactly once; as written the shared hitbox material is released once per such entry, corrected never and only owned materials are disposed; each owned material slot is disposed once for every meshed entry that has it; a meshed first entry is removed first |
| Transactions.DisposeManagerTwice | js/transactions.js:501-504 | a second teardown of the ledger releases nothing and leaves it empty |
| Transactions.ThreeTiersScenario | js/transactions.js:431-444 | 0.05, 50 and 500 BTC enter an empty ledger as light cycle, small and large recognizer; only the last raises the whale effect |
| Feed.OnOpen | js/websocket.js:59-66 | opening marks the connector connected and restarts the backoff, so the next closure reconnects after 2000 ms; it subscribes and shows no height; the stored height and demo mode are kept |
| Feed.OpenRestartsBackoff | js/websocket.js:59-66 | after an opening, up to ten closures in a row schedule reconnects after 2000, 4000, … ms again, whatever closures came before |
| Feed.StartDemoMode | js/websocket.js:309-333 | the first start turns demo mode on, shows the demo height, mempool size 50000, fee rate 15 and hash rate, and starts the demo timers; a second start does nothing; the stored height and connection state are not touched |
| Feed.StartDemoModeIdempotent | js/websocket.js:310 | starting demo mode twice is the same as starting it once |
| Feed.OnClose | js/websocket.js:201-215 | below 10 attempts a closure counts one more attempt and schedules a reconnect after 2000 ms times the attempt number; from 10 it starts demo mode and schedules nothing; the counter never passes 10 |
| Feed.ClosesScheduleGrowingDelays | js/websocket.js:206-210 | consecutive closures up to the ceiling schedule reconnects after 2000, 4000, … ms, one per closure |
| Feed.ClosesAfterCeilingNeverReconnect | js/websocket.js:211-214 | once the ceiling is reached, further closures keep demo mode on and never schedule a reconnect |
| Feed.EleventhClosureStartsDemo | js/websocket.js:15-17 | eleven closures from a fresh counter schedule ten reconnects at 2000·k ms, then start demo mode with no reconnect after it |
| Feed.HandleNewBlock | js/websocket.js:128-142 | a pushed block's height is stored unconditionally and is the one height shown; nothing else in the connector changes; the scene is told of the block, the sound plays, nothing is ingested and the next block is tracked last |
| Feed.HandleNewBlockCanLowerHeight | js/websocket.js:131 | a pushed block below the stored height lowers it |
| Feed.HandleNewBlockSettlesHeight | js/websocket.js:131 | after a pushed block, a snapshot or a poll no higher than its height changes nothing, and a demo block lands one above it |
| Feed.ApplySnapshot | js/websocket.js:91-100 | the snapshot's first height is taken and shown only when no height is known or it is higher; while no height is known the first block's height is adopted and shown; once a height is known it never goes down, and it is shown exactly when it goes up |
| Feed.ApplyPolledHeight | js/websocket.js:258-273 | a polled height is taken and shown only when it is truthy, different and higher (or none is known); a failed poll changes nothing; a truthy, different height is adopted and shown while none is known or when it is higher; once a height is known it never goes down |
| Feed.ObservedHeightStored | js/websocket.js:95-97 | over any interleaving of snapshots and polls the stored height never decreases, the last height shown is the one stored, and when nothing is shown nothing changes |
| Feed.ObservedHeightsIncrease | js/websocket.js:264-267 | over any interleaving of snapshots and polls every height shown is above the one known before and above the one shown before it |
| Feed.ObserveStep | js/websocket.js:262-268 | a single report either changes nothing or stores and shows a strictly higher height |
| Feed.StaleReportIgnored | js/websocket.js:95 | a report one below the known height leaves it in place and shows nothing |
| Feed.TxValue | js/websocket.js:173 | the value is the transaction's own value if truthy, else the sum of its outputs, else 0 |
| Feed.TxFeeRate | js/websocket.js:178 | the fee rate is `rate` if truthy, else `feePerVsize` if truthy, else the rounded fee per vbyte |
| Feed.ProcessTransaction | js/websocket.js:171-195 | a transaction is handed to the ledger and the mining scene with its normalised value and fee rate; the whale sound plays exactly from 10 BTC, with the large flag exactly from 100 BTC |
| Feed.Normalized | js/websocket.js:155-160 | a batch normalises to one record per transaction, in order |
| Feed.ProcessAll | js/websocket.js:155-160 | processing a batch hands each transaction to the ledger exactly once, in order, and produces nothing but ingestions and whale sounds |
| Feed.OnMessage | js/websocket.js:82-126 | a message that does not parse is dropped; a parsed one ingests exactly its pushed and projected transactions, in that order; without a pushed block a known height never goes down; a pushed block is always announced; the connection state is untouched |
| Feed.HandleMessage | js/websocket.js:86-121 | the fields of a parsed message ingest exactly its carried transactions and keep the connection state |
| Feed.HeightFields | js/websocket.js:87-100 | the `block` and `blocks` fields ingest nothing, announce a pushed block, and otherwise never lower a known height |
| Feed.InfoFields | js/websocket.js:102-108 | mempool info shows the mempool size and a non-empty `mempool-blocks` shows the first block's median fee; nothing else happens |
| Feed.TransactionFields | js/websocket.js:110-116 | the pushed batch and then the projected additions are ingested, each exactly once |
| Feed.DifficultyField | js/websocket.js:118-121 | the hash rate is shown exactly when difficulty data is present |
| Feed.DemoBlockTick | js/websocket.js:327-331 | a demo tick finds a block exactly when its draw is below 0.02, at one above the stored height, or 878001 when none is known |
| Feed.DemoBlocksCountUp | js/websocket.js:329-330 | with a known height, demo blocks alone raise it by exactly the number of blocks found |
| Feed.DemoValue | js/websocket.js:340-352 | a demo value lies in the bucket its draw selects: up to 0.1 BTC below 0.7, 0.1–10 below 0.95, 10–100 below 0.99, else 100–1000 |
| Feed.DrawnFeeRate | js/websocket.js:357 | the drawn demo fee rate lies in [5, 54] |
| Feed.DemoTxBase | js/websocket.js:354-361 | a demo transaction's fee lies in [0, 49999] and its size in [200, 699] vbytes |
| Feed.GenerateDemoTransactionAsWritten | js/websocket.js:354-363 | as written, the drawn fee rate goes into a field normalisation never reads |
| Feed.DemoFeeRateDiscarded | js/websocket.js:357-363 | a demo record drawn with fee rate 5 reaches the ledger with fee rate 250 |
| Feed.GenerateDemoTransaction | js/websocket.js:354-363 | corrected, the drawn fee rate is put where normalisation reads it |
| Feed.DemoTransactionIngested | js/websocket.js:335-363 | the corrected demo record reaches the ledger with its bucketed value, a fee rate in [5, 54] and a size in [200, 699] |
| Feed.HexDigitFor | js/websocket.js:370 | each draw picks a lower-case hex digit |
| Feed.EveryHexDigitReachable | js/websocket.js:367-370 | every hex digit is picked by some draw |
| Feed.GenerateRandomTxid | js/websocket.js:366-373 | a transaction id is exactly 64 lower-case hex digits, the i-th chosen by the i-th draw |
| Effects.Reuse | js/effects.js:120-153 | reusing an overlay clears its pending timer exactly when one is stored, builds it exactly when it does not exist yet, and ends by scheduling its hiding |
| Effects.ReuseRunBuildsOnce | js/effects.js:156-194 | however often an element is reused it is built at most once, and each stored timer is cleared before the next is scheduled |
| Effects.CountOfReuse | js/effects.js:158-179 | one reuse builds at most once, schedules one hide and clears at most one timer |
| Effects.PulseBloom | js/effects.js:84-89 | a pulse does nothing without a bloom pass or while one is in flight; otherwise it takes the lock and ramps from the current strength |
| Effects.PulseBloomSingleFlight | js/effects.js:85-87 | while a pulse is in flight no request starts a second one |
| Effects.EaseOutSecondHalf | js/effects.js:96 | on the second half of the animation the cubic ease lies in [0.875, 1] |
| Effects.BloomFrame | js/effects.js:91-114 | the ramp-up writes at most 1.5; the frame that reaches the end sets the base strength 0.5 and frees the lock; earlier frames keep the lock |
| Effects.RampDownWithinCap | js/effects.js:102-106 | for the targets the code requests, the ramp-down half stays within [0.5, 1.5] |
| Effects.PulseEndsAtBase | js/effects.js:108-113 | whatever frames come first, a pulse whose last frame reaches the end leaves the strength at the base and the lock free |
| Effects.FramesIdle | js/effects.js:91-93 | without a pulse in flight, animation frames change nothing |
| Effects.OnWhaleTransaction | js/effects.js:60-81 | a trigger under 500 ms after the last accepted one does nothing; otherwise the time is recorded, the shake is 0.8 when large and 0.4 otherwise, a bloom pulse starts exactly when none is in flight, and both overlays are shown with their hiding scheduled, each built exactly when it did not exist and its timer cleared exactly when one was stored |
| Effects.WhaleCallBuilds | js/effects.js:60-81 | one whale trigger builds an overlay element exactly when it reacts and the element does not exist yet |
| Effects.WhaleRunBuildsOverlaysOnce | js/effects.js:120-153 | over any run of whale triggers each overlay element is built at most once, and never when it already existed |
| Effects.WhaleReactionsSpaced | js/effects.js:32-33 | accepted whale reactions are at least 500 ms apart, the first at least 500 ms after the last one before |
| Effects.TwoWhalesWithinWindow | js/effects.js:60-64 | two whale triggers 100 ms apart produce one reaction, the first |
| Effects.OnNewBlock | js/effects.js:203-212 | a new block flashes, shakes at 0.8 and requests a bloom surge toward 2 |
| Hud.HalvingCountdown | js/hud.js:216-237 | a falsy height shows nothing; otherwise "HALVED!" exactly when 1,050,000 is reached, else the blocks left, orange exactly under 1000, yellow exactly from 1000 to under 10000, default from 10000 |
| Hud.HalvingUrgencyMonotone | js/hud.js:218-234 | as the chain grows the countdown only becomes more urgent |
| Hud.ChangeColour | js/hud.js:253-259 | green exactly above +5%, red exactly below −5%, neutral in between |
| Hud.UpdateDifficultyAdjustment | js/hud.js:240-261 | missing data shows nothing; a falsy progress or change counts as 0, a truthy one is shown as given; '+' is shown exactly when the change is not negative |
| Hud.DifficultyColourSymmetric | js/hud.js:253-256 | a rise is green exactly when the same fall is red |
| Hud.UpdateFeeRate | js/hud.js:311-326 | null is ignored; otherwise the rate is shown rounded, red exactly above 50, orange exactly above 20 up to 50, cyan up to 20 |
| Hud.FeeColourMonotone | js/hud.js:318-324 | a higher fee is never shown in a calmer colour |
| Hud.UpdatePrice | js/hud.js:272-302 | a falsy price is ignored; otherwise it is stored; against a stored price it turns green when higher and red when lower, keeps the colour when equal, and reschedules the colour reset; the first price changes no colour |
| Hud.PriceColourReset | js/hud.js:294-296 | the reset timer clears the colour and keeps the stored price |
| Hud.UpdatePriceRepeatKeepsView | js/hud.js:284-290 | the same price reported twice changes neither the stored price nor the colour |
| Hud.FirstPriceUncoloured | js/hud.js:283-284 | the very first price is stored without colouring or scheduling anything |
| Hud.UpdateBlockHeight | js/hud.js:201-213 | a falsy height is ignored; otherwise it is shown and recorded, flashes, and drives the halving countdown |
| Hud.UpdateMempoolSize | js/hud.js:305-310 | null is ignored and any number, 0 included, is shown |
| Hud.ZeroGuards | js/hud.js:202 | an empty mempool is shown but a block height of 0 is not |
| Hud.QuoteIndex | js/hud.js:398 | a draw selects an index among the 17 quotes |
| Hud.PickQuote | js/hud.js:396-399 | the loop stops at the first draw outside the history (while the history is under 15) and returns that draw's index, which is fresh |
| Hud.PickQuoteFindsFresh | js/hud.js:397-399 | any draw sequence that ever leaves the history yields a pick no later than that draw |
| Hud.ShowNextQuote | js/hud.js:401-405 | the pick is pushed and the history trimmed to its five newest entries, the pick last |
| Hud.ShowNextQuoteKeepsDistinct | js/hud.js:394-405 | the quote history never holds the same quote twice |
| Hud.Unit | js/hud.js:479-483 | every suffix unit is at least 1 |
| Hud.FormatNumber | js/hud.js:478-484 | the suffix is T exactly from 10^12 and none exactly below 1000; with B, M or K the scaled value lies in [1, 1000); scaled value times unit is the number |
| Hud.FormatNumberSuffixMonotone | js/hud.js:479-483 | a larger number never gets a smaller suffix |
| LightCycle.Initial | js/light-cycle.js:20-49 | a new light cycle is valid, not disposed and mining, holds the fixtures loaded so far plus the cube group, and has no monuments or pushing block |
| LightCycle.AddTransaction | js/light-cycle.js:274-278 | a transaction only advances the gauge and keeps the state valid |
| LightCycle.ReleasePushingBlock | js/light-cycle.js:338-362 | without a pushing block nothing happens; otherwise it is removed, its materials disposed and its timer cleared; no geometry is disposed |
| LightCycle.ReleasePushingBlockIdempotent | js/light-cycle.js:339 | releasing twice releases nothing the second time |
| LightCycle.CreatePushingBlock | js/light-cycle.js:290-336 | the old pushing block is released and a stored timer cleared first; the new block is added and its release scheduled in 30 s; monuments, gauge and particles stay |
| LightCycle.PushingBlockReplaced | js/light-cycle.js:292-299 | two blocks in a row leave only the second alive, the first released with its timer cleared |
| LightCycle.MarkDisposed | js/light-cycle.js:387 | every monument handed over is flagged disposed |
| LightCycle.ReleaseMonuments | js/light-cycle.js:560-574 | each monument is removed and both of its materials disposed; no geometry is disposed |
| LightCycle.ReleaseParticles | js/light-cycle.js:499-504 | each particle is removed and its material disposed; the shared geometry is kept |
| LightCycle.CreateMonument | js/light-cycle.js:364-401 | the new monument is added last and starts to fall; at most ten remain, the oldest evicted first, flagged so its animation stops, and released without disposing shared geometry |
| LightCycle.CreateMonumentEvictsOldest | js/light-cycle.js:385-387 | below ten monuments nothing is evicted; at ten exactly the oldest is, flagged |
| LightCycle.ArrivalEvents | js/light-cycle.js:381-399 | the monument is added and starts falling, then every evicted monument is removed and its materials disposed |
| LightCycle.Reset | js/light-cycle.js:427-436 | the gauge is emptied and every particle removed with its material disposed |
| LightCycle.OnBlockFound | js/light-cycle.js:280-288 | a no-op unless mining; after dispose it throws; otherwise it flashes, replaces the pushing block (every event of that replacement is emitted) and resets, removing every particle and disposing its material; the monuments are kept |
| LightCycle.Update | js/light-cycle.js:438-480 | nothing when disposed or not mining; otherwise exactly the particles still alive after fading remain, in order, and every particle whose life ran out is removed with its material disposed; no shared geometry is disposed |
| LightCycle.GetStats | js/light-cycle.js:482-484 | the stats report the fill, the count and the number of monuments |
| LightCycle.StatsAfterBlock | js/light-cycle.js:427-429 | after a found block the reported fill and count are 0 and the monument count is unchanged |
| LightCycle.DiscardFixtures | js/light-cycle.js:507-557 | a fixture is discarded exactly when it exists and is due in that step; its geometry is disposed exactly when, in addition, it is the trail or a fallback bike |
| LightCycle.DiscardFixture | js/light-cycle.js:519-556 | one fixture is removed with its materials; its geometry is disposed exactly for the trail and for a fallback bike |
| LightCycle.FixtureOrderComplete | js/light-cycle.js:507-582 | every kind of fixture is visited by dispose |
| LightCycle.ReleaseContents | js/light-cycle.js:498-582 | dispose removes every particle with its material, removes every monument with both its materials, and discards exactly the fixtures that exist; the only geometries it disposes are those of the trail and of a fallback bike, exactly when present; no shared geometry |
| LightCycle.ReleaseFront | js/light-cycle.js:498-557 | every particle is removed with its material disposed, and the glows, trail and bike are let go; of their geometries exactly the trail's and a fallback bike's are disposed |
| LightCycle.ReleaseBack | js/light-cycle.js:559-582 | every monument is removed with both its materials disposed, and then the cube group discarded; no geometry is disposed |
| LightCycle.DisposeHead | js/light-cycle.js:489-496 | the stored timer is cleared first, then the pushing block released |
| LightCycle.DisposeEvents | js/light-cycle.js:486-586 | dispose clears the timer, releases the pushing block, removes every particle and every monument with their materials disposed, and discards every fixture |
| LightCycle.DisposeKeepsSharedGeometry | js/light-cycle.js:498-574 | dispose disposes no shared geometry; it disposes exactly the geometries of the trail and of a fallback bike, when present |
| LightCycle.Dispose | js/light-cycle.js:486-586 | afterwards the light cycle is disposed and holds no particles, monuments, pushing block, timer or fixtures; the monuments are flagged |
| LightCycle.DisposeIdempotent | js/light-cycle.js:487-505 | a second dispose finds nothing left to release |
| MiningCube.FillScale | js/mining-cube.js:136-137 | the fill cube's scale is 0.76 per hundredth of fill, never below 1 |
| MiningCube.FillScaleMonotone | js/mining-cube.js:133-137 | a fuller gauge never shows a lower fill cube; full shows 76, empty 1 |
| MiningCube.Initial | js/mining-cube.js:8-35 | a new mining cube is valid and mining, with no monuments or particles |
| MiningCube.AddTransaction | js/mining-cube.js:129-181 | the gauge advances, the fill cube never drops, and one particle at full life is added last |
| MiningCube.TransactionsRaiseFill | js/mining-cube.js:129-142 | after n transactions into an emptied cube there are n particles and the fill cube stands at min(n, 100) hundredths |
| MiningCube.RaiseFrom | js/mining-cube.js:129-142 | n transactions add n particles and keep the cube valid |
| MiningCube.ReleaseParticles | js/mining-cube.js:277-281 | each particle is removed with its geometry and material disposed |
| MiningCube.CreateMonumentWith | js/mining-cube.js:199-236 | the new monument is added last and starts to fall; at most ten remain, and only the single oldest is evicted, at ten |
| MiningCube.Arrival | js/mining-cube.js:223-235 | the monument is added and starts falling, then each evicted monument is released in turn |
| MiningCube.AsWrittenLeaksOutline | js/mining-cube.js:211-235 | as written, the eleventh monument evicts the oldest but leaves its outline geometry and material undisposed |
| MiningCube.CreateMonumentReleasesEvicted | js/mining-cube.js:229-235 | corrected, every evicted monument leaves the scene with all four resources it owns disposed |
| MiningCube.Reset | js/mining-cube.js:268-283 | the gauge is emptied, the fill cube laid flat, and every particle removed with both resources disposed; the rest is kept |
| MiningCube.OnBlockFound | js/mining-cube.js:184-197 | a no-op unless mining; otherwise it flashes, lays down a monument, releasing an evicted one with the given release, and resets; every event of the arrival is emitted and nothing but the flash and particle releases besides; every particle is removed with its geometry and material disposed |
| MiningCube.OnBlockFoundAsWrittenLeaksOutline | js/mining-cube.js:184-235 | as written, a block found with ten monuments standing removes the oldest but never disposes its outline geometry and material |
| MiningCube.OnBlockFoundReleasesEvicted | js/mining-cube.js:184-235 | corrected, a found block releases every evicted monument with all four resources it owns |
| MiningCube.Update | js/mining-cube.js:285-323 | nothing when not mining; otherwise exactly the particles still alive after fading remain, and every particle whose life ran out is removed with both resources disposed |
| MiningCube.GetStats | js/mining-cube.js:326-332 | the stats report the fill, the count and the number of monuments |
| MiningCube.StatsAfterBlock | js/mining-cube.js:184-197 | after a found block the fill and count are 0 and the monument count grows by one, up to ten |

## Left out

- Rendering, shaders, the bike model and its hover are left out. So are
  positions, `lerp`, rotations, opacities and the laser pulse. Only what is
  added, removed or disposed is modelled.
- Audio (`js/audio.js`), sharing (`js/share.js`), the bootstrap in
  `js/main.js` and DOM listeners are left out. They hold no bookkeeping.
- The network is left out: sockets, `fetch`, JSON parsing and the price,
  height and hash-rate polling. Parsed messages and polled values are
  inputs.
- Timers and animation frames are left out; scheduling and clearing a
  timer are outputs. Each reconnect calls `connect()` again, which restarts
  price and height polling and overwrites the interval handles. That is not
  modelled, and neither is timer exclusivity. Demo mode, once started, is
  never stopped by a reconnect, and the model does not pretend otherwise.
- `Math.random` and `Date.now()` are parameters.
- Number formatting is left out: `toFixed`, `toLocaleString`,
  `Intl.NumberFormat` and the hash rate's conversion to EH/s. Only the
  branch and suffix choices are modelled. `updateHashRate` and
  `flashElement` are display-only.
- The fill level counts exact hundredths, and the bloom and scale
  arithmetic is exact `real`. The source's floating point drifts slightly
  on the repeated `+ 0.01`; that drift is not modelled.
- The mining cube's camera shake on impact and the monuments' fall
  frames are left out. The light cycle's `userData.disposed` flag is
  modelled, because it stops the fall.
- Gauge.AddTransaction: the fill is counted in exact hundredths and
  saturates at exactly 100. The source adds the double 0.01, whose
  rounding error the model does not carry.
- Feed.TxFeeRate: the contract does not describe the third fallback.
  `Math.round(fee / vsize)` is modelled as `None` when `fee` or `vsize` is
  missing or `vsize` is 0. In JavaScript those give `NaN` or `Infinity`,
  and reals have neither.
- Feed.OnMessage: only an unparsable message is modelled as failing. In the
  source every handler runs inside one `try`/`catch` (`js/websocket.js:83-125`),
  so a handler that throws ends the message early and the later fields are
  skipped. The model assumes every handler succeeds.
- Feed.TxValue: an output without a numeric value makes the JavaScript sum
  `NaN`. Outputs are modelled as integers.
- Hud.FormatNumber: models the suffix choice and the scaled value, not the
  two-decimal string.
- Hud.PickQuote: takes a finite list of draws and returns `None` when they
  run out. The source's loop ends only with probability 1.
- Effects.OnWhaleTransaction: the darken overlay's intensity and
  transition, and the indicator's text and colours, are not modelled.
- LightCycle.OnBlockFound: the block data handed to the pushing block is
  not kept.
- LightCycle.DisposeKeepsSharedGeometry: the glow plane (`js/light-cycle.js:214`)
  and the loaded bike model's geometries belong to one light cycle, yet
  `dispose` never disposes them (`js/light-cycle.js:507-516, 536-557`). The
  model reports the geometries `dispose` does release and does not claim
  that teardown frees every geometry the light cycle owns.
- LightCycle.Dispose: the `try`/`catch` wrappers around each release are
  not modelled. Every release is assumed to succeed.

## Findings

| source | as written | input that shows it | evidently intended | confidence | as-written member | corrected member |
|---|---|---|---|---|---|---|
| js/transactions.js:323-339 | `dispose` traverses the mesh and disposes every child's material, including the module-wide `HITBOX_MATERIAL` every vehicle shares (line 56) | any transaction with a mesh, e.g. a new light cycle, disposed once | release only the materials the transaction created, as the comment on lines 327-328 says of geometries | not executed | Transactions.DisposeAsWrittenReleasesSharedMaterial | Transactions.Dispose |
| js/mining-cube.js:229-235 | evicting a monument disposes the box geometry and material, but not the `EdgesGeometry` and `LineBasicMaterial` of the outline child created for it (lines 212-215) | ten monuments, then one more found block | the evicted monument's outline geometry and material are disposed too | not executed | MiningCube.OnBlockFoundAsWrittenLeaksOutline | MiningCube.OnBlockFoundReleasesEvicted |
| js/websocket.js:354-363 | the demo generator puts its drawn fee rate into `feeRate`, but `processTransaction` reads `rate`, then `feePerVsize`, then `Math.round(fee / vsize)` (line 178) | draws 0 for the fee rate, 0.99998 for the fee and 0 for the size: drawn rate 5, ledger receives 250 | the ledger receives the drawn fee rate in [5, 54] | not executed | Feed.DemoFeeRateDiscarded | Feed.DemoTransactionIngested |

=== FILE: effects.dfy ===
/** Derived visual effects: the throttled whale reaction, the single-flight
    bloom pulse, and the two overlay elements that are created once and then
    reused with one pending timer each. Time is a parameter; the animation
    frame is driven by the ratio of elapsed time to duration. */
module Effects {
  import opened Values

  const WhaleThrottleMs := 500
  const BaseBloomStrength: real := 0.5
  const RampUpCap: real := 1.5
  const WhaleIndicatorMs := 1500

  /** A bloom ramp in flight: the strength it started from and its target. */
  datatype Ramp = Ramp(start: real, target: real)

  /** A DOM element built on first use and kept, and whether a hide-timer
      handle is stored (the handle stays stored after the timer fires). */
  datatype Reusable = Reusable(created: bool, timerSet: bool)

  datatype Effects = Effects(
    lastWhaleTime: int,
    hasBloomPass: bool,
    bloomStrength: real,
    ramp: Option<Ramp>,        // Some while `isBloomAnimating`
    darken: Reusable,
    indicator: Reusable)

  /** The effects as constructed, with or without a bloom pass in the scene. */
  function Initial(hasBloomPass: bool, strength: real): Effects {
    Effects(0, hasBloomPass, strength, None, Reusable(false, false), Reusable(false, false))
  }

  /** The two overlay elements a whale reaction reuses: the darkening
      layer and the whale indicator. */
  datatype Overlay = Darken | Indicator

  datatype Output =
    | Shake(intensity: real)
    | Flash
    | BloomStarted(target: real)
    | CreateElement(overlay: Overlay)
    | ClearTimer(overlay: Overlay)
    | Show(overlay: Overlay)
    | ScheduleHide(overlay: Overlay)

  /** An output that concerns overlay `o` and nothing else. */
  predicate About(x: Output, o: Overlay) {
    (x.CreateElement? || x.ClearTimer? || x.Show? || x.ScheduleHide?) && x.overlay == o
  }

  /** `out` shows overlay `o` and schedules its hiding, clears its timer
      exactly when one was stored in `before`, and builds it exactly when it
      did not exist yet. */
  predicate OverlayShown(before: Reusable, out: seq<Output>, o: Overlay) {
    && Show(o) in out && ScheduleHide(o) in out
    && (ClearTimer(o) in out <==> before.timerSet)
    && (CreateElement(o) in out <==> !before.created)
  }

  /** The stored state of overlay `o`. */
  function Element(e: Effects, o: Overlay): Reusable {
    match o
    case Darken => e.darken
    case Indicator => e.indicator
  }

  /** Reusing an element: clear the pending timer if any, build the element
      only if it does not exist yet, show it and schedule its hiding. */
  function Reuse(r: Reusable, o: Overlay): (res: (Reusable, seq<Output>))
    ensures res.0 == Reusable(true, true)
    ensures (CreateElement(o) in res.1) <==> !r.created
    ensures (ClearTimer(o) in res.1) <==> r.timerSet
    ensures r.timerSet ==> res.1[0] == ClearTimer(o)
    ensures Show(o) in res.1 && ScheduleHide(o) in res.1
    ensures res.1[|res.1| - 1] == ScheduleHide(o)
  {
    ((Reusable(true, true)),
     (if r.timerSet then [ClearTimer(o)] else []) +
     (if !r.created then [CreateElement(o)] else []) +
     [Show(o), ScheduleHide(o)])
  }

  function Count(out: seq<Output>, o: Output): nat {
    if out == [] then 0 else (if out[0] == o then 1 else 0) + Count(out[1..], o)
  }

  lemma {:induction false} CountAppend(a: seq<Output>, b: seq<Output>, o: Output)
    ensures Count(a + b, o) == Count(a, o) + Count(b, o)
    decreases |a|
  {
    if a != [] {
      assert (a + b)[0] == a[0] && (a + b)[1..] == a[1..] + b;
      CountAppend(a[1..], b, o);
    } else {
      assert a + b == b;
    }
  }

  /** Every output of reusing an overlay concerns that overlay. */
  lemma ReuseConcerns(r: Reusable, o: Overlay)
    ensures forall x :: x in Reuse(r, o).1 ==> About(x, o)
  {
  }

  /** `n` reuses in a row. */
  function ReuseRun(r: Reusable, o: Overlay, n: nat): (Reusable, seq<Output>)
    decreases n
  {
    if n == 0 then (r, [])
    else
      var rest := ReuseRun(Reuse(r, o).0, o, n - 1);
      (rest.0, Reuse(r, o).1 + rest.1)
  }

  /** However often an element is reused, it is built at most once, and
      every stored hide-timer handle is cleared before the next is
      scheduled. */
  lemma ReuseRunBuildsOnce(r: Reusable, o: Overlay, n: nat)
    requires n > 0
    ensures Count(ReuseRun(r, o, n).1, CreateElement(o)) == if r.created then 0 else 1
    ensures Count(ReuseRun(r, o, n).1, ScheduleHide(o)) == n
    ensures Count(ReuseRun(r, o, n).1, ClearTimer(o)) == if r.timerSet then n else n - 1
  {
    CountOfReuse(r, o);
    CountOfReuse(Reusable(true, true), o);
    ReuseRunCount(r, o, n, CreateElement(o));
    ReuseRunCount(r, o, n, ScheduleHide(o));
    ReuseRunCount(r, o, n, ClearTimer(o));
  }

  /** After the first reuse the element exists with a stored timer, so
      every later reuse repeats the same outputs. */
  lemma {:induction false} ReuseRunCount(r: Reusable, o: Overlay, n: nat, x: Output)
    requires n > 0
    ensures Count(ReuseRun(r, o, n).1, x) ==
      Count(Reuse(r, o).1, x) + (n - 1) * Count(Reuse(Reusable(true, true), o).1, x)
    decreases n
  {
    var r1 := Reusable(true, true);
    var o1 := Reuse(r, o).1;
    var o2 := ReuseRun(r1, o, n - 1).1;
    assert ReuseRun(r, o, n).1 == o1 + o2;
    CountAppend(o1, o2, x);
    var c := Count(Reuse(r1, o).1, x);
    if n > 1 {
      ReuseRunCount(r1, o, n - 1, x);
      assert Count(o2, x) == c + (n - 2) * c;
      assert c + (n - 2) * c == (n - 1) * c;
    } else {
      assert o2 == [];
    }
  }

  lemma CountOfReuse(r: Reusable, o: Overlay)
    ensures Count(Reuse(r, o).1, CreateElement(o)) == if r.created then 0 else 1
    ensures Count(Reuse(r, o).1, ScheduleHide(o)) == 1
    ensures Count(Reuse(r, o).1, ClearTimer(o)) == if r.timerSet then 1 else 0
  {
    var a := if r.timerSet then [ClearTimer(o)] else [];
    var b := if !r.created then [CreateElement(o)] else [];
    var c := [Show(o), ScheduleHide(o)];
    assert Reuse(r, o).1 == a + b + c;
    assert c[1..] == [ScheduleHide(o)] && c[1..][1..] == [];
    forall x | x == CreateElement(o) || x == ClearTimer(o) || x == ScheduleHide(o)
      ensures Count(c, x) == if x == ScheduleHide(o) then 1 else 0
    {
      assert Count(c[1..][1..], x) == 0;
      assert Count(c[1..], x) == if x == ScheduleHide(o) then 1 else 0;
    }
    assert a != [] ==> a[1..] == [];
    assert b != [] ==> b[1..] == [];
    CountAppend(a, b, CreateElement(o));
    CountAppend(a + b, c, CreateElement(o));
    CountAppend(a, b, ScheduleHide(o));
    CountAppend(a + b, c, ScheduleHide(o));
    CountAppend(a, b, ClearTimer(o));
    CountAppend(a + b, c, ClearTimer(o));
  }

  /** An output that a list does not hold is counted zero times. */
  lemma {:induction false} CountAbsent(out: seq<Output>, x: Output)
    requires x !in out
    ensures Count(out, x) == 0
    decreases |out|
  {
    if out != [] {
      CountAbsent(out[1..], x);
    }
  }

  /** `pulseBloom`: a no-op without a bloom pass or while a pulse is in
      flight; otherwise takes the lock and starts a ramp from the current
      strength. */
  function PulseBloom(e: Effects, target: real): (r: Effects)
    ensures e.ramp.Some? || !e.hasBloomPass ==> r == e
    ensures e.ramp.None? && e.hasBloomPass ==> r == e.(ramp := Some(Ramp(e.bloomStrength, target)))
  {
    if !e.hasBloomPass || e.ramp.Some? then e
    else e.(ramp := Some(Ramp(e.bloomStrength, target)))
  }

  /** While a pulse is in flight, no request starts a second one. */
  lemma PulseBloomSingleFlight(e: Effects, target: real, other: real)
    requires e.hasBloomPass && e.ramp.None?
    ensures PulseBloom(PulseBloom(e, target), other) == PulseBloom(e, target)
    ensures PulseBloom(PulseBloom(e, target), other).ramp == Some(Ramp(e.bloomStrength, target))
  {
  }

  /** The cubic ease-out `1 - (1 - t)^3`. */
  function EaseOut(t: real): real {
    1.0 - (1.0 - t) * (1.0 - t) * (1.0 - t)
  }

  /** On the second half of the animation the ease lies in [0.875, 1]. */
  lemma EaseOutSecondHalf(t: real)
    requires 0.5 <= t <= 1.0
    ensures 0.875 <= EaseOut(t) <= 1.0
  {
    var u := 1.0 - t;
    assert 0.0 <= u <= 0.5;
    assert 0.0 <= u * u <= 0.25 by {
      assert u * u <= 0.5 * u;
    }
    assert 0.0 <= u * u * u <= 0.125 by {
      assert u * u * u <= 0.25 * u;
    }
  }

  /** The strength the ramp-down half writes. */
  function RampDown(ramp: Ramp, eased: real): real {
    ramp.target - (ramp.target - BaseBloomStrength) * ((eased - 0.5) * 2.0)
  }

  /** One animation frame of a pulse, at elapsed / duration = `ratio`. The
      first half ramps up, capped at 1.5; the second half ramps down toward
      the base; at the end the strength is the base and the lock is freed. */
  function BloomFrame(e: Effects, ratio: real): (r: Effects)
    ensures e.ramp.None? ==> r == e
    ensures e.ramp.Some? && ratio >= 1.0 ==> r.bloomStrength == BaseBloomStrength && r.ramp.None?
    ensures e.ramp.Some? && ratio < 1.0 ==> r.ramp == e.ramp
    ensures e.ramp.Some? && ratio < 0.5 ==> r.bloomStrength <= RampUpCap
    ensures r.lastWhaleTime == e.lastWhaleTime && r.darken == e.darken && r.indicator == e.indicator
  {
    match e.ramp
    case None => e
    case Some(ramp) =>
      var t := if ratio < 1.0 then ratio else 1.0;
      var eased := EaseOut(t);
      var strength :=
        if t < 0.5 then
          var s := ramp.start + (ramp.target - ramp.start) * (eased * 2.0);
          if s < RampUpCap then s else RampUpCap
        else RampDown(ramp, eased);
      if t < 1.0 then e.(bloomStrength := strength)
      else e.(bloomStrength := BaseBloomStrength, ramp := None)
  }

  /** For every target the code requests (0.9, 1.2 and 2), the ramp-down
      half also stays within [0.5, 1.5]: any target from 0.5 to 4.5 does. */
  lemma RampDownWithinCap(e: Effects, ratio: real)
    requires e.ramp.Some? && 0.5 <= e.ramp.value.target <= 4.5
    requires 0.5 <= ratio < 1.0
    ensures BaseBloomStrength <= BloomFrame(e, ratio).bloomStrength <= RampUpCap
  {
    EaseOutSecondHalf(ratio);
    var eased := EaseOut(ratio);
    var k := (eased - 0.5) * 2.0;
    assert 0.75 <= k <= 1.0;
    var d := e.ramp.value.target - BaseBloomStrength;
    assert 0.0 <= d <= 4.0;
    assert d * k <= d && d * k >= 0.75 * d by {
      assert d * (1.0 - k) >= 0.0;
      assert d * (k - 0.75) >= 0.0;
    }
  }

  /** Frames driven to the end of the pulse. */
  function Frames(e: Effects, ratios: seq<real>): Effects
    decreases |ratios|
  {
    if ratios == [] then e else Frames(BloomFrame(e, ratios[0]), ratios[1..])
  }

  /** Whatever frames come first, a pulse whose last frame reaches the end
      leaves the strength at the base and the lock free. */
  lemma {:induction false} PulseEndsAtBase(e: Effects, ratios: seq<real>)
    requires |ratios| > 0 && ratios[|ratios| - 1] >= 1.0
    ensures e.ramp.None? ==> Frames(e, ratios) == e
    ensures e.ramp.Some? ==> Frames(e, ratios).ramp.None? && Frames(e, ratios).bloomStrength == BaseBloomStrength
    decreases |ratios|
  {
    if |ratios| == 1 {
      assert Frames(e, ratios) == Frames(BloomFrame(e, ratios[0]), []);
      if e.ramp.None? {
        FramesIdle(e, ratios);
      }
    } else {
      var e1 := BloomFrame(e, ratios[0]);
      if e.ramp.None? {
        FramesIdle(e, ratios);
      } else if ratios[0] >= 1.0 {
        FramesIdle(e1, ratios[1..]);
      } else {
        PulseEndsAtBase(e1, ratios[1..]);
      }
    }
  }

  /** Without a pulse in flight, frames change nothing. */
  lemma {:induction false} FramesIdle(e: Effects, ratios: seq<real>)
    requires e.ramp.None?
    ensures Frames(e, ratios) == e
    decreases |ratios|
  {
    if ratios != [] {
      FramesIdle(BloomFrame(e, ratios[0]), ratios[1..]);
    }
  }

  /** `onWhaleTransaction`: dropped when less than 500 ms after the last
      accepted one; otherwise records the time, shakes (0.8 when large, 0.4
      otherwise), starts a bloom pulse unless one is in flight, and reuses
      the darken overlay and the whale indicator. */
  function OnWhaleTransaction(e: Effects, now: int, isLarge: bool): (r: (Effects, seq<Output>))
    ensures now - e.lastWhaleTime < WhaleThrottleMs ==> r == (e, [])
    ensures now - e.lastWhaleTime >= WhaleThrottleMs ==>
      && r.0.lastWhaleTime == now
      && |r.1| > 0 && r.1[0] == Shake(if isLarge then 0.8 else 0.4)
      && r.0.ramp == PulseBloom(e, if isLarge then 1.2 else 0.9).ramp
      && (BloomStarted(if isLarge then 1.2 else 0.9) in r.1 <==> e.ramp.None? && e.hasBloomPass)
    ensures now - e.lastWhaleTime >= WhaleThrottleMs ==>
      && r.0.darken == Reusable(true, true) && r.0.indicator == Reusable(true, true)
      && OverlayShown(e.darken, r.1, Darken) && OverlayShown(e.indicator, r.1, Indicator)
  {
    if now - e.lastWhaleTime < WhaleThrottleMs then (e, []) else React(e, now, isLarge)
  }

  /** An accepted whale trigger: record the time, shake and pulse, then
      show both overlays. */
  function React(e: Effects, now: int, isLarge: bool): (r: (Effects, seq<Output>))
    ensures r.0.lastWhaleTime == now
    ensures |r.1| > 0 && r.1[0] == Shake(if isLarge then 0.8 else 0.4)
    ensures r.0.ramp == PulseBloom(e, if isLarge then 1.2 else 0.9).ramp
    ensures BloomStarted(if isLarge then 1.2 else 0.9) in r.1 <==> e.ramp.None? && e.hasBloomPass
    ensures r.0.darken == Reusable(true, true) && r.0.indicator == Reusable(true, true)
    ensures OverlayShown(e.darken, r.1, Darken) && OverlayShown(e.indicator, r.1, Indicator)
  {
    var (e2, head) := ShakeAndPulse(e.(lastWhaleTime := now), isLarge);
    var (e3, shown) := ShowOverlays(e2);
    var target := if isLarge then 1.2 else 0.9;
    NotAnOverlayOutput(shown, BloomStarted(target));
    assert (head + shown)[0] == head[0];
    OverlaysAfterHead(head, shown, e.darken, Darken);
    OverlaysAfterHead(head, shown, e.indicator, Indicator);
    (e3, head + shown)
  }

  /** The shake, then the bloom pulse unless one is in flight. */
  function ShakeAndPulse(e: Effects, isLarge: bool): (r: (Effects, seq<Output>))
    ensures r.0 == PulseBloom(e, if isLarge then 1.2 else 0.9)
    ensures |r.1| > 0 && r.1[0] == Shake(if isLarge then 0.8 else 0.4)
    ensures BloomStarted(if isLarge then 1.2 else 0.9) in r.1 <==> e.ramp.None? && e.hasBloomPass
    ensures forall x :: x in r.1 ==> x.Shake? || x.BloomStarted?
  {
    var target := if isLarge then 1.2 else 0.9;
    var e1 := PulseBloom(e, target);
    (e1, [Shake(if isLarge then 0.8 else 0.4)] + if e1.ramp != e.ramp then [BloomStarted(target)] else [])
  }

  /** `darkenScreen` then `showWhaleIndicator`: each overlay is reused, so
      both are shown and scheduled to hide, each built only if missing and
      each stored timer cleared. */
  function ShowOverlays(e: Effects): (r: (Effects, seq<Output>))
    ensures r.0 == e.(darken := Reusable(true, true), indicator := Reusable(true, true))
    ensures forall x :: x in r.1 ==> About(x, Darken) || About(x, Indicator)
    ensures OverlayShown(e.darken, r.1, Darken) && OverlayShown(e.indicator, r.1, Indicator)
  {
    var (dk, dOut) := Reuse(e.darken, Darken);
    var (ind, iOut) := Reuse(e.indicator, Indicator);
    ReuseConcerns(e.darken, Darken);
    ReuseConcerns(e.indicator, Indicator);
    assert forall x :: About(x, Darken) ==> (x in dOut + iOut <==> x in dOut);
    assert forall x :: About(x, Indicator) ==> (x in dOut + iOut <==> x in iOut);
    (e.(darken := dk, indicator := ind), dOut + iOut)
  }

  /** An output that concerns no overlay is not among overlay outputs. */
  lemma NotAnOverlayOutput(shown: seq<Output>, x: Output)
    requires forall y :: y in shown ==> About(y, Darken) || About(y, Indicator)
    requires !x.CreateElement? && !x.ClearTimer? && !x.Show? && !x.ScheduleHide?
    ensures x !in shown
  {
  }

  /** Outputs that concern no overlay, put in front, change nothing about
      which overlay outputs a list holds. */
  lemma OverlaysAfterHead(head: seq<Output>, shown: seq<Output>, before: Reusable, o: Overlay)
    requires forall x :: x in head ==> !x.CreateElement? && !x.ClearTimer? && !x.Show? && !x.ScheduleHide?
    requires OverlayShown(before, shown, o)
    ensures OverlayShown(before, head + shown, o)
  {
  }

  /** The times of the whale triggers accepted over a run of calls. */
  function WhaleRun(e: Effects, calls: seq<(int, bool)>): (r: (Effects, seq<int>))
    decreases |calls|
  {
    if calls == [] then (e, [])
    else
      var (e1, out) := OnWhaleTransaction(e, calls[0].0, calls[0].1);
      var (e2, acc) := WhaleRun(e1, calls[1..]);
      (e2, (if out != [] then [calls[0].0] else []) + acc)
  }

  /** The outputs of a run of whale calls, in order. */
  function WhaleOutputs(e: Effects, calls: seq<(int, bool)>): seq<Output>
    decreases |calls|
  {
    if calls == [] then []
    else
      var step := OnWhaleTransaction(e, calls[0].0, calls[0].1);
      step.1 + WhaleOutputs(step.0, calls[1..])
  }

  /** One whale call builds overlay `o` once if it is accepted and the
      overlay did not exist, and otherwise not at all. */
  lemma WhaleCallBuilds(e: Effects, now: int, isLarge: bool, o: Overlay)
    ensures var out := OnWhaleTransaction(e, now, isLarge).1;
      Count(out, CreateElement(o)) == (if out != [] && !Element(e, o).created then 1 else 0)
  {
    var out := OnWhaleTransaction(e, now, isLarge).1;
    if out != [] {
      var (e2, head) := ShakeAndPulse(e.(lastWhaleTime := now), isLarge);
      var shown := ShowOverlays(e2).1;
      assert out == React(e, now, isLarge).1 == head + shown;
      assert Element(e2, o) == Element(e, o);
      ShowOverlaysBuildOnce(e2, o);
      CountAfterHead(head, shown, CreateElement(o));
    }
  }

  /** Outputs in front that differ from `x` do not change its count. */
  lemma CountAfterHead(head: seq<Output>, rest: seq<Output>, x: Output)
    requires x !in head
    ensures Count(head + rest, x) == Count(rest, x)
  {
    CountAppend(head, rest, x);
    CountAbsent(head, x);
  }

  /** Showing the overlays builds overlay `o` once if it is missing and
      otherwise not at all. */
  lemma ShowOverlaysBuildOnce(e: Effects, o: Overlay)
    ensures Count(ShowOverlays(e).1, CreateElement(o)) == if Element(e, o).created then 0 else 1
  {
    var dOut := Reuse(e.darken, Darken).1;
    var iOut := Reuse(e.indicator, Indicator).1;
    assert ShowOverlays(e).1 == dOut + iOut;
    ReuseConcerns(e.darken, Darken);
    ReuseConcerns(e.indicator, Indicator);
    CountAppend(dOut, iOut, CreateElement(o));
    match o
    case Darken =>
      CountOfReuse(e.darken, Darken);
      CountAbsent(iOut, CreateElement(Darken));
    case Indicator =>
      CountOfReuse(e.indicator, Indicator);
      CountAbsent(dOut, CreateElement(Indicator));
  }

  /** However many whale transactions arrive, each overlay element is built
      at most once, and not at all when it already exists. */
  lemma {:induction false} WhaleRunBuildsOverlaysOnce(e: Effects, calls: seq<(int, bool)>, o: Overlay)
    ensures Count(WhaleOutputs(e, calls), CreateElement(o)) <= 1
    ensures Element(e, o).created ==> Count(WhaleOutputs(e, calls), CreateElement(o)) == 0
    decreases |calls|
  {
    if calls != [] {
      var (e1, out) := OnWhaleTransaction(e, calls[0].0, calls[0].1);
      WhaleCallBuilds(e, calls[0].0, calls[0].1, o);
      WhaleRunBuildsOverlaysOnce(e1, calls[1..], o);
      assert WhaleOutputs(e, calls) == out + WhaleOutputs(e1, calls[1..]);
      CountAppend(out, WhaleOutputs(e1, calls[1..]), CreateElement(o));
    }
  }

  /** Accepted whale reactions are at least 500 ms apart, the first at least
      500 ms after the last one recorded before the run. */
  lemma {:induction false} WhaleReactionsSpaced(e: Effects, calls: seq<(int, bool)>)
    ensures var (e', acc) := WhaleRun(e, calls);
      && (|acc| > 0 ==> acc[0] - e.lastWhaleTime >= WhaleThrottleMs)
      && (forall i :: 0 < i < |acc| ==> acc[i] - acc[i - 1] >= WhaleThrottleMs)
      && e'.lastWhaleTime == (if |acc| > 0 then acc[|acc| - 1] else e.lastWhaleTime)
    decreases |calls|
  {
    if calls != [] {
      var (e1, out) := OnWhaleTransaction(e, calls[0].0, calls[0].1);
      WhaleReactionsSpaced(e1, calls[1..]);
    }
  }

  /** Two whale transactions 100 ms apart: one reaction, from the first. */
  lemma TwoWhalesWithinWindow(e: Effects, t: int, large: bool)
    requires t - e.lastWhaleTime >= WhaleThrottleMs
    ensures WhaleRun(e, [(t, large), (t + 100, large)]).1 == [t]
  {
    var calls := [(t, large), (t + 100, large)];
    var (e1, out1) := OnWhaleTransaction(e, t, large);
    assert out1 != [] && e1.lastWhaleTime == t;
    var rest := calls[1..];
    assert rest == [(t + 100, large)] && rest[1..] == [];
    var (e2, out2) := OnWhaleTransaction(e1, t + 100, large);
    assert out2 == [] && e2 == e1;
    assert WhaleRun(e1, rest) == (WhaleRun(e2, rest[1..]).0, [] + WhaleRun(e2, rest[1..]).1);
    assert WhaleRun(e2, []) == (e2, []);
  }

  /** `onNewBlock`: flash, a strong shake, and a bloom surge toward 2 whose
      ramp-up is nonetheless capped at 1.5. */
  function OnNewBlock(e: Effects): (r: (Effects, seq<Output>))
    ensures |r.1| >= 2 && r.1[..2] == [Flash, Shake(0.8)]
    ensures r.0 == PulseBloom(e, 2.0)
    ensures e.ramp.None? && e.hasBloomPass ==> r.0.ramp == Some(Ramp(e.bloomStrength, 2.0))
  {
    var e1 := PulseBloom(e, 2.0);
    (e1, [Flash, Shake(0.8)] + (if e1.ramp != e.ramp then [BloomStarted(2.0)] else []))
  }
}

=== FILE: feed.dfy ===
/** The feed connector: connection bookkeeping, reconnect back-off and the
    fall-back to demo mode, the block-height rules, normalisation of raw
    transactions, and the deterministic part of the demo generator. Network
    traffic, timers and `Math.random` are outside; what the connector asks of
    the outside world is returned as a list of outputs. */
module Feed {
  import opened Values
  import Transactions

  const MaxReconnectAttempts := 10
  const ReconnectDelayMs := 2000
  /** The height shown, and assumed for demo blocks, when none is known. */
  const DemoHeight := 878000
  const DemoMempoolSize := 50000
  const DemoFeeRate: real := 15.0
  const DemoHashrate: real := 700_000_000_000_000_000_000.0
  const DemoBlockChance: real := 0.02
  /** 10 BTC: from here a transaction plays the whale sound. */
  const WhaleSoundSats := 1_000_000_000
  const TxidLength := 64
  const HexDigits := "0123456789abcdef"

  datatype Feed = Feed(
    isConnected: bool,
    reconnectAttempts: nat,
    lastBlockHeight: Option<int>,
    demoMode: bool)

  /** The connector as constructed: nothing known, nothing connected. */
  function Initial(): Feed {
    Feed(false, 0, None, false)
  }

  /** A stored height counts as known when it is truthy. */
  predicate Known(h: Option<int>) {
    TruthyInt(h)
  }

  datatype Block = Block(height: int)

  /** What the connector asks of the socket, the timers and the collaborators. */
  datatype Output =
    | Subscribe                        // want blocks/stats/mempool-blocks, track next block
    | TrackNextBlock                   // re-send the track request
    | ScheduleReconnect(delayMs: nat)
    | StartDemoTimers                  // the demo transaction and block intervals
    | ShowBlockHeight(height: int)
    | ShowMempoolSize(size: Option<int>)
    | ShowFeeRate(rate: Option<real>)
    | ShowHashRate(rate: Option<real>)
    | BlockFound(block: Block)         // the mining scene's onBlockFound
    | BlockSound
    | Ingest(tx: Transactions.TxData)  // ledger and mining scene addTransaction
    | WhaleSound(isLarge: bool)

  /** `onOpen`: connected, attempt counter reset, subscriptions sent. A
      successful open restarts the back-off: the next closure reconnects
      after the first delay again, whatever came before. Demo mode, once
      on, is not switched off. */
  function OnOpen(f: Feed): (r: (Feed, seq<Output>))
    ensures r.0.isConnected
    ensures OnClose(r.0).1 == [ScheduleReconnect(ReconnectDelayMs)]
    ensures r.0.lastBlockHeight == f.lastBlockHeight && r.0.demoMode == f.demoMode
    ensures Subscribe in r.1 && ShownHeights(r.1) == []
  {
    (f.(isConnected := true, reconnectAttempts := 0), [Subscribe])
  }

  /** `startDemoMode`: guarded by the demo flag, so starting twice does
      nothing the second time. The HUD is shown demo values; the stored
      height is left as it is. */
  function StartDemoMode(f: Feed): (r: (Feed, seq<Output>))
    ensures r.0.demoMode
    ensures r.0.isConnected == f.isConnected && r.0.reconnectAttempts == f.reconnectAttempts
    ensures r.0.lastBlockHeight == f.lastBlockHeight
    ensures f.demoMode ==> r == (f, [])
    ensures !f.demoMode ==> StartDemoTimers in r.1 && ShowBlockHeight(DemoHeight) in r.1
    ensures !f.demoMode ==>
      && ShowMempoolSize(Some(DemoMempoolSize)) in r.1
      && ShowFeeRate(Some(DemoFeeRate)) in r.1
      && ShowHashRate(Some(DemoHashrate)) in r.1
  {
    if f.demoMode then (f, [])
    else
      (f.(demoMode := true),
       [ShowBlockHeight(DemoHeight), ShowMempoolSize(Some(DemoMempoolSize)),
        ShowFeeRate(Some(DemoFeeRate)), ShowHashRate(Some(DemoHashrate)), StartDemoTimers])
  }

  lemma StartDemoModeIdempotent(f: Feed)
    ensures StartDemoMode(StartDemoMode(f).0) == (StartDemoMode(f).0, [])
  {
  }

  /** `onClose`: below the ceiling, count the attempt and reconnect after
      2000 ms times the attempt number; at the ceiling, fall back to demo
      mode and schedule nothing. */
  function OnClose(f: Feed): (r: (Feed, seq<Output>))
    ensures !r.0.isConnected && r.0.lastBlockHeight == f.lastBlockHeight
    ensures f.reconnectAttempts < MaxReconnectAttempts ==>
      && r.0.reconnectAttempts == f.reconnectAttempts + 1
      && r.0.demoMode == f.demoMode
      && r.1 == [ScheduleReconnect(ReconnectDelayMs * r.0.reconnectAttempts)]
    ensures f.reconnectAttempts >= MaxReconnectAttempts ==>
      && r.0.reconnectAttempts == f.reconnectAttempts
      && r.0.demoMode
      && forall o :: o in r.1 ==> !o.ScheduleReconnect?
    ensures f.reconnectAttempts <= MaxReconnectAttempts ==> r.0.reconnectAttempts <= MaxReconnectAttempts
  {
    var f1 := f.(isConnected := false);
    if f1.reconnectAttempts < MaxReconnectAttempts then
      var n := f1.reconnectAttempts + 1;
      (f1.(reconnectAttempts := n), [ScheduleReconnect(ReconnectDelayMs * n)])
    else
      StartDemoMode(f1)
  }

  /** `n` consecutive abnormal closures with no successful open between. */
  function Closes(f: Feed, n: nat): (Feed, seq<Output>)
    decreases n
  {
    if n == 0 then (f, [])
    else
      var (f1, o1) := OnClose(f);
      var (f2, o2) := Closes(f1, n - 1);
      (f2, o1 + o2)
  }

  /** Up to the ceiling each closure schedules one reconnect, the k-th after
      2000·k ms, so the delays 2000, 4000, … strictly increase. */
  lemma {:induction false} ClosesScheduleGrowingDelays(f: Feed, n: nat)
    requires f.reconnectAttempts + n <= MaxReconnectAttempts
    ensures Closes(f, n).0.reconnectAttempts == f.reconnectAttempts + n
    ensures Closes(f, n).0.demoMode == f.demoMode
    ensures |Closes(f, n).1| == n
    ensures forall i :: 0 <= i < n ==>
      Closes(f, n).1[i] == ScheduleReconnect(ReconnectDelayMs * (f.reconnectAttempts + i + 1))
    decreases n
  {
    if n > 0 {
      var (f1, o1) := OnClose(f);
      ClosesScheduleGrowingDelays(f1, n - 1);
    }
  }

  /** Once the ceiling is reached, further closures keep demo mode on and
      never schedule a reconnect. */
  lemma {:induction false} ClosesAfterCeilingNeverReconnect(f: Feed, n: nat)
    requires f.reconnectAttempts >= MaxReconnectAttempts
    requires n > 0
    ensures Closes(f, n).0.demoMode
    ensures Closes(f, n).0.reconnectAttempts == f.reconnectAttempts
    ensures forall o :: o in Closes(f, n).1 ==> !o.ScheduleReconnect?
    decreases n
  {
    var (f1, o1) := OnClose(f);
    if n > 1 {
      ClosesAfterCeilingNeverReconnect(f1, n - 1);
    }
  }

  /** Eleven closures from a fresh counter: ten reconnects are scheduled,
      then demo mode starts, with no reconnect after it. */
  lemma EleventhClosureStartsDemo(f: Feed)
    requires f.reconnectAttempts == 0 && !f.demoMode
    ensures var (f', out) := Closes(f, 11);
      && f'.demoMode && f'.reconnectAttempts == MaxReconnectAttempts
      && |out| > 10
      && (forall i :: 0 <= i < 10 ==> out[i] == ScheduleReconnect(ReconnectDelayMs * (i + 1)))
      && (forall i :: 10 <= i < |out| ==> !out[i].ScheduleReconnect?)
      && StartDemoTimers in out[10..]
  {
    ClosesScheduleGrowingDelays(f, 10);
    ClosesSplit(f, 10);
    var (f10, o10) := Closes(f, 10);
    var (f11, last) := OnClose(f10);
    var out := o10 + last;
    assert out[10..] == last;
    assert StartDemoTimers in last;
    forall i | 10 <= i < |out|
      ensures !out[i].ScheduleReconnect?
    {
      assert out[i] == last[i - 10];
    }
  }

  /** After an open, up to ten closures in a row get the full back-off
      schedule 2000, 4000, … ms again, whatever happened before the open. */
  lemma OpenRestartsBackoff(f: Feed, n: nat)
    requires n <= MaxReconnectAttempts
    ensures var (f', out) := Closes(OnOpen(f).0, n);
      && |out| == n
      && (forall i :: 0 <= i < n ==> out[i] == ScheduleReconnect(ReconnectDelayMs * (i + 1)))
      && f'.demoMode == f.demoMode
  {
    ClosesScheduleGrowingDelays(OnOpen(f).0, n);
  }

  /** Closing `n + 1` times is closing `n` times and then once more. */
  lemma {:induction false} ClosesSplit(f: Feed, n: nat)
    ensures Closes(f, n + 1) == (OnClose(Closes(f, n).0).0, Closes(f, n).1 + OnClose(Closes(f, n).0).1)
    decreases n
  {
    if n > 0 {
      var (f1, o1) := OnClose(f);
      ClosesSplit(f1, n - 1);
      var (g, p) := Closes(f1, n - 1);
      assert Closes(f, n) == (g, o1 + p);
      assert Closes(f, n + 1) == (Closes(f1, n).0, o1 + Closes(f1, n).1);
      assert o1 + (p + OnClose(g).1) == (o1 + p) + OnClose(g).1;
    } else {
      assert Closes(f, 1) == (OnClose(f).0, OnClose(f).1 + []);
      assert OnClose(f).1 + [] == [] + OnClose(f).1;
    }
  }

  /** `handleNewBlock`: the pushed block's height is stored unconditionally,
      shown, and announced to the scene and the sound; then the next block
      is tracked. Nothing but the stored height changes. */
  function HandleNewBlock(f: Feed, b: Block): (r: (Feed, seq<Output>))
    ensures r.0.lastBlockHeight == Some(b.height) && r.0.(lastBlockHeight := f.lastBlockHeight) == f
    ensures ShownHeights(r.1) == [b.height]
    ensures BlockFound(b) in r.1 && BlockSound in r.1
    ensures Ingested(r.1) == []
    ensures r.1[|r.1| - 1] == TrackNextBlock
  {
    var out := [ShowBlockHeight(b.height), BlockFound(b), BlockSound, TrackNextBlock];
    assert out[1..][1..][1..][1..] == [];
    assert ShownHeights(out[3..]) == [] && Ingested(out[3..]) == [];
    assert ShownHeights(out[2..]) == [] && Ingested(out[2..]) == [];
    assert ShownHeights(out[1..]) == [] && Ingested(out[1..]) == [];
    (f.(lastBlockHeight := Some(b.height)), out)
  }

  /** After a pushed block at a truthy height `h`, a snapshot or a poll at
      or below `h` shows and stores nothing, and the next demo block is
      `h + 1`. */
  lemma HandleNewBlockSettlesHeight(f: Feed, b: Block, blocks: seq<Block>, polled: Option<int>, draw: real)
    requires b.height != 0 && 0.0 <= draw < 1.0
    ensures var f1 := HandleNewBlock(f, b).0;
      && (|blocks| > 0 && blocks[0].height <= b.height ==> ApplySnapshot(f1, blocks) == (f1, []))
      && (polled.Some? && polled.value <= b.height ==> ApplyPolledHeight(f1, polled) == (f1, []))
      && (draw < DemoBlockChance ==> DemoBlockTick(f1, draw).0.lastBlockHeight == Some(b.height + 1))
  {
  }

  /** A pushed block lower than the stored height lowers it: the push path
      does not keep the height monotone. */
  lemma HandleNewBlockCanLowerHeight(f: Feed, h: int)
    requires Known(f.lastBlockHeight) && h < f.lastBlockHeight.value
    ensures HandleNewBlock(f, Block(h)).0.lastBlockHeight.value < f.lastBlockHeight.value
  {
  }

  /** The `blocks` snapshot: its first block's height is taken only when no
      height is known or it is higher, and only then shown. */
  function ApplySnapshot(f: Feed, blocks: seq<Block>): (r: (Feed, seq<Output>))
    ensures r.0.isConnected == f.isConnected && r.0.reconnectAttempts == f.reconnectAttempts
    ensures r.0.demoMode == f.demoMode
    ensures r.1 == [] ==> r.0 == f
    ensures r.1 != [] ==>
      |blocks| > 0 && r.0.lastBlockHeight == Some(blocks[0].height) && r.1 == [ShowBlockHeight(blocks[0].height)]
    ensures Known(f.lastBlockHeight) ==>
      && r.0.lastBlockHeight.Some?
      && r.0.lastBlockHeight.value >= f.lastBlockHeight.value
      && (r.1 != [] <==> r.0.lastBlockHeight.value > f.lastBlockHeight.value)
    ensures |blocks| > 0 && (!Known(f.lastBlockHeight) || blocks[0].height > f.lastBlockHeight.value) ==>
      r == (f.(lastBlockHeight := Some(blocks[0].height)), [ShowBlockHeight(blocks[0].height)])
  {
    if |blocks| > 0 then
      var h := blocks[0].height;
      if !Known(f.lastBlockHeight) || h > f.lastBlockHeight.value then
        (f.(lastBlockHeight := Some(h)), [ShowBlockHeight(h)])
      else (f, [])
    else (f, [])
  }

  /** `fetchBlockHeight` given the polled value (`None` when the request
      failed): the same raise-only rule, and a falsy or unchanged height is
      ignored. */
  function ApplyPolledHeight(f: Feed, polled: Option<int>): (r: (Feed, seq<Output>))
    ensures r.0.isConnected == f.isConnected && r.0.reconnectAttempts == f.reconnectAttempts
    ensures r.0.demoMode == f.demoMode
    ensures r.1 == [] ==> r.0 == f
    ensures r.1 != [] ==>
      TruthyInt(polled) && r.0.lastBlockHeight == polled && r.1 == [ShowBlockHeight(polled.value)]
    ensures Known(f.lastBlockHeight) ==>
      && r.0.lastBlockHeight.Some?
      && r.0.lastBlockHeight.value >= f.lastBlockHeight.value
      && (r.1 != [] <==> r.0.lastBlockHeight.value > f.lastBlockHeight.value)
    ensures (TruthyInt(polled) && polled != f.lastBlockHeight
             && (!Known(f.lastBlockHeight) || polled.value > f.lastBlockHeight.value)) ==>
      r == (f.(lastBlockHeight := polled), [ShowBlockHeight(polled.value)])
  {
    if TruthyInt(polled) && polled != f.lastBlockHeight then
      var h := polled.value;
      if !Known(f.lastBlockHeight) || h > f.lastBlockHeight.value then
        (f.(lastBlockHeight := Some(h)), [ShowBlockHeight(h)])
      else (f, [])
    else (f, [])
  }

  /** A height report from the snapshot or the poll. */
  datatype Observation = Snapshot(blocks: seq<Block>) | Polled(height: Option<int>)

  function Observe(f: Feed, o: Observation): (Feed, seq<Output>) {
    match o
    case Snapshot(blocks) => ApplySnapshot(f, blocks)
    case Polled(h) => ApplyPolledHeight(f, h)
  }

  function ObserveAll(f: Feed, obs: seq<Observation>): (Feed, seq<Output>)
    decreases |obs|
  {
    if obs == [] then (f, [])
    else
      var (f1, o1) := Observe(f, obs[0]);
      var (f2, o2) := ObserveAll(f1, obs[1..]);
      (f2, o1 + o2)
  }

  /** The heights a list of outputs shows, in order. */
  function ShownHeights(out: seq<Output>): seq<int> {
    if out == [] then [] else ShownHeight(out[0]) + ShownHeights(out[1..])
  }

  function ShownHeight(o: Output): seq<int> {
    if o.ShowBlockHeight? then [o.height] else []
  }

  lemma {:induction false} ShownHeightsAppend(a: seq<Output>, b: seq<Output>)
    ensures ShownHeights(a + b) == ShownHeights(a) + ShownHeights(b)
    decreases |a|
  {
    if a != [] {
      assert (a + b)[0] == a[0] && (a + b)[1..] == a[1..] + b;
      ShownHeightsAppend(a[1..], b);
      calc {
        ShownHeights(a + b);
        ShownHeight(a[0]) + ShownHeights(a[1..] + b);
        ShownHeight(a[0]) + ShownHeights(a[1..]) + ShownHeights(b);
      }
    } else {
      assert a + b == b;
    }
  }

  /** Heights each above `floor` and each above the one before. */
  predicate RisingAbove(hs: seq<int>, floor: int) {
    && (forall i :: 0 <= i < |hs| ==> hs[i] > floor)
    && (forall i :: 0 < i < |hs| ==> hs[i - 1] < hs[i])
  }

  lemma RisingCons(h: int, hs: seq<int>, floor: int)
    requires h > floor && RisingAbove(hs, h)
    ensures RisingAbove([h] + hs, floor)
  {
    var t := [h] + hs;
    forall i | 0 < i < |t|
      ensures t[i - 1] < t[i]
    {
      assert t[i] == hs[i - 1];
      if i > 1 {
        assert t[i - 1] == hs[i - 2];
      }
    }
  }

  /** Any interleaving of snapshot and poll reports, once a height is known:
      the stored height never decreases, the last height shown is the one
      stored, and when nothing is shown nothing changes. */
  lemma {:induction false} ObservedHeightStored(f: Feed, obs: seq<Observation>)
    requires f.lastBlockHeight.Some? && f.lastBlockHeight.value > 0
    ensures var (f', out) := ObserveAll(f, obs);
      && f'.lastBlockHeight.Some?
      && f'.lastBlockHeight.value >= f.lastBlockHeight.value
      && (|ShownHeights(out)| > 0 ==> ShownHeights(out)[|ShownHeights(out)| - 1] == f'.lastBlockHeight.value)
      && (|ShownHeights(out)| == 0 ==> f' == f)
    decreases |obs|
  {
    if obs != [] {
      var (f1, o1) := Observe(f, obs[0]);
      var (f2, o2) := ObserveAll(f1, obs[1..]);
      assert ObserveAll(f, obs) == (f2, o1 + o2);
      ObserveStep(f, obs[0]);
      ObservedHeightStored(f1, obs[1..]);
      ShownHeightsAppend(o1, o2);
    }
  }

  /** Any interleaving of snapshot and poll reports, once a height is known:
      every height shown is higher than the one known before and than the
      one shown before it. */
  lemma {:induction false} ObservedHeightsIncrease(f: Feed, obs: seq<Observation>)
    requires f.lastBlockHeight.Some? && f.lastBlockHeight.value > 0
    ensures RisingAbove(ShownHeights(ObserveAll(f, obs).1), f.lastBlockHeight.value)
    decreases |obs|
  {
    if obs != [] {
      var (f1, o1) := Observe(f, obs[0]);
      var (f2, o2) := ObserveAll(f1, obs[1..]);
      assert ObserveAll(f, obs) == (f2, o1 + o2);
      ObserveStep(f, obs[0]);
      ObservedHeightsIncrease(f1, obs[1..]);
      ShownHeightsAppend(o1, o2);
      if o1 != [] {
        RisingCons(f1.lastBlockHeight.value, ShownHeights(o2), f.lastBlockHeight.value);
      }
    }
  }

  /** One report, once a height is known: either nothing changes, or a
      higher height is stored and shown. */
  lemma ObserveStep(f: Feed, o: Observation)
    requires f.lastBlockHeight.Some? && f.lastBlockHeight.value > 0
    ensures var (f1, out) := Observe(f, o);
      && f1.lastBlockHeight.Some? && f1.lastBlockHeight.value > 0
      && (out == [] ==> f1 == f && ShownHeights(out) == [])
      && (out != [] ==>
            f1.lastBlockHeight.value > f.lastBlockHeight.value && ShownHeights(out) == [f1.lastBlockHeight.value])
  {
    var (f1, out) := Observe(f, o);
    if out != [] {
      assert out == [ShowBlockHeight(f1.lastBlockHeight.value)];
      assert ShownHeights(out) == ShownHeight(out[0]) + ShownHeights([]);
    }
  }

  /** A report of H - 1 after H is known leaves H in place and shows nothing. */
  lemma StaleReportIgnored(f: Feed, h: int)
    requires f.lastBlockHeight == Some(h) && h != 0
    ensures Observe(f, Polled(Some(h - 1))) == (f, [])
    ensures Observe(f, Snapshot([Block(h - 1)])) == (f, [])
  {
  }

  /** A raw transaction as received; `feeRate` is a field the demo generator
      fills in and that normalisation never reads. */
  datatype RawTx = RawTx(
    txid: string,
    value: Option<int>,
    vout: Option<seq<int>>,
    rate: Option<real>,
    feePerVsize: Option<real>,
    feeRate: Option<real>,
    fee: Option<int>,
    vsize: Option<int>)

  function Sum(xs: seq<int>): int {
    if xs == [] then 0 else xs[0] + Sum(xs[1..])
  }

  /** The value of a raw transaction: its own value if truthy, else the sum
      of its outputs, else 0. */
  function TxValue(tx: RawTx): (v: int)
    ensures TruthyInt(tx.value) ==> v == tx.value.value
    ensures !TruthyInt(tx.value) && tx.vout.Some? ==> v == Sum(tx.vout.value)
    ensures !TruthyInt(tx.value) && tx.vout.None? ==> v == 0
  {
    if TruthyInt(tx.value) then tx.value.value
    else if tx.vout.Some? then Sum(tx.vout.value)
    else 0
  }

  /** `rate || feePerVsize || Math.round(fee / vsize)`. */
  function TxFeeRate(tx: RawTx): (r: Option<real>)
    ensures Truthy(tx.rate) ==> r == tx.rate
    ensures !Truthy(tx.rate) && Truthy(tx.feePerVsize) ==> r == tx.feePerVsize
  {
    if Truthy(tx.rate) then tx.rate
    else if Truthy(tx.feePerVsize) then tx.feePerVsize
    else if tx.fee.Some? && tx.vsize.Some? && tx.vsize.value != 0 then
      Some(JsRound(tx.fee.value as real / tx.vsize.value as real) as real)
    else None
  }

  /** `processTransaction`: normalise, hand to the ledger and the mining
      scene, and play the whale sound from 10 BTC, large from 100 BTC. */
  function ProcessTransaction(tx: RawTx, now: int): (r: (Transactions.TxData, seq<Output>))
    ensures r.0.value == TxValue(tx) && r.0.feeRate == TxFeeRate(tx) && r.0.timestamp == now
    ensures |r.1| > 0 && r.1[0] == Ingest(r.0)
    ensures r.0.value >= WhaleSoundSats ==> r.1 == [Ingest(r.0), WhaleSound(r.0.value >= Transactions.WhaleSats)]
    ensures r.0.value < WhaleSoundSats ==> r.1 == [Ingest(r.0)]
  {
    var value := TxValue(tx);
    var data := Transactions.TxData(tx.txid, value, TxFeeRate(tx), tx.fee, tx.vsize, now);
    (data, [Ingest(data)] + (if value >= WhaleSoundSats then [WhaleSound(value >= Transactions.WhaleSats)] else []))
  }

  /** The normalised records of a batch, in order. */
  function Normalized(txs: seq<RawTx>, now: int): (ds: seq<Transactions.TxData>)
    ensures |ds| == |txs|
    ensures forall i :: 0 <= i < |txs| ==> ds[i] == ProcessTransaction(txs[i], now).0
  {
    if txs == [] then [] else [ProcessTransaction(txs[0], now).0] + Normalized(txs[1..], now)
  }

  /** The records a list of outputs hands to the ledger, in order. */
  function Ingested(out: seq<Output>): seq<Transactions.TxData> {
    if out == [] then [] else IngestedBy(out[0]) + Ingested(out[1..])
  }

  function IngestedBy(o: Output): seq<Transactions.TxData> {
    if o.Ingest? then [o.tx] else []
  }

  lemma {:induction false} IngestedAppend(a: seq<Output>, b: seq<Output>)
    ensures Ingested(a + b) == Ingested(a) + Ingested(b)
    decreases |a|
  {
    if a != [] {
      assert (a + b)[0] == a[0] && (a + b)[1..] == a[1..] + b;
      IngestedAppend(a[1..], b);
      calc {
        Ingested(a + b);
        IngestedBy(a[0]) + Ingested(a[1..] + b);
        IngestedBy(a[0]) + Ingested(a[1..]) + Ingested(b);
      }
    } else {
      assert a + b == b;
    }
  }

  /** A batch processed in order; every transaction is ingested exactly once. */
  function ProcessAll(txs: seq<RawTx>, now: int): (out: seq<Output>)
    ensures Ingested(out) == Normalized(txs, now)
    ensures forall o :: o in out ==> o.Ingest? || o.WhaleSound?
  {
    if txs == [] then []
    else
      var o := ProcessTransaction(txs[0], now).1;
      var rest := ProcessAll(txs[1..], now);
      IngestedAppend(o, rest);
      assert Ingested(o) == [ProcessTransaction(txs[0], now).0];
      o + rest
  }

  datatype MempoolInfo = MempoolInfo(size: Option<int>)
  datatype MempoolBlock = MempoolBlock(medianFee: Option<real>)
  datatype Projected = Projected(added: Option<seq<RawTx>>)
  datatype Difficulty = Difficulty(currentHashrate: Option<real>)

  /** A parsed push message: each field present or not. */
  datatype Message = Message(
    block: Option<Block>,
    blocks: Option<seq<Block>>,
    mempoolInfo: Option<MempoolInfo>,
    mempoolBlocks: Option<seq<MempoolBlock>>,
    transactions: Option<seq<RawTx>>,
    projected: Option<Projected>,
    da: Option<Difficulty>)

  datatype Incoming = Parsed(msg: Message) | Malformed

  /** The raw transactions a message carries, pushed batch first. */
  function CarriedTxs(m: Message): seq<RawTx> {
    (if m.transactions.Some? then m.transactions.value else []) +
    (if m.projected.Some? && m.projected.value.added.Some? then m.projected.value.added.value else [])
  }

  /** `onMessage`: the fields are handled in a fixed order — block, blocks,
      mempool info, projected blocks, transactions, projected transactions,
      difficulty — and a message that does not parse is dropped. */
  function OnMessage(f: Feed, input: Incoming, now: int): (r: (Feed, seq<Output>))
    ensures input.Malformed? ==> r == (f, [])
    ensures r.0.isConnected == f.isConnected && r.0.reconnectAttempts == f.reconnectAttempts
    ensures r.0.demoMode == f.demoMode
    ensures input.Parsed? ==> Ingested(r.1) == Normalized(CarriedTxs(input.msg), now)
    ensures input.Parsed? && input.msg.block.None? && Known(f.lastBlockHeight) ==>
      r.0.lastBlockHeight.Some? && r.0.lastBlockHeight.value >= f.lastBlockHeight.value
    ensures input.Parsed? && input.msg.block.Some? ==> BlockFound(input.msg.block.value) in r.1
  {
    match input
    case Malformed => (f, [])
    case Parsed(m) => HandleMessage(f, m, now)
  }

  /** A parsed message, field by field. */
  function HandleMessage(f: Feed, m: Message, now: int): (r: (Feed, seq<Output>))
    ensures r.0.isConnected == f.isConnected && r.0.reconnectAttempts == f.reconnectAttempts
    ensures r.0.demoMode == f.demoMode
    ensures Ingested(r.1) == Normalized(CarriedTxs(m), now)
    ensures m.block.None? && Known(f.lastBlockHeight) ==>
      r.0.lastBlockHeight.Some? && r.0.lastBlockHeight.value >= f.lastBlockHeight.value
    ensures m.block.Some? ==> BlockFound(m.block.value) in r.1
  {
    var (f2, head) := HeightFields(f, m);
    var rest := InfoFields(m) + TransactionFields(m, now) + DifficultyField(m);
    RestIngested(m, now);
    IngestedAppend(head, rest);
    assert head <= head + rest;
    (f2, head + rest)
  }

  /** Past the height fields only the transactions are ingested. */
  lemma RestIngested(m: Message, now: int)
    ensures Ingested(InfoFields(m) + TransactionFields(m, now) + DifficultyField(m)) == Normalized(CarriedTxs(m), now)
  {
    var info, txs, da := InfoFields(m), TransactionFields(m, now), DifficultyField(m);
    IngestedAppend(info, txs);
    IngestedAppend(info + txs, da);
  }

  /** The `block` then `blocks` fields: the only ones that touch the height. */
  function HeightFields(f: Feed, m: Message): (r: (Feed, seq<Output>))
    ensures r.0.isConnected == f.isConnected && r.0.reconnectAttempts == f.reconnectAttempts
    ensures r.0.demoMode == f.demoMode
    ensures Ingested(r.1) == []
    ensures m.block.None? && Known(f.lastBlockHeight) ==>
      r.0.lastBlockHeight.Some? && r.0.lastBlockHeight.value >= f.lastBlockHeight.value
    ensures m.block.Some? ==> BlockFound(m.block.value) in r.1
  {
    var (f1, o1) := if m.block.Some? then HandleNewBlock(f, m.block.value) else (f, []);
    var (f2, o2) := if m.blocks.Some? then ApplySnapshot(f1, m.blocks.value) else (f1, []);
    assert Ingested(o1 + o2) == [] by {
      NoIngest(o1 + o2);
    }
    assert m.block.Some? ==> BlockFound(m.block.value) in o1 + o2 by {
      assert (o1 + o2)[..|o1|] == o1;
    }
    (f2, o1 + o2)
  }

  /** The `mempoolInfo` and `mempool-blocks` fields: display only. */
  function InfoFields(m: Message): (out: seq<Output>)
    ensures Ingested(out) == []
    ensures m.mempoolInfo.Some? ==> ShowMempoolSize(m.mempoolInfo.value.size) in out
    ensures m.mempoolBlocks.Some? && |m.mempoolBlocks.value| > 0 ==> ShowFeeRate(m.mempoolBlocks.value[0].medianFee) in out
    ensures forall o :: o in out ==> o.ShowMempoolSize? || o.ShowFeeRate?
  {
    var o3 := if m.mempoolInfo.Some? then [ShowMempoolSize(m.mempoolInfo.value.size)] else [];
    var o4 := if m.mempoolBlocks.Some? && |m.mempoolBlocks.value| > 0
      then [ShowFeeRate(m.mempoolBlocks.value[0].medianFee)] else [];
    NoIngest(o3 + o4);
    o3 + o4
  }

  /** The `transactions` batch, then the projected additions. */
  function TransactionFields(m: Message, now: int): (out: seq<Output>)
    ensures Ingested(out) == Normalized(CarriedTxs(m), now)
    ensures forall o :: o in out ==> o.Ingest? || o.WhaleSound?
  {
    var pushed := if m.transactions.Some? then m.transactions.value else [];
    var added := if m.projected.Some? && m.projected.value.added.Some? then m.projected.value.added.value else [];
    var o5 := ProcessAll(pushed, now);
    var o6 := ProcessAll(added, now);
    IngestedAppend(o5, o6);
    NormalizedAppend(pushed, added, now);
    o5 + o6
  }

  /** The `da` field: the hash rate display. */
  function DifficultyField(m: Message): (out: seq<Output>)
    ensures Ingested(out) == []
    ensures out != [] <==> m.da.Some?
  {
    if m.da.Some? then [ShowHashRate(m.da.value.currentHashrate)] else []
  }

  lemma {:induction false} NoIngest(a: seq<Output>)
    requires forall o :: o in a ==> !o.Ingest?
    ensures Ingested(a) == []
    decreases |a|
  {
    if a != [] {
      NoIngest(a[1..]);
    }
  }

  lemma {:induction false} NormalizedAppend(a: seq<RawTx>, b: seq<RawTx>, now: int)
    ensures Normalized(a + b, now) == Normalized(a, now) + Normalized(b, now)
  {
  }

  /** The height a demo block gets: one above the stored height, or above
      878000 when none is known. */
  function DemoBlockHeight(f: Feed): int {
    (if Known(f.lastBlockHeight) then f.lastBlockHeight.value else DemoHeight) + 1
  }

  /** One tick of the demo block interval, given its random draw. */
  function DemoBlockTick(f: Feed, draw: real): (r: (Feed, seq<Output>))
    requires 0.0 <= draw < 1.0
    ensures draw < DemoBlockChance ==>
      r.0.lastBlockHeight == Some(DemoBlockHeight(f)) && BlockFound(Block(DemoBlockHeight(f))) in r.1
    ensures draw >= DemoBlockChance ==> r == (f, [])
    ensures draw < DemoBlockChance && Known(f.lastBlockHeight) ==>
      r.0.lastBlockHeight == Some(f.lastBlockHeight.value + 1)
  {
    if draw < DemoBlockChance then HandleNewBlock(f, Block(DemoBlockHeight(f))) else (f, [])
  }

  /** Demo blocks alone move a positive known height up by exactly one per
      block found. */
  function DemoBlockTicks(f: Feed, draws: seq<real>): Feed
    requires forall i :: 0 <= i < |draws| ==> 0.0 <= draws[i] < 1.0
    decreases |draws|
  {
    if draws == [] then f else DemoBlockTicks(DemoBlockTick(f, draws[0]).0, draws[1..])
  }

  function Hits(draws: seq<real>): nat {
    if draws == [] then 0 else (if draws[0] < DemoBlockChance then 1 else 0) + Hits(draws[1..])
  }

  lemma {:induction false} DemoBlocksCountUp(f: Feed, draws: seq<real>)
    requires forall i :: 0 <= i < |draws| ==> 0.0 <= draws[i] < 1.0
    requires f.lastBlockHeight.Some? && f.lastBlockHeight.value > 0
    ensures DemoBlockTicks(f, draws).lastBlockHeight == Some(f.lastBlockHeight.value + Hits(draws))
    decreases |draws|
  {
    if draws != [] {
      DemoBlocksCountUp(DemoBlockTick(f, draws[0]).0, draws[1..]);
    }
  }

  /** The value of a demo transaction in satoshis, from its bucket draw and
      its value draw: below 0.7 up to 0.1 BTC, below 0.95 from 0.1 to 10 BTC,
      below 0.99 from 10 to 100 BTC, else from 100 to 1000 BTC (rounded to
      whole satoshis, so each upper bound is reachable). */
  function DemoValue(bucketDraw: real, valueDraw: real): (v: int)
    requires 0.0 <= bucketDraw < 1.0 && 0.0 <= valueDraw < 1.0
    ensures bucketDraw < 0.7 ==> 0 <= v <= 10_000_000
    ensures 0.7 <= bucketDraw < 0.95 ==> 10_000_000 <= v <= 1_000_000_000
    ensures 0.95 <= bucketDraw < 0.99 ==> 1_000_000_000 <= v <= 10_000_000_000
    ensures 0.99 <= bucketDraw ==> 10_000_000_000 <= v <= 100_000_000_000
  {
    var btc :=
      if bucketDraw < 0.7 then valueDraw * 0.1
      else if bucketDraw < 0.95 then 0.1 + valueDraw * 9.9
      else if bucketDraw < 0.99 then 10.0 + valueDraw * 90.0
      else 100.0 + valueDraw * 900.0;
    JsRound(btc * 100_000_000.0)
  }

  /** `5 + floor(draw * 50)`, the demo fee rate. */
  function DrawnFeeRate(draw: real): (r: int)
    requires 0.0 <= draw < 1.0
    ensures 5 <= r <= 54
  {
    5 + (draw * 50.0).Floor
  }

  /** The random draws one demo transaction consumes besides its id. */
  datatype DemoDraws = DemoDraws(bucket: real, value: real, feeRate: real, fee: real, vsize: real)

  predicate ValidDraws(d: DemoDraws) {
    && 0.0 <= d.bucket < 1.0 && 0.0 <= d.value < 1.0 && 0.0 <= d.feeRate < 1.0
    && 0.0 <= d.fee < 1.0 && 0.0 <= d.vsize < 1.0
  }

  /** The fields shared by both versions of the demo generator. */
  function DemoTxBase(d: DemoDraws, txid: string): (tx: RawTx)
    requires ValidDraws(d)
    ensures tx.fee.Some? && 0 <= tx.fee.value <= 49999
    ensures tx.vsize.Some? && 200 <= tx.vsize.value <= 699
  {
    RawTx(txid, Some(DemoValue(d.bucket, d.value)), None, None, None, None,
          Some((d.fee * 50000.0).Floor), Some(200 + (d.vsize * 500.0).Floor))
  }

  /** `generateDemoTransaction` as written: the fee rate goes into a field
      named `feeRate`, which `processTransaction` does not read. */
  function GenerateDemoTransactionAsWritten(d: DemoDraws, txid: string): (tx: RawTx)
    requires ValidDraws(d)
    ensures tx.rate.None? && tx.feeRate == Some(DrawnFeeRate(d.feeRate) as real)
  {
    DemoTxBase(d, txid).(feeRate := Some(DrawnFeeRate(d.feeRate) as real))
  }

  /** With the draws 0 for the fee rate, 0.99998 for the fee and 0 for the
      size, the demo record says 5 sat/vB but the ledger receives 250. */
  lemma DemoFeeRateDiscarded(txid: string, now: int)
    ensures var d := DemoDraws(0.0, 0.0, 0.0, 0.99998, 0.0);
      var tx := GenerateDemoTransactionAsWritten(d, txid);
      tx.feeRate == Some(5.0) && ProcessTransaction(tx, now).0.feeRate == Some(250.0)
  {
    var d := DemoDraws(0.0, 0.0, 0.0, 0.99998, 0.0);
    assert (d.fee * 50000.0).Floor == 49999;
    assert JsRound(49999.0 / 200.0) == 250;
  }

  /** `generateDemoTransaction` passing its fee rate where normalisation
      reads it, so the ledger sees the drawn rate. */
  function GenerateDemoTransaction(d: DemoDraws, txid: string): (tx: RawTx)
    requires ValidDraws(d)
    ensures tx.txid == txid
    ensures tx.rate == Some(DrawnFeeRate(d.feeRate) as real)
  {
    DemoTxBase(d, txid).(rate := Some(DrawnFeeRate(d.feeRate) as real))
  }

  /** The demo record the ledger receives: value in the drawn bucket and a
      fee rate between 5 and 54 sat/vB. */
  lemma DemoTransactionIngested(d: DemoDraws, txid: string, now: int)
    requires ValidDraws(d)
    ensures var data := ProcessTransaction(GenerateDemoTransaction(d, txid), now).0;
      && data.feeRate.Some? && 5.0 <= data.feeRate.value <= 54.0
      && data.value == DemoValue(d.bucket, d.value)
      && data.vsize.Some? && 200 <= data.vsize.value <= 699
  {
  }

  /** The hex digit one random draw picks. */
  function HexDigitFor(draw: real): (c: char)
    requires 0.0 <= draw < 1.0
    ensures c in HexDigits
  {
    HexDigits[(draw * 16.0).Floor]
  }

  /** Every hex digit is picked by some draw, so every 64-digit id can occur. */
  lemma EveryHexDigitReachable(k: nat)
    requires k < 16
    ensures HexDigitFor(k as real / 16.0) == HexDigits[k]
  {
    assert (k as real / 16.0 * 16.0).Floor == k;
  }

  /** `generateRandomTxid`: 64 characters, each a lower-case hex digit chosen
      by the corresponding draw. */
  method GenerateRandomTxid(draws: seq<real>) returns (txid: string)
    requires |draws| == TxidLength
    requires forall i :: 0 <= i < |draws| ==> 0.0 <= draws[i] < 1.0
    ensures |txid| == TxidLength
    ensures forall i :: 0 <= i < |txid| ==> txid[i] in HexDigits && txid[i] == HexDigitFor(draws[i])
  {
    txid := "";
    var i := 0;
    while i < TxidLength
      invariant 0 <= i <= TxidLength
      invariant |txid| == i
      invariant forall j :: 0 <= j < i ==> txid[j] == HexDigitFor(draws[j])
    {
      txid := txid + [HexDigits[(draws[i] * 16.0).Floor]];
      i := i + 1;
    }
  }
}

=== FILE: fifo.dfy ===
/** Bounded lists that drop their oldest entries first: the
    `while (list.length > max) list.shift()` loops of the scene objects. */
module Fifo {

  /** Shift from the front until at most `cap` entries remain. */
  function Trim<T>(s: seq<T>, cap: nat): (r: seq<T>)
    ensures |r| == if |s| <= cap then |s| else cap
    ensures r == s[|s| - |r|..]
    decreases |s|
  {
    if |s| <= cap then s else Trim(s[1..], cap)
  }

  /** The entries `Trim` shifted out, oldest first. */
  function Evicted<T>(s: seq<T>, cap: nat): (e: seq<T>)
    ensures e + Trim(s, cap) == s
    ensures e == s[..|e|]
    ensures |e| == if |s| <= cap then 0 else |s| - cap
  {
    var k := |s| - |Trim(s, cap)|;
    assert s[..k] + s[k..] == s;
    s[..k]
  }

  /** Pushing one entry onto a list that respects the bound shifts out at
      most the single oldest entry. */
  lemma {:induction false} PushTrim<T>(s: seq<T>, x: T, cap: nat)
    requires 0 < cap && |s| <= cap
    ensures Trim(s + [x], cap) == if |s| < cap then s + [x] else s[1..] + [x]
    ensures Evicted(s + [x], cap) == if |s| < cap then [] else [s[0]]
  {
    var t := s + [x];
    if |s| == cap {
      assert Trim(t, cap) == Trim(t[1..], cap);
      assert t[1..] == s[1..] + [x];
      assert Trim(t[1..], cap) == t[1..];
    }
  }

  /** Trimming keeps the newest entry and brings in nothing new. */
  lemma TrimKeepsNewest<T>(s: seq<T>, cap: nat)
    requires 0 < cap && 0 < |s|
    ensures 0 < |Trim(s, cap)| && Trim(s, cap)[|Trim(s, cap)| - 1] == s[|s| - 1]
    ensures forall x :: x in Trim(s, cap) ==> x in s
  {
    var r := Trim(s, cap);
    assert r == s[|s| - |r|..];
  }

  /** Pushing one entry and trimming: the oldest go first, the new entry
      is last, and nothing else is lost. Returns the kept list and the
      shifted-out entries, oldest first. */
  function Push<T>(s: seq<T>, x: T, cap: nat): (r: (seq<T>, seq<T>))
    requires 0 < cap
    ensures r.1 + r.0 == s + [x]
    ensures r.1 == (s + [x])[..|r.1|] && r.0 == (s + [x])[|r.1|..]
    ensures |r.0| == if |s| < cap then |s| + 1 else cap
    ensures 0 < |r.0| && r.0[|r.0| - 1] == x
    ensures forall y :: y in r.0 ==> y in s || y == x
    ensures |s| < cap ==> r.1 == []
    ensures |s| == cap ==> r.1 == [s[0]]
  {
    TrimKeepsNewest(s + [x], cap);
    if |s| <= cap then
      PushTrim(s, x, cap);
      (Trim(s + [x], cap), Evicted(s + [x], cap))
    else
      (Trim(s + [x], cap), Evicted(s + [x], cap))
  }
}

=== FILE: gauge.dfy ===
/** The block-fill gauge both mining visuals keep: each transaction raises
    the fill by 0.01 up to 1 and counts one more transaction; a found block
    resets both. The fill is kept in hundredths. */
module Gauge {
  const Full := 100

  datatype Gauge = Gauge(fill: nat, count: nat)

  function Empty(): (g: Gauge)
    ensures g.fill == 0 && g.count == 0
  {
    Gauge(0, 0)
  }

  predicate Valid(g: Gauge) {
    g.fill <= Full
  }

  /** `fillLevel = min(fillLevel + 0.01, 1)` and `transactionCount++`. */
  function AddTransaction(g: Gauge): (r: Gauge)
    ensures r.count == g.count + 1
    ensures g.fill < Full ==> r.fill == g.fill + 1
    ensures g.fill >= Full ==> r.fill == Full
    ensures Valid(r)
  {
    Gauge(if g.fill + 1 < Full then g.fill + 1 else Full, g.count + 1)
  }

  function AddTransactions(g: Gauge, n: nat): Gauge
    decreases n
  {
    if n == 0 then g else AddTransactions(AddTransaction(g), n - 1)
  }

  /** After `n` transactions into an empty gauge the count is `n` and the
      fill is `n` hundredths, saturating at full. */
  lemma {:induction false} FillAfter(n: nat)
    ensures AddTransactions(Empty(), n) == Gauge(if n < Full then n else Full, n)
  {
    FillFrom(Empty(), n);
  }

  lemma {:induction false} FillFrom(g: Gauge, n: nat)
    requires Valid(g)
    ensures AddTransactions(g, n) == Gauge(if g.fill + n < Full then g.fill + n else Full, g.count + n)
    decreases n
  {
    if n > 0 {
      FillFrom(AddTransaction(g), n - 1);
    }
  }
}

=== FILE: hud.dfy ===
/** The heads-up display's classification rules: halving countdown bands,
    difficulty, fee and price colours, the display guards on block height
    and mempool size, the quote-history window, and the number-suffix
    choice. Each DOM element is modelled by what it shows. */
module Hud {
  import opened Values
  import Fifo

  const NextHalvingBlock := 1050000
  const QuoteCount := 17
  const QuoteWindow := 5

  datatype Colour = Default | Orange | Yellow | Green | Red | Cyan

  // ---------------------------------------------------------------------
  // Halving countdown
  // ---------------------------------------------------------------------

  datatype CountdownText = Halved | BlocksLeft(remaining: int)
  datatype Countdown = Countdown(text: CountdownText, colour: Colour)

  /** `updateHalvingCountdown`: nothing for a falsy height; "HALVED!" in
      orange once the halving block is reached; otherwise the blocks left,
      orange under 1000, yellow under 10000, default colour above. */
  function HalvingCountdown(height: Option<int>): (r: Option<Countdown>)
    ensures r.None? <==> !TruthyInt(height)
    ensures r.Some? ==> var left := NextHalvingBlock - height.value;
      && (r.value.text == Halved <==> left <= 0)
      && (r.value.text.BlocksLeft? ==> r.value.text.remaining == left)
      && (r.value.colour == Orange <==> left < 1000)
      && (r.value.colour == Yellow <==> 1000 <= left < 10000)
      && (r.value.colour == Default <==> left >= 10000)
  {
    if !TruthyInt(height) then None
    else
      var left := NextHalvingBlock - height.value;
      if left <= 0 then Some(Countdown(Halved, Orange))
      else if left < 1000 then Some(Countdown(BlocksLeft(left), Orange))
      else if left < 10000 then Some(Countdown(BlocksLeft(left), Yellow))
      else Some(Countdown(BlocksLeft(left), Default))
  }

  function Urgency(c: Colour): nat {
    match c
    case Orange => 2
    case Yellow => 1
    case _ => 0
  }

  /** As the chain grows the countdown only becomes more urgent. */
  lemma HalvingUrgencyMonotone(h1: int, h2: int)
    requires h1 != 0 && h2 != 0 && h1 <= h2
    ensures Urgency(HalvingCountdown(Some(h1)).value.colour) <= Urgency(HalvingCountdown(Some(h2)).value.colour)
  {
  }

  // ---------------------------------------------------------------------
  // Difficulty adjustment
  // ---------------------------------------------------------------------

  datatype DifficultyData = DifficultyData(progressPercent: Option<real>, difficultyChange: Option<real>)
  datatype DifficultyView = DifficultyView(progress: real, plusSign: bool, change: real, colour: Colour)

  function ChangeColour(change: real): (c: Colour)
    ensures c == Green <==> change > 5.0
    ensures c == Red <==> change < -5.0
    ensures c == Default <==> -5.0 <= change <= 5.0
  {
    if change > 5.0 then Green else if change < -5.0 then Red else Default
  }

  /** `updateDifficultyAdjustment`: missing data shows nothing; a missing
      progress or change counts as 0; '+' is shown iff the change is not
      negative. */
  function UpdateDifficultyAdjustment(data: Option<DifficultyData>): (r: Option<DifficultyView>)
    ensures r.None? <==> data.None?
    ensures data.Some? && !Truthy(data.value.difficultyChange) ==> r.value.change == 0.0 && r.value.plusSign && r.value.colour == Default
    ensures data.Some? && !Truthy(data.value.progressPercent) ==> r.value.progress == 0.0
    ensures data.Some? && Truthy(data.value.progressPercent) ==> r.value.progress == data.value.progressPercent.value
    ensures data.Some? && Truthy(data.value.difficultyChange) ==> r.value.change == data.value.difficultyChange.value
    ensures r.Some? ==> (r.value.plusSign <==> r.value.change >= 0.0) && r.value.colour == ChangeColour(r.value.change)
  {
    match data
    case None => None
    case Some(d) =>
      var progress := OrElse(d.progressPercent, 0.0);
      var change := OrElse(d.difficultyChange, 0.0);
      Some(DifficultyView(progress, change >= 0.0, change, ChangeColour(change)))
  }

  /** Green and red are mirror images: an expected rise beyond 5% is green
      exactly when the same fall is red. */
  lemma DifficultyColourSymmetric(change: real)
    ensures ChangeColour(change) == Green <==> ChangeColour(-change) == Red
    ensures ChangeColour(change) == Default <==> ChangeColour(-change) == Default
  {
  }

  // ---------------------------------------------------------------------
  // Fee rate
  // ---------------------------------------------------------------------

  datatype FeeView = FeeView(rounded: int, colour: Colour)

  /** `updateFeeRate`: null or undefined is ignored; otherwise the rounded
      rate is shown, red above 50, orange above 20, cyan otherwise. */
  function UpdateFeeRate(feeRate: Option<real>): (r: Option<FeeView>)
    ensures r.None? <==> feeRate.None?
    ensures r.Some? ==> feeRate.value - 0.5 < r.value.rounded as real <= feeRate.value + 0.5
    ensures r.Some? ==> (r.value.colour == Red <==> feeRate.value > 50.0)
    ensures r.Some? ==> (r.value.colour == Orange <==> 20.0 < feeRate.value <= 50.0)
    ensures r.Some? ==> (r.value.colour == Cyan <==> feeRate.value <= 20.0)
  {
    match feeRate
    case None => None
    case Some(f) =>
      Some(FeeView(JsRound(f), if f > 50.0 then Red else if f > 20.0 then Orange else Cyan))
  }

  function FeeSeverity(c: Colour): nat {
    match c
    case Red => 2
    case Orange => 1
    case _ => 0
  }

  /** A higher fee is never shown in a calmer colour. */
  lemma FeeColourMonotone(a: real, b: real)
    requires a <= b
    ensures FeeSeverity(UpdateFeeRate(Some(a)).value.colour) <= FeeSeverity(UpdateFeeRate(Some(b)).value.colour)
  {
  }

  // ---------------------------------------------------------------------
  // Price
  // ---------------------------------------------------------------------

  /** The price element: the last price stored on it, its colour, and
      whether a colour-reset timer handle is stored. */
  datatype PriceView = PriceView(stored: Option<real>, colour: Colour, resetTimerSet: bool)

  datatype PriceOutput = ClearResetTimer | ScheduleColourReset

  /** `updatePrice`: a falsy price is ignored. Otherwise a price above the
      stored one turns green, below it red, an equal one keeps the colour;
      with no stored price the colour is untouched and no reset is
      scheduled; and the new price is always stored. */
  function UpdatePrice(v: PriceView, price: Option<real>): (r: (PriceView, seq<PriceOutput>))
    ensures !Truthy(price) ==> r == (v, [])
    ensures Truthy(price) ==> r.0.stored == price
    ensures Truthy(price) && v.stored.None? ==> r.0.colour == v.colour && r.1 == []
    ensures Truthy(price) && v.stored.Some? ==>
      && (r.0.colour == Green <==> price.value > v.stored.value || (price.value == v.stored.value && v.colour == Green))
      && (r.0.colour == Red <==> price.value < v.stored.value || (price.value == v.stored.value && v.colour == Red))
      && (price.value == v.stored.value ==> r.0.colour == v.colour)
      && r.0.resetTimerSet
      && r.1 == (if v.resetTimerSet then [ClearResetTimer] else []) + [ScheduleColourReset]
  {
    if !Truthy(price) then (v, [])
    else
      match v.stored
      case None => (v.(stored := price), [])
      case Some(prev) =>
        var colour := if price.value > prev then Green else if price.value < prev then Red else v.colour;
        (PriceView(price, colour, true),
         (if v.resetTimerSet then [ClearResetTimer] else []) + [ScheduleColourReset])
  }

  /** The colour-reset timer firing. */
  function PriceColourReset(v: PriceView): (r: PriceView)
    ensures r.colour == Default && r.stored == v.stored
  {
    v.(colour := Default)
  }

  /** Reporting the same price again changes neither the stored price nor
      the colour. */
  lemma UpdatePriceRepeatKeepsView(v: PriceView, price: real)
    requires price != 0.0
    ensures var v1 := UpdatePrice(v, Some(price)).0;
      UpdatePrice(v1, Some(price)).0.stored == v1.stored && UpdatePrice(v1, Some(price)).0.colour == v1.colour
  {
  }

  /** The very first price never colours the element. */
  lemma FirstPriceUncoloured(price: real)
    requires price != 0.0
    ensures UpdatePrice(PriceView(None, Default, false), Some(price)) == (PriceView(Some(price), Default, false), [])
  {
  }

  // ---------------------------------------------------------------------
  // Block height and mempool size guards
  // ---------------------------------------------------------------------

  datatype Display = Display(
    blockHeight: Option<int>,          // the text shown, as a number
    currentBlockHeight: Option<int>,
    halving: Option<Countdown>,
    mempoolSize: Option<int>,
    flashes: nat)                      // block-height flash animations started

  function InitialDisplay(): Display {
    Display(None, None, None, None, 0)
  }

  /** `updateBlockHeight`: a falsy height (missing or 0) is ignored;
      otherwise the height is shown and recorded, the element flashes and
      the halving countdown follows it. */
  function UpdateBlockHeight(d: Display, height: Option<int>): (r: Display)
    ensures !TruthyInt(height) ==> r == d
    ensures TruthyInt(height) ==>
      && r.blockHeight == height && r.currentBlockHeight == height
      && r.halving == HalvingCountdown(height) && r.halving.Some?
      && r.flashes == d.flashes + 1
      && r.mempoolSize == d.mempoolSize
  {
    if !TruthyInt(height) then d
    else d.(blockHeight := height, currentBlockHeight := height,
            halving := HalvingCountdown(height), flashes := d.flashes + 1)
  }

  /** `updateMempoolSize`: null or undefined is ignored, 0 is shown. */
  function UpdateMempoolSize(d: Display, size: Option<int>): (r: Display)
    ensures size.None? ==> r == d
    ensures size.Some? ==> r == d.(mempoolSize := size)
  {
    if size.None? then d else d.(mempoolSize := size)
  }

  /** The two guards differ exactly on zero: an empty mempool is shown, a
      block height of zero is not. */
  lemma ZeroGuards(d: Display)
    ensures UpdateMempoolSize(d, Some(0)).mempoolSize == Some(0)
    ensures UpdateBlockHeight(d, Some(0)) == d
  {
  }

  // ---------------------------------------------------------------------
  // Quote history
  // ---------------------------------------------------------------------

  /** The quote index a draw in [0, 1) selects. */
  function QuoteIndex(draw: real): (i: int)
    requires 0.0 <= draw < 1.0
    ensures 0 <= i < QuoteCount
  {
    var x := draw * QuoteCount as real;
    assert 0.0 <= x < QuoteCount as real;
    x.Floor
  }

  predicate ValidDraws(draws: seq<real>) {
    forall k :: 0 <= k < |draws| ==> 0.0 <= draws[k] < 1.0
  }

  /** The do-while of `showNextQuote`: draw an index, and draw again while
      it is in the history and the history is shorter than 17 - 2. `None`
      when the supplied draws run out first. */
  function PickQuote(history: seq<int>, draws: seq<real>): (r: Option<(int, nat)>)
    requires ValidDraws(draws)
    ensures r.Some? ==> 0 <= r.value.0 < QuoteCount && r.value.1 < |draws|
    ensures r.Some? ==> r.value.0 == QuoteIndex(draws[r.value.1])
    ensures r.Some? && |history| < QuoteCount - 2 ==> r.value.0 !in history
    ensures r.Some? ==> forall k :: 0 <= k < r.value.1 ==> QuoteIndex(draws[k]) in history
    decreases |draws|
  {
    if draws == [] then None
    else
      var i := QuoteIndex(draws[0]);
      if i in history && |history| < QuoteCount - 2 then
        match PickQuote(history, draws[1..])
        case None => None
        case Some((j, used)) => Some((j, used + 1))
      else Some((i, 0))
  }

  /** The loop stops at the first draw outside the history: with a window
      shorter than 15, any draw sequence that ever leaves the history picks
      a fresh quote. */
  lemma {:induction false} PickQuoteFindsFresh(history: seq<int>, draws: seq<real>, k: nat)
    requires ValidDraws(draws) && k < |draws|
    requires QuoteIndex(draws[k]) !in history
    ensures PickQuote(history, draws).Some?
    ensures PickQuote(history, draws).value.1 <= k
    decreases k
  {
    if k > 0 && QuoteIndex(draws[0]) in history && |history| < QuoteCount - 2 {
      assert draws[1..][k - 1] == draws[k];
      PickQuoteFindsFresh(history, draws[1..], k - 1);
    }
  }

  predicate NoDuplicates(s: seq<int>) {
    forall a, b :: 0 <= a < b < |s| ==> s[a] != s[b]
  }

  /** `showNextQuote`'s bookkeeping: push the picked index and drop the
      oldest one when the history exceeds five. `None` when the draws run
      out before a pick. */
  function ShowNextQuote(history: seq<int>, draws: seq<real>): (r: Option<seq<int>>)
    requires ValidDraws(draws)
    requires |history| <= QuoteWindow
    ensures r.Some? <==> PickQuote(history, draws).Some?
    ensures r.Some? ==> r.value == Fifo.Trim(history + [PickQuote(history, draws).value.0], QuoteWindow)
    ensures r.Some? ==> |r.value| <= QuoteWindow && r.value[|r.value| - 1] == PickQuote(history, draws).value.0
  {
    match PickQuote(history, draws)
    case None => None
    case Some((i, _)) =>
      var pushed := history + [i];
      Fifo.PushTrim(history, i, QuoteWindow);
      Some(if |pushed| > QuoteWindow then pushed[1..] else pushed)
  }

  /** The history window never holds the same quote twice. */
  lemma ShowNextQuoteKeepsDistinct(history: seq<int>, draws: seq<real>)
    requires ValidDraws(draws) && |history| <= QuoteWindow && NoDuplicates(history)
    ensures ShowNextQuote(history, draws).Some? ==> NoDuplicates(ShowNextQuote(history, draws).value)
  {
    if PickQuote(history, draws).None? {
      return;
    }
    var i := PickQuote(history, draws).value.0;
    var pushed := history + [i];
    assert i !in history;
    assert NoDuplicates(pushed) by {
      forall a, b | 0 <= a < b < |pushed|
        ensures pushed[a] != pushed[b]
      {
        if b == |history| {
          assert pushed[a] == history[a];
        }
      }
    }
    Fifo.PushTrim(history, i, QuoteWindow);
  }

  // ---------------------------------------------------------------------
  // Number suffixes
  // ---------------------------------------------------------------------

  datatype Suffix = T | B | M | K | NoSuffix

  function Unit(s: Suffix): (u: real)
    ensures u >= 1.0
  {
    match s
    case T => 1000000000000.0
    case B => 1000000000.0
    case M => 1000000.0
    case K => 1000.0
    case NoSuffix => 1.0
  }

  /** `formatNumber`'s choice of suffix and the value scaled by its unit
      (the two-decimal rendering is left out). */
  function FormatNumber(num: real): (r: (Suffix, real))
    ensures r.1 * Unit(r.0) == num
    ensures r.0 == T <==> num >= 1000000000000.0
    ensures r.0 == NoSuffix <==> num < 1000.0
    ensures r.0 in {B, M, K} ==> 1.0 <= r.1 < 1000.0
    ensures r.0 == T ==> r.1 >= 1.0
  {
    var s :=
      if num >= 1000000000000.0 then T
      else if num >= 1000000000.0 then B
      else if num >= 1000000.0 then M
      else if num >= 1000.0 then K
      else NoSuffix;
    (s, num / Unit(s))
  }

  function Magnitude(s: Suffix): nat {
    match s
    case T => 4
    case B => 3
    case M => 2
    case K => 1
    case NoSuffix => 0
  }

  /** A larger number never gets a smaller suffix. */
  lemma FormatNumberSuffixMonotone(a: real, b: real)
    requires a <= b
    ensures Magnitude(FormatNumber(a).0) <= Magnitude(FormatNumber(b).0)
  {
  }
}

=== FILE: light_cycle.dfy ===
/** The light cycle's block bookkeeping: the fill gauge, the single pushing
    block shown for 30 seconds after a block is found, the FIFO list of at
    most ten monuments, particle pruning, and teardown. Rendering, the bike
    model and its hover are left to the renderer; what the code adds,
    removes and releases is reported as scene events. */
module LightCycle {
  import opened Values
  import opened Scene
  import Fifo
  import Gauge
  import Particles
  import Sweep

  const MaxMonuments := 10
  const PushingBlockMs := 30000

  /** A monument and its `userData.disposed` flag, which stops its fall
      animation once set. */
  datatype Monument = Monument(id: nat, disposed: bool)

  datatype LightCycle = LightCycle(
    isDisposed: bool,
    isMining: bool,
    gauge: Gauge.Gauge,
    particles: seq<Particles.Particle>,
    monuments: seq<Monument>,
    pushing: Option<nat>,
    pushingTimerSet: bool,
    fixtures: set<Fixture>,
    fallbackBike: bool,          // the bike is the wireframe box built when the model failed to load
    nextId: nat)                 // serial of the next block group created

  /** A freshly constructed light cycle, with whatever fixtures the model
      loader has built so far; the cube group is always there. */
  function Initial(loaded: set<Fixture>, fallback: bool): (lc: LightCycle)
    ensures Valid(lc) && !lc.isDisposed && lc.isMining
    ensures lc.fixtures == loaded + {CubeGroup} && lc.monuments == [] && lc.pushing.None?
  {
    LightCycle(false, true, Gauge.Empty(), [], [], None, false, loaded + {CubeGroup}, fallback, 0)
  }

  /** The block and particle geometries (the monument box and edges, the
      particle sphere) are shared by every light cycle; an event keeps them
      when it disposes no object geometry. Of the fixtures, `dispose`
      disposes the geometry of the trail and of a fallback bike, which
      `FixtureGeometryDisposed` reports. The glow plane and the loaded
      bike model's geometries belong to this light cycle too, but
      `dispose` never disposes them. */
  predicate KeepsSharedGeometry(e: Event) {
    !e.GeometryDisposed?
  }

  /** An event about a block or particle object, not about a fixture. */
  predicate NotFixture(e: Event) {
    !e.Discarded? && !e.FixtureGeometryDisposed?
  }

  /** A pushing block exists exactly while its release timer handle is
      stored; there are at most ten monuments, none of them flagged. */
  predicate Valid(lc: LightCycle) {
    && (lc.pushing.Some? <==> lc.pushingTimerSet)
    && |lc.monuments| <= MaxMonuments
    && (forall m :: m in lc.monuments ==> !m.disposed)
    && Gauge.Valid(lc.gauge)
  }

  /** Removing a block group from the scene and disposing its two owned
      materials; the box and edge geometries are shared and kept. */
  function ReleaseBlock(obj: nat): seq<Event> {
    [Removed(obj), MaterialDisposed(obj, Body), MaterialDisposed(obj, Outline)]
  }

  /** Removing a particle; its sphere geometry is shared and kept. */
  function ReleaseParticle(obj: nat): seq<Event> {
    [Removed(obj), MaterialDisposed(obj, ParticleMesh)]
  }

  /** `addTransaction`: one more transaction in the gauge; nothing else. */
  /** Every particle of `ps` is removed and its material disposed in `es`. */
  predicate ParticlesReleased(ps: seq<Particles.Particle>, es: seq<Event>) {
    forall k :: 0 <= k < |ps| ==> Removed(ps[k].id) in es && MaterialDisposed(ps[k].id, ParticleMesh) in es
  }

  /** Every monument of `ms` is removed and both its materials disposed in `es`. */
  predicate MonumentsReleased(ms: seq<Monument>, es: seq<Event>) {
    forall k :: 0 <= k < |ms| ==>
      Removed(ms[k].id) in es && MaterialDisposed(ms[k].id, Body) in es && MaterialDisposed(ms[k].id, Outline) in es
  }

  function AddTransaction(lc: LightCycle): (r: LightCycle)
    ensures r == lc.(gauge := Gauge.AddTransaction(lc.gauge))
    ensures Valid(lc) ==> Valid(r)
  {
    lc.(gauge := Gauge.AddTransaction(lc.gauge))
  }

  /** `releasePushingBlock`: a no-op without a pushing block; otherwise
      removes it, disposes its materials and clears its timer. */
  function ReleasePushingBlock(lc: LightCycle): (r: (LightCycle, seq<Event>))
    ensures lc.pushing.None? ==> r == (lc, [])
    ensures lc.pushing.Some? ==>
      && r.0 == lc.(pushing := None, pushingTimerSet := false)
      && r.1 == ReleaseBlock(lc.pushing.value) + (if lc.pushingTimerSet then [TimerCleared] else [])
    ensures forall e :: e in r.1 ==> KeepsSharedGeometry(e)
    ensures Valid(lc) ==> Valid(r.0)
  {
    match lc.pushing
    case None => (lc, [])
    case Some(b) =>
      (lc.(pushing := None, pushingTimerSet := false),
       ReleaseBlock(b) + (if lc.pushingTimerSet then [TimerCleared] else []))
  }

  /** Releasing twice releases nothing the second time. */
  lemma ReleasePushingBlockIdempotent(lc: LightCycle)
    ensures var r := ReleasePushingBlock(lc).0;
      r.pushing.None? && ReleasePushingBlock(r) == (r, [])
  {
  }

  /** `createPushingBlock`: releases the current pushing block and clears
      any stored timer first, then adds a new block and schedules its
      release in 30 seconds. */
  function CreatePushingBlock(lc: LightCycle): (r: (LightCycle, seq<Event>))
    ensures r.0.pushing == Some(lc.nextId) && r.0.pushingTimerSet && r.0.nextId == lc.nextId + 1
    ensures r.0.monuments == lc.monuments && r.0.gauge == lc.gauge && r.0.particles == lc.particles
    ensures |r.1| >= 2 && r.1[|r.1| - 2] == Added(lc.nextId) && r.1[|r.1| - 1] == ReleaseScheduled(PushingBlockMs)
    ensures lc.pushing.Some? ==> |r.1| >= 3 && r.1[..3] == ReleaseBlock(lc.pushing.value)
    ensures lc.pushing.None? ==> Removed(lc.nextId) !in r.1
    ensures TimerCleared in r.1 <==> lc.pushingTimerSet
    ensures Valid(lc) ==> Valid(r.0)
  {
    var l := lc.(pushing := Some(lc.nextId), pushingTimerSet := true, nextId := lc.nextId + 1);
    assert Valid(lc) ==> Valid(l) by {
      assert l.monuments == lc.monuments && l.gauge == lc.gauge;
    }
    (l, PushingBlockEvents(lc))
  }

  /** What `createPushingBlock` does to the scene: the clearing of the old
      block and timer, then the new block and its scheduled release. */
  function PushingBlockEvents(lc: LightCycle): (es: seq<Event>)
    ensures |es| >= 2 && es[|es| - 2] == Added(lc.nextId) && es[|es| - 1] == ReleaseScheduled(PushingBlockMs)
    ensures lc.pushing.Some? ==> |es| >= 3 && es[..3] == ReleaseBlock(lc.pushing.value)
    ensures lc.pushing.None? ==> Removed(lc.nextId) !in es
    ensures TimerCleared in es <==> lc.pushingTimerSet
  {
    var created := [Added(lc.nextId), ReleaseScheduled(PushingBlockMs)];
    var e1 := ClearPushingBlock(lc).1;
    var es := e1 + created;
    assert lc.pushing.Some? ==> es[..3] == e1[..3];
    assert TimerCleared in es <==> TimerCleared in e1;
    es
  }

  /** The first half of `createPushingBlock`: release the current pushing
      block, which clears its timer, or else clear a stored timer alone. */
  function ClearPushingBlock(lc: LightCycle): (r: (LightCycle, seq<Event>))
    ensures r.0 == lc.(pushing := None, pushingTimerSet := false)
    ensures lc.pushing.Some? ==> |r.1| >= 3 && r.1[..3] == ReleaseBlock(lc.pushing.value)
    ensures lc.pushing.None? ==> forall o :: Removed(o) !in r.1
    ensures TimerCleared in r.1 <==> lc.pushingTimerSet
  {
    var cleared := if lc.pushingTimerSet then [TimerCleared] else [];
    match lc.pushing
    case Some(b) =>
      // the release already clears the timer, so the second check finds none
      var (l1, e1) := ReleasePushingBlock(lc);
      assert e1 == ReleaseBlock(b) + cleared && TimerCleared !in ReleaseBlock(b);
      (l1, e1)
    case None =>
      (lc.(pushingTimerSet := false), cleared)
  }

  /** However many blocks are found in a row, at most one pushing block is
      alive and the one before it has been released. */
  lemma PushingBlockReplaced(lc: LightCycle)
    requires Valid(lc)
    ensures var (l1, _) := CreatePushingBlock(lc);
      var (l2, e2) := CreatePushingBlock(l1);
      && l2.pushing == Some(lc.nextId + 1)
      && e2[..4] == ReleaseBlock(lc.nextId) + [TimerCleared]
  {
  }

  /** The monuments flagged as disposed. */
  function MarkDisposed(ms: seq<Monument>): (r: seq<Monument>)
    ensures |r| == |ms| && forall k :: 0 <= k < |ms| ==> r[k] == ms[k].(disposed := true)
    decreases |ms|
  {
    if ms == [] then [] else [ms[0].(disposed := true)] + MarkDisposed(ms[1..])
  }

  /** Releasing monuments one by one: each is removed and its materials
      disposed; no geometry is disposed and no fixture discarded. */
  function ReleaseMonuments(ms: seq<Monument>): (r: seq<Event>)
    ensures forall k :: 0 <= k < |ms| ==>
      Removed(ms[k].id) in r && MaterialDisposed(ms[k].id, Body) in r && MaterialDisposed(ms[k].id, Outline) in r
    ensures forall e :: e in r ==> KeepsSharedGeometry(e) && NotFixture(e)
  {
    var ids := Serials(ms, (m: Monument) => m.id);
    forall k | 0 <= k < |ms|
      ensures Removed(ids[k]) in ReleaseEach(ids, ReleaseBlock)
      ensures MaterialDisposed(ids[k], Body) in ReleaseEach(ids, ReleaseBlock)
      ensures MaterialDisposed(ids[k], Outline) in ReleaseEach(ids, ReleaseBlock)
    {
      ReleaseEachContains(ids, ReleaseBlock, k, Removed(ids[k]));
      ReleaseEachContains(ids, ReleaseBlock, k, MaterialDisposed(ids[k], Body));
      ReleaseEachContains(ids, ReleaseBlock, k, MaterialDisposed(ids[k], Outline));
    }
    ReleaseEachKeeps(ids, ReleaseBlock, (e: Event) => KeepsSharedGeometry(e) && NotFixture(e));
    ReleaseEach(ids, ReleaseBlock)
  }

  /** Releasing particles one by one: each is removed and its material
      disposed; the shared sphere geometry is kept. */
  function ReleaseParticles(ps: seq<Particles.Particle>): (r: seq<Event>)
    ensures forall k :: 0 <= k < |ps| ==>
      Removed(ps[k].id) in r && MaterialDisposed(ps[k].id, ParticleMesh) in r
    ensures forall e :: e in r ==> KeepsSharedGeometry(e) && NotFixture(e)
  {
    var ids := Serials(ps, (p: Particles.Particle) => p.id);
    forall k | 0 <= k < |ps|
      ensures Removed(ids[k]) in ReleaseEach(ids, ReleaseParticle)
      ensures MaterialDisposed(ids[k], ParticleMesh) in ReleaseEach(ids, ReleaseParticle)
    {
      ReleaseEachContains(ids, ReleaseParticle, k, Removed(ids[k]));
      ReleaseEachContains(ids, ReleaseParticle, k, MaterialDisposed(ids[k], ParticleMesh));
    }
    ReleaseEachKeeps(ids, ReleaseParticle, (e: Event) => KeepsSharedGeometry(e) && NotFixture(e));
    ReleaseEach(ids, ReleaseParticle)
  }

  /** `createMonument`: adds a monument and starts its fall; then evicts
      the oldest while there are more than ten, flagging each evicted one
      so that its animation stops, and releasing its materials. Returns the
      new state, the evicted monuments and the events. */
  function CreateMonument(lc: LightCycle): (r: (LightCycle, seq<Monument>, seq<Event>))
    ensures r.0.nextId == lc.nextId + 1 && r.0.(monuments := lc.monuments, nextId := lc.nextId) == lc
    ensures var pushed := lc.monuments + [Monument(lc.nextId, false)];
      && |r.1| + |r.0.monuments| == |pushed|
      && r.0.monuments == pushed[|r.1|..]
      && (forall k :: 0 <= k < |r.1| ==> r.1[k] == pushed[k].(disposed := true))
    ensures |r.0.monuments| == if |lc.monuments| < MaxMonuments then |lc.monuments| + 1 else MaxMonuments
    ensures 0 < |r.0.monuments| && r.0.monuments[|r.0.monuments| - 1] == Monument(lc.nextId, false)
    ensures r.2 == ArrivalEvents(lc.nextId, Fifo.Push(lc.monuments, Monument(lc.nextId, false), MaxMonuments).1)
    ensures Valid(lc) ==> Valid(r.0)
  {
    var id := lc.nextId;
    var (kept, gone) := Fifo.Push(lc.monuments, Monument(id, false), MaxMonuments);
    (lc.(monuments := kept, nextId := id + 1), MarkDisposed(gone), ArrivalEvents(id, gone))
  }

  /** Below ten monuments nothing is evicted; at ten exactly the oldest
      is, flagged. */
  lemma CreateMonumentEvictsOldest(lc: LightCycle)
    ensures |lc.monuments| < MaxMonuments ==> CreateMonument(lc).1 == []
    ensures |lc.monuments| == MaxMonuments ==> CreateMonument(lc).1 == [lc.monuments[0].(disposed := true)]
  {
    var gone := Fifo.Push(lc.monuments, Monument(lc.nextId, false), MaxMonuments).1;
    if |lc.monuments| == MaxMonuments {
      assert gone == [lc.monuments[0]];
      assert MarkDisposed(gone)[0] == lc.monuments[0].(disposed := true);
    }
  }

  /** The events of a monument's arrival: it is added and starts to fall,
      then each evicted monument is removed and its materials disposed; no
      geometry is disposed, since the box and edge geometries are shared. */
  function ArrivalEvents(id: nat, gone: seq<Monument>): (r: seq<Event>)
    ensures |r| >= 2 && r[..2] == [Added(id), FallStarted(id)]
    ensures forall k :: 0 <= k < |gone| ==>
      Removed(gone[k].id) in r && MaterialDisposed(gone[k].id, Body) in r && MaterialDisposed(gone[k].id, Outline) in r
    ensures forall e :: e in r ==> KeepsSharedGeometry(e)
  {
    var release := ReleaseMonuments(gone);
    assert forall e :: e in release ==> e in [Added(id), FallStarted(id)] + release;
    [Added(id), FallStarted(id)] + release
  }

  /** `reset`: empties the gauge and removes every particle. */
  function Reset(lc: LightCycle): (r: (LightCycle, seq<Event>))
    ensures r.0 == lc.(gauge := Gauge.Empty(), particles := [])
    ensures forall k :: 0 <= k < |lc.particles| ==>
      Removed(lc.particles[k].id) in r.1 && MaterialDisposed(lc.particles[k].id, ParticleMesh) in r.1
    ensures forall e :: e in r.1 ==> KeepsSharedGeometry(e)
  {
    (lc.(gauge := Gauge.Empty(), particles := []), ReleaseParticles(lc.particles))
  }

  datatype Outcome = Done(lc: LightCycle, events: seq<Event>) | ThrowsTypeError

  /** `onBlockFound`: a no-op unless mining. After `dispose` the effects
      reference is gone, so the flash call throws. Otherwise flashes,
      replaces the pushing block and resets the gauge and particles. */
  function OnBlockFound(lc: LightCycle): (r: Outcome)
    ensures !lc.isMining ==> r == Done(lc, [])
    ensures lc.isMining && lc.isDisposed ==> r.ThrowsTypeError?
    ensures lc.isMining && !lc.isDisposed ==>
      && r.Done?
      && r.lc.gauge == Gauge.Empty() && r.lc.particles == []
      && r.lc.pushing == Some(lc.nextId) && r.lc.monuments == lc.monuments
      && |r.events| > 0 && r.events[0] == Flash
      && Added(lc.nextId) in r.events
    ensures lc.isMining && !lc.isDisposed ==>
      && (forall e :: e in PushingBlockEvents(lc) ==> e in r.events)
      && ParticlesReleased(lc.particles, r.events)
    ensures r.Done? && Valid(lc) ==> Valid(r.lc)
  {
    if !lc.isMining then Done(lc, [])
    else if lc.isDisposed then ThrowsTypeError
    else
      var (l1, e1) := CreatePushingBlock(lc);
      var (l2, e2) := Reset(l1);
      var es := [Flash] + e1 + e2;
      assert Added(lc.nextId) in e1;
      assert forall e :: e in e1 ==> e in es;
      assert forall e :: e in e2 ==> e in es;
      Done(l2, es)
  }

  /** `update`: nothing once disposed or when not mining; otherwise fades
      the particles and removes exactly those whose life is spent. */
  method Update(lc: LightCycle, delta: real) returns (r: LightCycle, events: seq<Event>)
    ensures lc.isDisposed || !lc.isMining ==> r == lc && events == []
    ensures !lc.isDisposed && lc.isMining ==>
      && r == lc.(particles := Sweep.Survivors(lc.particles, (p: Particles.Particle) => Particles.Fade(p, delta), Particles.Alive))
      && (forall k :: 0 <= k < |r.particles| ==> Particles.Alive(r.particles[k]))
      && (forall e :: e in events ==> KeepsSharedGeometry(e))
    ensures !lc.isDisposed && lc.isMining ==> forall k :: 0 <= k < |lc.particles| && !Particles.Alive(Particles.Fade(lc.particles[k], delta)) ==>
      && Removed(lc.particles[k].id) in events
      && MaterialDisposed(lc.particles[k].id, ParticleMesh) in events
    ensures Valid(lc) ==> Valid(r)
  {
    if lc.isDisposed || !lc.isMining {
      return lc, [];
    }
    var fade := (p: Particles.Particle) => Particles.Fade(p, delta);
    var kept, removed := Particles.Prune(lc.particles, delta);
    r := lc.(particles := kept);
    events := ReleaseParticles(removed);
    forall k | 0 <= k < |lc.particles| && !Particles.Alive(Particles.Fade(lc.particles[k], delta))
      ensures Removed(lc.particles[k].id) in events
      ensures MaterialDisposed(lc.particles[k].id, ParticleMesh) in events
    {
      var spent := Particles.Fade(lc.particles[k], delta);
      Sweep.CasualtyDropped(lc.particles, fade, Particles.Alive, k);
      Sweep.ReverseKeepsEntries(Sweep.Casualties(lc.particles, fade, Particles.Alive), spent);
      var j :| 0 <= j < |removed| && removed[j] == spent;
    }
  }

  datatype Stats = Stats(fill: nat, transactionCount: nat, monumentCount: nat)

  function GetStats(lc: LightCycle): (s: Stats)
    ensures s.fill == lc.gauge.fill && s.transactionCount == lc.gauge.count
    ensures s.monumentCount == |lc.monuments|
  {
    Stats(lc.gauge.fill, lc.gauge.count, |lc.monuments|)
  }

  /** A found block zeroes the fill and the count the stats report and
      leaves the monument count alone. */
  lemma StatsAfterBlock(lc: LightCycle)
    requires lc.isMining && !lc.isDisposed
    ensures var s := GetStats(OnBlockFound(lc).lc);
      s.fill == 0 && s.transactionCount == 0 && s.monumentCount == |lc.monuments|
  {
  }

  /** The fixtures `dispose` goes through before the monuments; the cube
      group comes after them. */
  const FixtureOrder: seq<Fixture> := [Glows, Trail, TrailMaterial, Bike]

  /** Whether `dispose` disposes a fixture's geometry: the trail's plane
      always, the bike's only when it is the fallback box. */
  predicate DisposesGeometry(f: Fixture, fallback: bool) {
    f == Trail || (f == Bike && fallback)
  }

  /** Letting go of one fixture: it is removed and its materials disposed,
      and its geometry too for the trail and a fallback bike. */
  function DiscardFixture(f: Fixture, fallback: bool): (r: seq<Event>)
    ensures Discarded(f) in r
    ensures forall g :: Discarded(g) in r ==> g == f
    ensures forall g :: FixtureGeometryDisposed(g) in r <==> g == f && DisposesGeometry(f, fallback)
    ensures forall e :: e in r ==> e.Discarded? || e.FixtureGeometryDisposed?
  {
    [Discarded(f)] + if DisposesGeometry(f, fallback) then [FixtureGeometryDisposed(f)] else []
  }

  /** The fixture releases of `dispose`, in the order the code goes
      through them. */
  function DiscardFixtures(fs: set<Fixture>, order: seq<Fixture>, fallback: bool): (r: seq<Event>)
    ensures forall f :: Discarded(f) in r <==> f in fs && f in order
    ensures forall f :: FixtureGeometryDisposed(f) in r <==> f in fs && f in order && DisposesGeometry(f, fallback)
    ensures forall e :: e in r ==> e.Discarded? || e.FixtureGeometryDisposed?
    decreases |order|
  {
    if order == [] then []
    else (if order[0] in fs then DiscardFixture(order[0], fallback) else []) + DiscardFixtures(fs, order[1..], fallback)
  }

  /** Every fixture is discarded either with the others or, for the cube
      group, last. */
  lemma FixtureOrderComplete(f: Fixture)
    ensures f in FixtureOrder || f == CubeGroup
  {
    match f
    case CubeGroup =>
    case Glows => assert FixtureOrder[0] == f;
    case Trail => assert FixtureOrder[1] == f;
    case TrailMaterial => assert FixtureOrder[2] == f;
    case Bike => assert FixtureOrder[3] == f;
  }

  /** The releases of `dispose` after the pushing block: the particles,
      the glows, trail and bike, every monument, and last the cube group.
      Of the geometries only the owned ones of the trail and a fallback
      bike are disposed. */
  function ReleaseContents(lc: LightCycle): (r: seq<Event>)
    ensures ParticlesReleased(lc.particles, r) && MonumentsReleased(lc.monuments, r)
    ensures forall f :: Discarded(f) in r <==> f in lc.fixtures
    ensures forall f :: FixtureGeometryDisposed(f) in r <==> f in lc.fixtures && DisposesGeometry(f, lc.fallbackBike)
    ensures forall e :: e in r ==> KeepsSharedGeometry(e)
  {
    var front := ReleaseFront(lc);
    var back := ReleaseBack(lc);
    assert forall e :: e in front ==> e in front + back;
    assert forall e :: e in back ==> e in front + back;
    forall f
      ensures Discarded(f) in front + back <==> f in lc.fixtures
      ensures FixtureGeometryDisposed(f) in front + back <==> f in lc.fixtures && DisposesGeometry(f, lc.fallbackBike)
    {
      FixtureOrderComplete(f);
    }
    front + back
  }

  /** The particles, then the glows, trail and bike. */
  function ReleaseFront(lc: LightCycle): (r: seq<Event>)
    ensures ParticlesReleased(lc.particles, r)
    ensures forall f :: Discarded(f) in r <==> f in lc.fixtures && f in FixtureOrder
    ensures forall f :: FixtureGeometryDisposed(f) in r <==> f in lc.fixtures && f in FixtureOrder && DisposesGeometry(f, lc.fallbackBike)
    ensures forall e :: e in r ==> KeepsSharedGeometry(e)
  {
    var released := ReleaseParticles(lc.particles);
    var discarded := DiscardFixtures(lc.fixtures, FixtureOrder, lc.fallbackBike);
    assert forall e :: e in released ==> e in released + discarded;
    released + discarded
  }

  /** The monuments, then the cube group, whose geometry-free group is
      only cleared. */
  function ReleaseBack(lc: LightCycle): (r: seq<Event>)
    ensures MonumentsReleased(lc.monuments, r)
    ensures forall f :: Discarded(f) in r <==> f in lc.fixtures && f == CubeGroup
    ensures forall f :: FixtureGeometryDisposed(f) !in r
    ensures forall e :: e in r ==> KeepsSharedGeometry(e)
  {
    var released := ReleaseMonuments(lc.monuments);
    var discarded := DiscardFixtures(lc.fixtures, [CubeGroup], lc.fallbackBike);
    assert forall e :: e in released ==> e in released + discarded;
    released + discarded
  }

  /** The events of `dispose`, in order: clear the stored release timer,
      release the pushing block (whose timer is by then already cleared),
      then everything else the light cycle holds. */
  function DisposeEvents(lc: LightCycle): (r: seq<Event>)
    ensures ParticlesReleased(lc.particles, r) && MonumentsReleased(lc.monuments, r)
    ensures forall f :: Discarded(f) in r <==> f in lc.fixtures
    ensures lc.pushingTimerSet && lc.pushing.Some? ==> |r| >= 4 && r[..4] == [TimerCleared] + ReleaseBlock(lc.pushing.value)
  {
    var head := DisposeHead(lc);
    var contents := ReleaseContents(lc);
    assert forall e :: e in contents ==> e in head + contents;
    head + contents
  }

  /** The first steps of `dispose`: clear the stored timer, then release
      the pushing block if there is one. */
  function DisposeHead(lc: LightCycle): (r: seq<Event>)
    ensures forall e :: e in r ==> KeepsSharedGeometry(e) && NotFixture(e)
    ensures lc.pushingTimerSet && lc.pushing.Some? ==> r == [TimerCleared] + ReleaseBlock(lc.pushing.value)
    ensures !lc.pushingTimerSet && lc.pushing.None? ==> r == []
  {
    var cleared := if lc.pushingTimerSet then [TimerCleared] else [];
    match lc.pushing
    case None => cleared
    case Some(b) => cleared + ReleaseBlock(b)
  }

  /** Teardown disposes no shared geometry, and of the fixtures' geometries
      exactly the trail's plane and the bike's box when it is the fallback. */
  lemma DisposeKeepsSharedGeometry(lc: LightCycle)
    ensures forall e :: e in DisposeEvents(lc) ==> KeepsSharedGeometry(e)
    ensures forall f :: FixtureGeometryDisposed(f) in DisposeEvents(lc) <==> f in lc.fixtures && DisposesGeometry(f, lc.fallbackBike)
  {
    var h := DisposeHead(lc);
    var c := ReleaseContents(lc);
    assert forall e :: e in c ==> KeepsSharedGeometry(e);
    assert forall f :: FixtureGeometryDisposed(f) !in h;
  }

  /** `dispose`: flags the light cycle disposed and lets go of the pushing
      block and its timer, the particles, the fixtures and the monuments,
      which are returned flagged so that their animations stop. */
  function Dispose(lc: LightCycle): (r: (LightCycle, seq<Monument>, seq<Event>))
    ensures r.0.isDisposed
    ensures r.0.particles == [] && r.0.monuments == [] && r.0.pushing.None? && !r.0.pushingTimerSet
    ensures r.0.fixtures == {}
    ensures r.0.gauge == lc.gauge && r.0.isMining == lc.isMining
    ensures |r.1| == |lc.monuments| && forall k :: 0 <= k < |r.1| ==> r.1[k] == lc.monuments[k].(disposed := true)
    ensures r.2 == DisposeEvents(lc)
    ensures Valid(lc) ==> Valid(r.0)
  {
    (lc.(isDisposed := true, pushing := None, pushingTimerSet := false,
         particles := [], monuments := [], fixtures := {}),
     MarkDisposed(lc.monuments),
     DisposeEvents(lc))
  }

  /** A second `dispose` finds nothing left to release. */
  lemma DisposeIdempotent(lc: LightCycle)
    ensures var d := Dispose(lc).0;
      Dispose(d).0 == d && Dispose(d).1 == [] && Dispose(d).2 == []
  {
    var d := Dispose(lc).0;
    assert DiscardFixtures({}, FixtureOrder, lc.fallbackBike) == [];
    assert DiscardFixtures({}, [CubeGroup], lc.fallbackBike) == [];
  }
}

=== FILE: mining_cube.dfy ===
/** The mining cube's block bookkeeping: the fill gauge and the height of
    the inner fill cube it drives, one particle per transaction, the FIFO
    list of at most ten solid monuments, particle pruning and the reset
    after a found block. Unlike the light cycle, every block and particle
    here owns its geometry as well as its material. Positions, rotations,
    the laser pulse and the fall animation's frames are left to the
    renderer. */
module MiningCube {
  import opened Scene
  import Fifo
  import Gauge
  import Particles
  import Sweep

  const MaxMonuments := 10

  datatype MiningCube = MiningCube(
    isMining: bool,
    gauge: Gauge.Gauge,
    fillScale: real,               // `fillCube.scale.y`
    particles: seq<Particles.Particle>,
    monuments: seq<nat>,
    nextId: nat)                   // serial of the next particle or monument

  /** The fill cube's vertical scale for a fill of `fill` hundredths: the
      cube is 8 units tall, the fill reaches 95% of it, and the flat fill
      box is 0.1 tall, so the scale is `max(8 * fill/100 * 0.95 / 0.1, 1)`. */
  function FillScale(fill: nat): (s: real)
    ensures s >= 1.0
    ensures 0.76 * fill as real >= 1.0 ==> s == 0.76 * fill as real
    ensures 0.76 * fill as real < 1.0 ==> s == 1.0
  {
    var h := 8.0 * (fill as real / 100.0) * 0.95 / 0.1;
    if h > 1.0 then h else 1.0
  }

  /** A fuller gauge never shows a lower fill cube; a full gauge shows it
      76 times its flat height. */
  lemma FillScaleMonotone(a: nat, b: nat)
    requires a <= b
    ensures FillScale(a) <= FillScale(b)
    ensures FillScale(Gauge.Full) == 76.0 && FillScale(0) == 1.0
  {
  }

  /** A freshly constructed mining cube. */
  function Initial(): (mc: MiningCube)
    ensures Valid(mc) && mc.isMining && mc.monuments == [] && mc.particles == []
  {
    MiningCube(true, Gauge.Empty(), 1.0, [], [], 0)
  }

  /** The fill cube's scale follows the gauge and there are at most ten
      monuments. */
  predicate Valid(mc: MiningCube) {
    && Gauge.Valid(mc.gauge)
    && mc.fillScale == FillScale(mc.gauge.fill)
    && |mc.monuments| <= MaxMonuments
  }

  /** `addTransaction`: one more transaction in the gauge, the fill cube
      raised to match, and a new particle at full life added to the cube
      group. Mining or not, the transaction is taken. */
  function AddTransaction(mc: MiningCube): (r: (MiningCube, seq<Event>))
    ensures r.0.gauge == Gauge.AddTransaction(mc.gauge)
    ensures r.0.fillScale >= mc.fillScale || !Valid(mc)
    ensures |r.0.particles| == |mc.particles| + 1 && r.0.particles[..|mc.particles|] == mc.particles
    ensures r.0.particles[|mc.particles|] == Particles.Particle(mc.nextId, 1.0)
    ensures r.0.monuments == mc.monuments && r.0.isMining == mc.isMining && r.0.nextId == mc.nextId + 1
    ensures r.1 == [Added(mc.nextId)]
    ensures Valid(mc) ==> Valid(r.0)
  {
    var g := Gauge.AddTransaction(mc.gauge);
    assert Valid(mc) ==> FillScale(mc.gauge.fill) <= FillScale(g.fill) by {
      if Valid(mc) {
        FillScaleMonotone(mc.gauge.fill, g.fill);
      }
    }
    (mc.(gauge := g, fillScale := FillScale(g.fill),
         particles := mc.particles + [Particles.Particle(mc.nextId, 1.0)], nextId := mc.nextId + 1),
     [Added(mc.nextId)])
  }

  function AddTransactions(mc: MiningCube, n: nat): MiningCube
    decreases n
  {
    if n == 0 then mc else AddTransactions(AddTransaction(mc).0, n - 1)
  }

  /** After `n` transactions into an emptied cube there is one particle per
      transaction, and the fill cube stands at the height of `n` hundredths,
      saturating at full. */
  lemma {:induction false} TransactionsRaiseFill(mc: MiningCube, n: nat)
    requires Valid(mc) && mc.gauge == Gauge.Empty() && mc.particles == []
    ensures var m := AddTransactions(mc, n);
      && |m.particles| == n
      && m.gauge == Gauge.Gauge(if n < Gauge.Full then n else Gauge.Full, n)
      && m.fillScale == FillScale(if n < Gauge.Full then n else Gauge.Full)
  {
    RaiseFrom(mc, n);
    Gauge.FillFrom(mc.gauge, n);
  }

  lemma {:induction false} RaiseFrom(mc: MiningCube, n: nat)
    requires Valid(mc)
    ensures var m := AddTransactions(mc, n);
      && Valid(m) && |m.particles| == |mc.particles| + n
      && m.gauge == Gauge.AddTransactions(mc.gauge, n)
    decreases n
  {
    if n > 0 {
      RaiseFrom(AddTransaction(mc).0, n - 1);
    }
  }

  /** Removing a particle and disposing the sphere geometry and material it
      owns. */
  function ReleaseParticle(obj: nat): seq<Event> {
    [Removed(obj), GeometryDisposed(obj, ParticleMesh), MaterialDisposed(obj, ParticleMesh)]
  }

  /** An event that only removes an object or disposes a particle's
      resource. */
  predicate TouchesParticle(e: Event) {
    e.Removed? || ((e.GeometryDisposed? || e.MaterialDisposed?) && e.part == ParticleMesh)
  }

  /** Releasing particles one by one: each is removed and both of its
      resources disposed; nothing else happens. */
  function ReleaseParticles(ps: seq<Particles.Particle>): (r: seq<Event>)
    ensures forall k :: 0 <= k < |ps| ==>
      && Removed(ps[k].id) in r
      && GeometryDisposed(ps[k].id, ParticleMesh) in r
      && MaterialDisposed(ps[k].id, ParticleMesh) in r
    ensures forall e :: e in r ==> TouchesParticle(e)
  {
    var ids := Serials(ps, (p: Particles.Particle) => p.id);
    forall k | 0 <= k < |ps|
      ensures Removed(ids[k]) in ReleaseEach(ids, ReleaseParticle)
      ensures GeometryDisposed(ids[k], ParticleMesh) in ReleaseEach(ids, ReleaseParticle)
      ensures MaterialDisposed(ids[k], ParticleMesh) in ReleaseEach(ids, ReleaseParticle)
    {
      ReleaseEachContains(ids, ReleaseParticle, k, Removed(ids[k]));
      ReleaseEachContains(ids, ReleaseParticle, k, GeometryDisposed(ids[k], ParticleMesh));
      ReleaseEachContains(ids, ReleaseParticle, k, MaterialDisposed(ids[k], ParticleMesh));
    }
    ReleaseEachKeeps(ids, ReleaseParticle, TouchesParticle);
    ReleaseEach(ids, ReleaseParticle)
  }

  /** The four GPU resources a monument owns: the box geometry and its
      material, and the edge outline's geometry and line material. */
  function OwnedResources(obj: nat): seq<Event> {
    [GeometryDisposed(obj, Body), MaterialDisposed(obj, Body),
     GeometryDisposed(obj, Outline), MaterialDisposed(obj, Outline)]
  }

  /** A monument is let go of completely when it leaves the scene and every
      resource it owns is disposed. */
  predicate FullyReleased(events: seq<Event>, obj: nat) {
    Removed(obj) in events && forall e :: e in OwnedResources(obj) ==> e in events
  }

  /** The eviction as the code writes it: the monument leaves the scene and
      its box geometry and material are disposed; the outline child is not
      touched. */
  function ReleaseMonumentAsWritten(obj: nat): seq<Event> {
    [Removed(obj), GeometryDisposed(obj, Body), MaterialDisposed(obj, Body)]
  }

  /** The eviction that lets go of everything the monument owns. */
  function ReleaseMonument(obj: nat): seq<Event> {
    [Removed(obj)] + OwnedResources(obj)
  }

  /** `createMonument` with a given way of releasing an evicted monument:
      adds a monument and starts its fall, then shifts out the oldest while
      there are more than ten, releasing each. Returns the new state, the
      evicted monuments, oldest first, and the events. */
  function CreateMonumentWith(mc: MiningCube, release: nat -> seq<Event>): (r: (MiningCube, seq<nat>, seq<Event>))
    ensures r.0.nextId == mc.nextId + 1 && r.0.(monuments := mc.monuments, nextId := mc.nextId) == mc
    ensures r.1 + r.0.monuments == mc.monuments + [mc.nextId]
    ensures |r.0.monuments| == if |mc.monuments| < MaxMonuments then |mc.monuments| + 1 else MaxMonuments
    ensures 0 < |r.0.monuments| && r.0.monuments[|r.0.monuments| - 1] == mc.nextId
    ensures |mc.monuments| < MaxMonuments ==> r.1 == []
    ensures |mc.monuments| == MaxMonuments ==> r.1 == [mc.monuments[0]]
    ensures r.2 == Arrival(mc.nextId, r.1, release)
    ensures Valid(mc) ==> Valid(r.0)
  {
    var id := mc.nextId;
    var (kept, gone) := PushMonument(mc.monuments, id);
    var m := mc.(monuments := kept, nextId := id + 1);
    assert m.(monuments := mc.monuments, nextId := mc.nextId) == mc;
    (m, gone, Arrival(id, gone, release))
  }

  /** The `push` and `shift` loop on the monument list: the facts about
      the bounded push that the monument operations rely on. */
  function PushMonument(ms: seq<nat>, id: nat): (r: (seq<nat>, seq<nat>))
    ensures r.1 + r.0 == ms + [id]
    ensures |r.0| == if |ms| < MaxMonuments then |ms| + 1 else MaxMonuments
    ensures 0 < |r.0| && r.0[|r.0| - 1] == id
    ensures |ms| < MaxMonuments ==> r.1 == []
    ensures |ms| == MaxMonuments ==> r.1 == [ms[0]]
  {
    Fifo.Push(ms, id, MaxMonuments)
  }

  /** The events of a monument's arrival: it is added and starts to fall,
      then each evicted monument is released in turn. */
  function Arrival(id: nat, gone: seq<nat>, release: nat -> seq<Event>): (r: seq<Event>)
    ensures |r| >= 2 && r[..2] == [Added(id), FallStarted(id)]
    ensures r[2..] == ReleaseEach(gone, release)
  {
    var events := [Added(id), FallStarted(id)] + ReleaseEach(gone, release);
    assert events[2..] == ReleaseEach(gone, release);
    events
  }

  function CreateMonumentAsWritten(mc: MiningCube): (MiningCube, seq<nat>, seq<Event>) {
    CreateMonumentWith(mc, ReleaseMonumentAsWritten)
  }

  function CreateMonument(mc: MiningCube): (MiningCube, seq<nat>, seq<Event>) {
    CreateMonumentWith(mc, ReleaseMonument)
  }

  /** As written, the eleventh monument evicts the oldest from the scene
      but leaves its outline's geometry and material undisposed. */
  lemma AsWrittenLeaksOutline(mc: MiningCube)
    requires |mc.monuments| == MaxMonuments
    ensures var (_, gone, events) := CreateMonumentAsWritten(mc);
      && gone == [mc.monuments[0]]
      && Removed(mc.monuments[0]) in events
      && GeometryDisposed(mc.monuments[0], Outline) !in events
      && MaterialDisposed(mc.monuments[0], Outline) !in events
      && !FullyReleased(events, mc.monuments[0])
  {
    var (_, gone, events) := CreateMonumentAsWritten(mc);
    var old0 := mc.monuments[0];
    assert ReleaseEach(gone, ReleaseMonumentAsWritten) == ReleaseMonumentAsWritten(old0) + [];
    assert events == [Added(mc.nextId), FallStarted(mc.nextId)] + ReleaseMonumentAsWritten(old0);
    assert GeometryDisposed(old0, Outline) in OwnedResources(old0);
  }

  /** Corrected, every evicted monument is released completely. */
  lemma CreateMonumentReleasesEvicted(mc: MiningCube)
    ensures var (_, gone, events) := CreateMonument(mc);
      forall k :: 0 <= k < |gone| ==> FullyReleased(events, gone[k])
  {
    var (_, gone, events) := CreateMonument(mc);
    forall k | 0 <= k < |gone|
      ensures FullyReleased(events, gone[k])
    {
      var o := gone[k];
      forall e | e in ReleaseMonument(o)
        ensures e in events
      {
        ReleaseEachContains(gone, ReleaseMonument, k, e);
        assert events == events[..2] + events[2..];
      }
    }
  }

  /** `reset`: empties the gauge, lays the fill cube flat again, and
      removes every particle, disposing what each owns. */
  function Reset(mc: MiningCube): (r: (MiningCube, seq<Event>))
    ensures r.0.gauge == Gauge.Empty() && r.0.fillScale == 1.0 && r.0.particles == []
    ensures r.0.(gauge := mc.gauge, fillScale := mc.fillScale, particles := mc.particles) == mc
    ensures forall k :: 0 <= k < |mc.particles| ==>
      && Removed(mc.particles[k].id) in r.1
      && GeometryDisposed(mc.particles[k].id, ParticleMesh) in r.1
      && MaterialDisposed(mc.particles[k].id, ParticleMesh) in r.1
    ensures forall e :: e in r.1 ==> TouchesParticle(e)
    ensures Valid(mc) ==> Valid(r.0)
  {
    (mc.(gauge := Gauge.Empty(), fillScale := 1.0, particles := []), ReleaseParticles(mc.particles))
  }

  /** `onBlockFound`: a no-op unless mining; otherwise flashes, lays down
      a monument for the block, releasing an evicted one with `release`,
      and resets for the next one. */
  function OnBlockFound(mc: MiningCube, release: nat -> seq<Event>): (r: (MiningCube, seq<Event>))
    ensures !mc.isMining ==> r == (mc, [])
    ensures mc.isMining ==>
      && r.0.gauge == Gauge.Empty() && r.0.fillScale == 1.0 && r.0.particles == []
      && r.0.monuments == CreateMonumentWith(mc, release).0.monuments
      && |r.1| > 0 && r.1[0] == Flash
      && Added(mc.nextId) in r.1
    ensures mc.isMining ==> forall e :: e in CreateMonumentWith(mc, release).2 ==> e in r.1
    ensures mc.isMining ==> forall e :: e in r.1 ==>
      e == Flash || e in CreateMonumentWith(mc, release).2 || TouchesParticle(e)
    ensures mc.isMining ==> forall k :: 0 <= k < |mc.particles| ==>
      && Removed(mc.particles[k].id) in r.1
      && GeometryDisposed(mc.particles[k].id, ParticleMesh) in r.1
      && MaterialDisposed(mc.particles[k].id, ParticleMesh) in r.1
    ensures Valid(mc) ==> Valid(r.0)
  {
    if !mc.isMining then (mc, [])
    else
      var (m1, _, e1) := CreateMonumentWith(mc, release);
      var (m2, e2) := Reset(m1);
      assert m1.particles == mc.particles;
      assert forall e :: e in e2 ==> e in [Flash] + e1 + e2;
      assert Added(mc.nextId) in [Flash] + e1 + e2 by {
        assert e1[0] == Added(mc.nextId);
        assert ([Flash] + e1 + e2)[1] == e1[0];
      }
      (m2, [Flash] + e1 + e2)
  }

  /** The block handler as written: with ten monuments standing, the
      oldest is taken out of the scene while its outline's geometry and
      material are never disposed. */
  lemma OnBlockFoundAsWrittenLeaksOutline(mc: MiningCube)
    requires mc.isMining && |mc.monuments| == MaxMonuments
    ensures var events := OnBlockFound(mc, ReleaseMonumentAsWritten).1;
      && Removed(mc.monuments[0]) in events
      && GeometryDisposed(mc.monuments[0], Outline) !in events
      && MaterialDisposed(mc.monuments[0], Outline) !in events
      && !FullyReleased(events, mc.monuments[0])
  {
    AsWrittenLeaksOutline(mc);
    var old0 := mc.monuments[0];
    assert GeometryDisposed(old0, Outline) in OwnedResources(old0);
  }

  /** Corrected, the block handler releases every evicted monument
      completely. */
  lemma OnBlockFoundReleasesEvicted(mc: MiningCube)
    requires mc.isMining
    ensures var (_, gone, _) := CreateMonument(mc);
      forall k :: 0 <= k < |gone| ==> FullyReleased(OnBlockFound(mc, ReleaseMonument).1, gone[k])
  {
    CreateMonumentReleasesEvicted(mc);
  }

  /** `update`: nothing when not mining; otherwise fades the particles and
      removes exactly those whose life is spent, disposing what each owns. */
  method Update(mc: MiningCube, delta: real) returns (r: MiningCube, events: seq<Event>)
    ensures !mc.isMining ==> r == mc && events == []
    ensures mc.isMining ==>
      && r == mc.(particles := Sweep.Survivors(mc.particles, (p: Particles.Particle) => Particles.Fade(p, delta), Particles.Alive))
      && (forall k :: 0 <= k < |r.particles| ==> Particles.Alive(r.particles[k]))
    ensures mc.isMining ==> forall k :: 0 <= k < |mc.particles| && !Particles.Alive(Particles.Fade(mc.particles[k], delta)) ==>
      && Removed(mc.particles[k].id) in events
      && GeometryDisposed(mc.particles[k].id, ParticleMesh) in events
      && MaterialDisposed(mc.particles[k].id, ParticleMesh) in events
    ensures Valid(mc) ==> Valid(r)
  {
    if !mc.isMining {
      return mc, [];
    }
    var fade := (p: Particles.Particle) => Particles.Fade(p, delta);
    var kept, removed := Particles.Prune(mc.particles, delta);
    r := mc.(particles := kept);
    events := ReleaseParticles(removed);
    forall k | 0 <= k < |mc.particles| && !Particles.Alive(Particles.Fade(mc.particles[k], delta))
      ensures Removed(mc.particles[k].id) in events
      ensures GeometryDisposed(mc.particles[k].id, ParticleMesh) in events
      ensures MaterialDisposed(mc.particles[k].id, ParticleMesh) in events
    {
      var spent := Particles.Fade(mc.particles[k], delta);
      Sweep.CasualtyDropped(mc.particles, fade, Particles.Alive, k);
      Sweep.ReverseKeepsEntries(Sweep.Casualties(mc.particles, fade, Particles.Alive), spent);
      var j :| 0 <= j < |removed| && removed[j] == spent;
    }
  }

  datatype Stats = Stats(fill: nat, transactionCount: nat, monumentCount: nat)

  function GetStats(mc: MiningCube): (s: Stats)
    ensures s.fill == mc.gauge.fill && s.transactionCount == mc.gauge.count
    ensures s.monumentCount == |mc.monuments|
  {
    Stats(mc.gauge.fill, mc.gauge.count, |mc.monuments|)
  }

  /** A found block zeroes the fill and the count the stats report and adds
      one monument, up to ten. */
  lemma StatsAfterBlock(mc: MiningCube, release: nat -> seq<Event>)
    requires mc.isMining
    ensures var s := GetStats(OnBlockFound(mc, release).0);
      && s.fill == 0 && s.transactionCount == 0
      && s.monumentCount == if |mc.monuments| < MaxMonuments then |mc.monuments| + 1 else MaxMonuments
  {
  }
}

=== FILE: particles.dfy ===
/** The short-lived particles of the mining visuals: each frame a particle
    loses twice the frame time from its life, and one whose life has run
    out is taken out of the scene. Positions are not modelled. */
module Particles {
  import Sweep

  datatype Particle = Particle(id: nat, life: real)

  function Fade(p: Particle, delta: real): (r: Particle)
    ensures r.id == p.id && r.life == p.life - delta * 2.0
  {
    p.(life := p.life - delta * 2.0)
  }

  predicate Alive(p: Particle) {
    p.life > 0.0
  }

  /** The frame's particle sweep, from the last particle to the first:
      fades every particle and splices out each whose life is spent. The
      survivors keep their order; the spent ones are reported last-first. */
  method Prune(ps: seq<Particle>, delta: real) returns (kept: seq<Particle>, removed: seq<Particle>)
    ensures kept == Sweep.Survivors(ps, (p: Particle) => Fade(p, delta), Alive)
    ensures removed == Sweep.Reverse(Sweep.Casualties(ps, (p: Particle) => Fade(p, delta), Alive))
    ensures forall k :: 0 <= k < |kept| ==> Alive(kept[k])
    ensures forall k :: 0 <= k < |removed| ==> !Alive(removed[k])
    ensures |kept| + |removed| == |ps|
  {
    kept, removed := Sweep.SweepBackward(ps, (p: Particle) => Fade(p, delta), Alive);
    Sweep.SurvivorsAndCasualtiesPartition(ps, (p: Particle) => Fade(p, delta), Alive);
  }
}

=== FILE: scene.dfy ===
/** Abstract scene-graph effects: what the mining visuals add to or remove
    from the scene and which GPU resources they release. Objects are named
    by a serial number issued by their owner. */
module Scene {
  /** The part of an object a resource belongs to. */
  datatype Part = Body | Outline | ParticleMesh

  /** Long-lived objects a visual owns besides its blocks and particles. */
  datatype Fixture = Glows | Trail | TrailMaterial | Bike | CubeGroup

  datatype Event =
    | Flash
    | Added(obj: nat)
    | Removed(obj: nat)
    | FallStarted(obj: nat)
    | MaterialDisposed(obj: nat, part: Part)
    | GeometryDisposed(obj: nat, part: Part)
    | TimerCleared
    | ReleaseScheduled(ms: int)
    | Discarded(fixture: Fixture)             // removed, its materials disposed
    | FixtureGeometryDisposed(fixture: Fixture)

  /** The serial numbers of a list of objects, in order. */
  function Serials<T>(xs: seq<T>, serial: T -> nat): (r: seq<nat>)
    ensures |r| == |xs| && forall k :: 0 <= k < |xs| ==> r[k] == serial(xs[k])
    decreases |xs|
  {
    if xs == [] then [] else [serial(xs[0])] + Serials(xs[1..], serial)
  }

  /** The events of releasing each object of `objs` in turn. */
  function ReleaseEach(objs: seq<nat>, release: nat -> seq<Event>): seq<Event>
    decreases |objs|
  {
    if objs == [] then [] else release(objs[0]) + ReleaseEach(objs[1..], release)
  }

  /** Every event of every object's release is among the events. */
  lemma {:induction false} ReleaseEachContains(objs: seq<nat>, release: nat -> seq<Event>, k: nat, e: Event)
    requires k < |objs| && e in release(objs[k])
    ensures e in ReleaseEach(objs, release)
    decreases k
  {
    if k > 0 {
      assert objs[1..][k - 1] == objs[k];
      ReleaseEachContains(objs[1..], release, k - 1, e);
    }
  }

  /** A property every single release's events have, all the events have. */
  lemma {:induction false} ReleaseEachKeeps(objs: seq<nat>, release: nat -> seq<Event>, p: Event -> bool)
    requires forall o: nat, e :: e in release(o) ==> p(e)
    ensures forall e :: e in ReleaseEach(objs, release) ==> p(e)
    decreases |objs|
  {
    if objs != [] {
      ReleaseEachKeeps(objs[1..], release, p);
    }
  }
}

=== FILE: sweep.dfy ===
/** The per-frame pruning loop the scene objects share: walk a list from
    the last index down to 0, advance each entry one step, and splice out
    (and hand back for disposal) every entry that is no longer alive. */
module Sweep {

  /** Reference meaning of one pass: every entry advanced, the live ones
      kept in their original order. */
  function Survivors<T>(s: seq<T>, step: T -> T, alive: T -> bool): (r: seq<T>)
    ensures |r| <= |s|
    ensures forall i :: 0 <= i < |r| ==> alive(r[i])
  {
    if s == [] then []
    else
      var t := step(s[0]);
      (if alive(t) then [t] else []) + Survivors(s[1..], step, alive)
  }

  /** The advanced entries that a pass drops, in list order. */
  function Casualties<T>(s: seq<T>, step: T -> T, alive: T -> bool): (r: seq<T>)
    ensures |r| <= |s|
    ensures forall i :: 0 <= i < |r| ==> !alive(r[i])
  {
    if s == [] then []
    else
      var t := step(s[0]);
      (if alive(t) then [] else [t]) + Casualties(s[1..], step, alive)
  }

  function Reverse<T>(s: seq<T>): (r: seq<T>)
    ensures |r| == |s|
    ensures forall i :: 0 <= i < |s| ==> r[i] == s[|s| - 1 - i]
  {
    if s == [] then [] else Reverse(s[1..]) + [s[0]]
  }

  /** Every entry advanced one step, in list order. */
  function Stepped<T>(s: seq<T>, step: T -> T): (r: seq<T>)
    ensures |r| == |s| && forall i :: 0 <= i < |s| ==> r[i] == step(s[i])
  {
    if s == [] then [] else [step(s[0])] + Stepped(s[1..], step)
  }

  /** A pass neither loses nor duplicates entries: each advanced entry is
      either kept or dropped, exactly once. */
  lemma {:induction false} SurvivorsAndCasualtiesPartition<T>(s: seq<T>, step: T -> T, alive: T -> bool)
    ensures multiset(Survivors(s, step, alive)) + multiset(Casualties(s, step, alive)) == multiset(Stepped(s, step))
    ensures |Survivors(s, step, alive)| + |Casualties(s, step, alive)| == |s|
  {
    if s != [] {
      SurvivorsAndCasualtiesPartition(s[1..], step, alive);
      var t := step(s[0]);
      assert Stepped(s, step) == [t] + Stepped(s[1..], step);
      assert multiset(Stepped(s, step)) == multiset{t} + multiset(Stepped(s[1..], step));
    }
  }

  /** When every advanced entry stays alive, the pass drops nothing. */
  lemma {:induction false} AllAliveKeepsAll<T>(s: seq<T>, step: T -> T, alive: T -> bool)
    requires forall i :: 0 <= i < |s| ==> alive(step(s[i]))
    ensures |Survivors(s, step, alive)| == |s|
    ensures Casualties(s, step, alive) == []
  {
    if s != [] {
      assert alive(step(s[0]));
      AllAliveKeepsAll(s[1..], step, alive);
    }
  }

  /** Every entry that does not survive its step is among the dropped. */
  lemma {:induction false} CasualtyDropped<T>(s: seq<T>, step: T -> T, alive: T -> bool, k: nat)
    requires k < |s| && !alive(step(s[k]))
    ensures step(s[k]) in Casualties(s, step, alive)
    decreases k
  {
    if k > 0 {
      assert s[1..][k - 1] == s[k];
      CasualtyDropped(s[1..], step, alive, k - 1);
    }
  }

  /** Reversing keeps the same entries. */
  lemma ReverseKeepsEntries<T>(s: seq<T>, x: T)
    ensures x in Reverse(s) <==> x in s
  {
    if x in s {
      var i :| 0 <= i < |s| && s[i] == x;
      assert Reverse(s)[|s| - 1 - i] == x;
    }
  }

  /** The loop itself, walking from the back and splicing in place. The
      survivors come out in the original order; the dropped entries are
      handed back in the order the loop meets them, last first. */
  method SweepBackward<T>(s: seq<T>, step: T -> T, alive: T -> bool)
    returns (kept: seq<T>, removed: seq<T>)
    ensures kept == Survivors(s, step, alive)
    ensures removed == Reverse(Casualties(s, step, alive))
  {
    kept := s;
    removed := [];
    var i := |s|;
    while i > 0
      invariant 0 <= i <= |s|
      invariant kept == s[..i] + Survivors(s[i..], step, alive)
      invariant removed == Reverse(Casualties(s[i..], step, alive))
    {
      i := i - 1;
      ghost var live := Survivors(s[i + 1..], step, alive);
      ghost var dead := Casualties(s[i + 1..], step, alive);
      StepAt(s, i, step, alive);
      assert kept[i] == s[i];
      var t := step(kept[i]);
      SpliceAt(s, i, live, t);
      if alive(t) {
        kept := kept[i := t];
      } else {
        kept := kept[..i] + kept[i + 1..];
        ReverseCons(t, dead);
        removed := removed + [t];
      }
    }
    assert s[0..] == s;
  }

  /** One step of a pass from index `i`: the entry there, advanced, is kept
      or dropped, then the pass goes on from `i + 1`. */
  lemma StepAt<T>(s: seq<T>, i: nat, step: T -> T, alive: T -> bool)
    requires i < |s|
    ensures var t := step(s[i]);
      && Survivors(s[i..], step, alive) == (if alive(t) then [t] else []) + Survivors(s[i + 1..], step, alive)
      && Casualties(s[i..], step, alive) == (if alive(t) then [] else [t]) + Casualties(s[i + 1..], step, alive)
  {
    assert s[i..][0] == s[i] && s[i..][1..] == s[i + 1..];
  }

  /** Replacing or splicing out entry `i` of a list whose first `i + 1`
      entries are those of `s`. */
  lemma SpliceAt<T>(s: seq<T>, i: nat, tail: seq<T>, t: T)
    requires i < |s|
    ensures var l := s[..i + 1] + tail;
      && l[i := t] == s[..i] + ([t] + tail)
      && l[..i] + l[i + 1..] == s[..i] + tail
  {
    var l := s[..i + 1] + tail;
    assert l[..i] == s[..i] && l[i + 1..] == tail;
  }

  lemma ReverseCons<T>(t: T, rest: seq<T>)
    ensures Reverse([t] + rest) == Reverse(rest) + [t]
  {
    assert ([t] + rest)[1..] == rest;
  }
}

=== FILE: transactions.dfy ===
/** Transactions on the grid: classification of a transaction into one of
    four vehicle tiers, its speed, its per-frame motion, its disposal, and the
    bounded, insertion-ordered ledger of live transactions. */
module Transactions {
  import opened Values
  import Fifo
  import Sweep

  const SatoshisPerBtc := 100_000_000
  /** 0.1 BTC: below this a transaction is a light cycle. */
  const SmallSats := 10_000_000
  /** 10 BTC: below this an armored transport. */
  const MediumSats := 1_000_000_000
  /** 100 BTC: below this a small recognizer, from here a large one. */
  const LargeSats := 10_000_000_000
  /** 100 BTC: the whale threshold passed to the effects as `isLarge`. */
  const WhaleSats := 10_000_000_000
  const MaxTransactions := 50
  const DefaultFeeRate: real := 10.0
  const BaseSpeed: real := 20.0
  const SpawnZ: real := -150.0
  const DespawnZ: real := 50.0

  datatype Tier = LightCycle | ArmoredTransport | RecognizerSmall | RecognizerLarge {
    predicate IsRecognizer() { RecognizerSmall? || RecognizerLarge? }
    /** Position of the tier in the order of increasing value. */
    function Rank(): nat {
      match this
      case LightCycle => 0
      case ArmoredTransport => 1
      case RecognizerSmall => 2
      case RecognizerLarge => 3
    }
  }

  /** The record the feed hands to the ledger. Values are in satoshis. */
  datatype TxData = TxData(
    txid: string,
    value: int,
    feeRate: Option<real>,
    fee: Option<int>,
    vsize: Option<int>,
    timestamp: int)

  /** A material of a transaction's mesh: the invisible hitbox material is a
      single module-wide instance, every other material is created for, and
      owned by, one transaction. Geometries are all shared and never appear. */
  datatype Material = HitboxMaterial | Owned(slot: nat)

  /** What disposing a transaction does to the scene. */
  datatype Release = RemoveFromScene | DisposeMaterial(material: Material)

  datatype Transaction = Transaction(
    data: TxData,
    tier: Tier,
    speed: real,
    lane: real,
    z: real,
    active: bool,
    hasMesh: bool)

  /** The tier, compared in BTC the way the browser code writes it. */
  function DetermineTypeBtc(btc: real): Tier {
    if btc < 0.1 then LightCycle
    else if btc < 10.0 then ArmoredTransport
    else if btc < 100.0 then RecognizerSmall
    else RecognizerLarge
  }

  /** The tier, compared in satoshis: exactly one tier per value. */
  function DetermineType(value: int): (t: Tier)
    ensures t == LightCycle <==> value < SmallSats
    ensures t == ArmoredTransport <==> SmallSats <= value < MediumSats
    ensures t == RecognizerSmall <==> MediumSats <= value < LargeSats
    ensures t == RecognizerLarge <==> LargeSats <= value
  {
    if value < SmallSats then LightCycle
    else if value < MediumSats then ArmoredTransport
    else if value < LargeSats then RecognizerSmall
    else RecognizerLarge
  }

  /** The satoshi thresholds are the BTC thresholds scaled by 10^8. */
  lemma DetermineTypeMatchesBtc(value: int)
    ensures DetermineType(value) == DetermineTypeBtc(value as real / SatoshisPerBtc as real)
  {
  }

  /** A larger value never gets a smaller tier. */
  lemma DetermineTypeMonotone(a: int, b: int)
    requires a <= b
    ensures DetermineType(a).Rank() <= DetermineType(b).Rank()
  {
  }

  /** The fee multiplier of `calculateSpeed`, capped at 5. */
  function FeeMultiplier(fee: real): real {
    if fee / 10.0 < 5.0 then fee / 10.0 else 5.0
  }

  /** `calculateSpeed`: a falsy fee rate counts as 10; the speed is
      20 + min(fee / 10, 5) * 10. */
  function CalculateSpeed(feeRate: Option<real>): (speed: real)
    ensures OrElse(feeRate, DefaultFeeRate) >= 0.0 ==> BaseSpeed <= speed <= 70.0
    ensures OrElse(feeRate, DefaultFeeRate) >= 50.0 ==> speed == 70.0
    ensures !Truthy(feeRate) ==> speed == 30.0
  {
    BaseSpeed + FeeMultiplier(OrElse(feeRate, DefaultFeeRate)) * 10.0
  }

  /** For positive fee rates the speed never decreases as the fee grows. */
  lemma CalculateSpeedMonotone(a: real, b: real)
    requires 0.0 < a <= b
    ensures CalculateSpeed(Some(a)) <= CalculateSpeed(Some(b))
  {
  }

  /** The speed a new transaction starts with: recognizers run at 85%. */
  function InitialSpeed(tier: Tier, feeRate: Option<real>): (speed: real)
    ensures tier.IsRecognizer() ==> speed == CalculateSpeed(feeRate) * 0.85
    ensures !tier.IsRecognizer() ==> speed == CalculateSpeed(feeRate)
    ensures OrElse(feeRate, DefaultFeeRate) >= 0.0 ==> 17.0 <= speed <= 70.0
  {
    if tier.IsRecognizer() then CalculateSpeed(feeRate) * 0.85 else CalculateSpeed(feeRate)
  }

  /** A new transaction at the horizon, in a lane chosen by one random draw. */
  function NewTransaction(data: TxData, laneDraw: real): (t: Transaction)
    requires 0.0 <= laneDraw < 1.0
    ensures t.tier == DetermineType(data.value) && t.data == data
    ensures t.active && t.hasMesh && t.z == SpawnZ
    ensures -40.0 <= t.lane < 40.0
    ensures t.speed == InitialSpeed(t.tier, data.feeRate)
  {
    var tier := DetermineType(data.value);
    Transaction(data, tier, InitialSpeed(tier, data.feeRate), (laneDraw - 0.5) * 80.0, SpawnZ, true, true)
  }

  /** One frame of `Transaction.update`: move toward the camera and go
      inactive once past it. An inactive or disposed transaction stays put. */
  function Step(t: Transaction, delta: real): (r: Transaction)
    ensures r.data == t.data && r.tier == t.tier && r.speed == t.speed && r.hasMesh == t.hasMesh
    ensures !t.active ==> !r.active
    ensures t.active && t.hasMesh ==> r.z == t.z + t.speed * delta && (r.active <==> r.z <= DespawnZ)
    ensures !(t.active && t.hasMesh) ==> r == t
  {
    if !t.active || !t.hasMesh then t
    else
      var z := t.z + t.speed * delta;
      t.(z := z, active := !(z > DespawnZ))
  }

  /** `n` frames of the same length. */
  function Advance(t: Transaction, delta: real, n: nat): (r: Transaction)
    ensures r.data == t.data && r.tier == t.tier && r.speed == t.speed && r.hasMesh == t.hasMesh
    decreases n
  {
    if n == 0 then t else Step(Advance(t, delta, n - 1), delta)
  }

  /** While a meshed transaction stays active it has moved `speed·delta`
      per frame, and after at least one frame it has not passed z = 50. */
  lemma {:induction false} AdvanceMoves(t: Transaction, delta: real, n: nat)
    requires t.hasMesh
    ensures var r := Advance(t, delta, n);
      r.active ==> r.z == t.z + n as real * (t.speed * delta) && (n > 0 ==> r.z <= DespawnZ)
    decreases n
  {
    if n > 0 {
      AdvanceMoves(t, delta, n - 1);
      var s := t.speed * delta;
      assert (n - 1) as real * s + s == n as real * s;
    }
  }

  /** Enough frames for a transaction moving forward to pass z = 50. */
  function LeaveSteps(t: Transaction, delta: real): (n: nat)
    requires t.speed * delta > 0.0
    ensures n >= 1 && n as real * (t.speed * delta) > DespawnZ - t.z
  {
    var s := t.speed * delta;
    if t.z > DespawnZ then 1
    else
      var q := (DespawnZ - t.z) / s;
      assert q >= 0.0;
      assert (q.Floor + 1) as real * s > q * s == DespawnZ - t.z by {
        assert (q.Floor + 1) as real > q;
      }
      q.Floor + 1
  }

  /** A transaction moving toward the camera leaves the grid: after
      `LeaveSteps` frames or more it is inactive, and `update` then drops it
      from the ledger. */
  lemma StepLeavesScreen(t: Transaction, delta: real, n: nat)
    requires t.hasMesh && t.speed * delta > 0.0
    requires n >= LeaveSteps(t, delta)
    ensures !Advance(t, delta, n).active
  {
    AdvanceMoves(t, delta, n);
    var s := t.speed * delta;
    var k := LeaveSteps(t, delta);
    assert n as real * s >= k as real * s by {
      assert (n - k) as real * s >= 0.0;
    }
  }

  /** The materials of a transaction's mesh in the order the group holds
      them; the hitbox comes first. */
  function MeshMaterials(tier: Tier): (ms: seq<Material>)
    ensures |ms| > 0 && ms[0] == HitboxMaterial
    ensures forall i :: 1 <= i < |ms| ==> ms[i] == Owned(i - 1)
  {
    match tier
    // hitbox, body, glow, trail
    case LightCycle => [HitboxMaterial, Owned(0), Owned(1), Owned(2)]
    // hitbox, body, left panel, right panel, glow, trail
    case ArmoredTransport => [HitboxMaterial, Owned(0), Owned(1), Owned(2), Owned(3), Owned(4)]
    // hitbox, left arm, right arm, bar, core, glow, shadow
    case _ => [HitboxMaterial, Owned(0), Owned(1), Owned(2), Owned(3), Owned(4), Owned(5)]
  }

  function DisposeEvents(ms: seq<Material>): (r: seq<Release>)
    ensures |r| == |ms|
    ensures forall i :: 0 <= i < |ms| ==> r[i] == DisposeMaterial(ms[i])
    ensures forall e :: e in r ==> e.DisposeMaterial?
  {
    if ms == [] then [] else [DisposeMaterial(ms[0])] + DisposeEvents(ms[1..])
  }

  /** `Transaction.dispose` as written: it disposes the material of every
      child of the mesh, the shared hitbox material included. */
  function DisposeAsWritten(t: Transaction): (r: (Transaction, seq<Release>))
    ensures r.0 == t.(hasMesh := false)
    ensures t.hasMesh ==> r.1 == [RemoveFromScene] + DisposeEvents(MeshMaterials(t.tier))
    ensures !t.hasMesh ==> r.1 == []
  {
    if t.hasMesh then (t.(hasMesh := false), [RemoveFromScene] + DisposeEvents(MeshMaterials(t.tier)))
    else (t, [])
  }

  /** The source's own comment says only per-transaction resources may be
      released; as written, every disposal also releases the shared hitbox
      material. */
  lemma DisposeAsWrittenReleasesSharedMaterial(t: Transaction)
    requires t.hasMesh
    ensures DisposeMaterial(HitboxMaterial) in DisposeAsWritten(t).1
  {
    assert DisposeAsWritten(t).1[1] == DisposeMaterial(HitboxMaterial);
  }

  /** `Transaction.dispose` releasing only what the transaction owns: the
      mesh leaves the scene and each owned material is disposed once. */
  function Dispose(t: Transaction): (r: (Transaction, seq<Release>))
    ensures r.0 == t.(hasMesh := false)
    ensures t.hasMesh ==> r.1 == [RemoveFromScene] + DisposeEvents(MeshMaterials(t.tier)[1..])
    ensures !t.hasMesh ==> r.1 == []
    ensures forall e :: e in r.1 && e.DisposeMaterial? ==> e.material.Owned?
  {
    if t.hasMesh then (t.(hasMesh := false), [RemoveFromScene] + DisposeEvents(MeshMaterials(t.tier)[1..]))
    else (t, [])
  }

  /** A second disposal is a no-op: nothing is released twice. */
  lemma DisposeIdempotent(t: Transaction)
    ensures Dispose(Dispose(t).0) == (Dispose(t).0, [])
  {
  }

  /** Which `Transaction.dispose` the ledger applies to a transaction it
      lets go of: the code's, which also disposes the shared hitbox
      material, or the corrected one, which disposes only owned materials. */
  datatype Disposal = AsWritten | OwnedOnly

  function DisposeBy(d: Disposal, t: Transaction): (r: (Transaction, seq<Release>))
    ensures r.0 == t.(hasMesh := false)
    ensures !t.hasMesh ==> r.1 == []
    ensures t.hasMesh ==> |r.1| > 0 && r.1[0] == RemoveFromScene
    ensures HitboxReleases(r.1) == if d.AsWritten? && t.hasMesh then 1 else 0
    ensures Removals(r.1) == if t.hasMesh then 1 else 0
    ensures d.OwnedOnly? ==> forall e :: e in r.1 && e.DisposeMaterial? ==> e.material.Owned?
    ensures forall slot: nat :: SlotReleases(r.1, slot) == if t.hasMesh && slot < OwnedCount(t.tier) then 1 else 0
  {
    forall slot: nat
      ensures SlotReleases(Dispose(t).1, slot) == if t.hasMesh && slot < OwnedCount(t.tier) then 1 else 0
      ensures SlotReleases(DisposeAsWritten(t).1, slot) == if t.hasMesh && slot < OwnedCount(t.tier) then 1 else 0
    {
      DisposeSlots(t, slot);
      DisposeAsWrittenSlots(t, slot);
    }
    if d.OwnedOnly? then Dispose(t)
    else
      HitboxOnceAsWritten(t);
      DisposeAsWritten(t)
  }

  /** How many owned materials a vehicle of the tier holds. */
  function OwnedCount(tier: Tier): nat {
    |MeshMaterials(tier)| - 1
  }

  /** How many times a list of releases disposes the owned material in
      `slot`. */
  function SlotReleases(rs: seq<Release>, slot: nat): nat {
    multiset(rs)[DisposeMaterial(Owned(slot))]
  }

  /** The corrected disposal of a meshed transaction disposes each of its
      owned materials exactly once and no other. */
  lemma DisposeSlots(t: Transaction, slot: nat)
    ensures SlotReleases(Dispose(t).1, slot) == if t.hasMesh && slot < OwnedCount(t.tier) then 1 else 0
  {
    if t.hasMesh {
      var owned := DisposeEvents(MeshMaterials(t.tier)[1..]);
      OwnedSlotsOnce(t.tier, slot);
      assert multiset(Dispose(t).1) == multiset{RemoveFromScene} + multiset(owned);
    }
  }

  /** So does the disposal as written, which disposes the hitbox material
      besides. */
  lemma DisposeAsWrittenSlots(t: Transaction, slot: nat)
    ensures SlotReleases(DisposeAsWritten(t).1, slot) == if t.hasMesh && slot < OwnedCount(t.tier) then 1 else 0
  {
    if t.hasMesh {
      var ms := MeshMaterials(t.tier);
      var owned := DisposeEvents(ms[1..]);
      OwnedSlotsOnce(t.tier, slot);
      assert DisposeEvents(ms) == [DisposeMaterial(HitboxMaterial)] + owned;
      assert multiset(DisposeAsWritten(t).1) == multiset{RemoveFromScene, DisposeMaterial(HitboxMaterial)} + multiset(owned);
    }
  }

  /** The owned materials of a tier's mesh dispose each owned slot once. */
  lemma OwnedSlotsOnce(tier: Tier, slot: nat)
    ensures SlotReleases(DisposeEvents(MeshMaterials(tier)[1..]), slot) == if slot < OwnedCount(tier) then 1 else 0
  {
    var ms := MeshMaterials(tier);
    forall i | 0 <= i < |ms[1..]|
      ensures ms[1..][i] == Owned(0 + i)
    {
      assert ms[1..][i] == ms[i + 1];
    }
    SlotRun(ms[1..], 0, slot);
  }

  /** A run of consecutive owned slots disposes each of them once. */
  lemma {:induction false} SlotRun(ms: seq<Material>, base: nat, slot: nat)
    requires forall i :: 0 <= i < |ms| ==> ms[i] == Owned(base + i)
    ensures SlotReleases(DisposeEvents(ms), slot) == if base <= slot < base + |ms| then 1 else 0
    decreases |ms|
  {
    if ms != [] {
      forall i | 0 <= i < |ms[1..]|
        ensures ms[1..][i] == Owned(base + 1 + i)
      {
        assert ms[1..][i] == ms[i + 1];
      }
      SlotRun(ms[1..], base + 1, slot);
      assert DisposeEvents(ms) == [DisposeMaterial(ms[0])] + DisposeEvents(ms[1..]);
    }
  }

  /** As written, a meshed transaction's disposal releases the hitbox
      material exactly once: it is the group's only shared material. */
  lemma HitboxOnceAsWritten(t: Transaction)
    ensures HitboxReleases(DisposeAsWritten(t).1) == if t.hasMesh then 1 else 0
  {
    if t.hasMesh {
      var all := DisposeEvents(MeshMaterials(t.tier));
      var owned := all[1..];
      assert all == [DisposeMaterial(HitboxMaterial)] + owned;
      assert DisposeMaterial(HitboxMaterial) !in owned by {
        forall k | 0 <= k < |owned|
          ensures owned[k] != DisposeMaterial(HitboxMaterial)
        {
          assert owned[k] == DisposeMaterial(MeshMaterials(t.tier)[k + 1]);
        }
      }
      assert DisposeAsWritten(t).1 == [RemoveFromScene, DisposeMaterial(HitboxMaterial)] + owned;
    }
  }

  /** How many times a list of releases disposes the shared hitbox material. */
  function HitboxReleases(rs: seq<Release>): nat {
    multiset(rs)[DisposeMaterial(HitboxMaterial)]
  }

  /** How many times a list of releases takes a mesh out of the scene. */
  function Removals(rs: seq<Release>): nat {
    multiset(rs)[RemoveFromScene]
  }

  /** Number of transactions of a list that still have a mesh. */
  function Meshed(ts: seq<Transaction>): (n: nat)
    ensures n <= |ts|
  {
    if ts == [] then 0 else (if ts[0].hasMesh then 1 else 0) + Meshed(ts[1..])
  }

  /** Number of transactions of a list that still have a mesh holding an
      owned material in `slot`. */
  function Holding(ts: seq<Transaction>, slot: nat): (n: nat)
    ensures n <= Meshed(ts)
  {
    if ts == [] then 0
    else (if ts[0].hasMesh && slot < OwnedCount(ts[0].tier) then 1 else 0) + Holding(ts[1..], slot)
  }

  /** The releases of disposing each transaction of a list, in list order.
      As written the shared hitbox material is disposed once per meshed
      transaction; corrected, never. */
  function DisposeAll(d: Disposal, ts: seq<Transaction>): (r: seq<Release>)
    ensures HitboxReleases(r) == if d.AsWritten? then Meshed(ts) else 0
    ensures Removals(r) == Meshed(ts)
    ensures forall slot: nat :: SlotReleases(r, slot) == Holding(ts, slot)
    ensures d.OwnedOnly? ==> forall e :: e in r && e.DisposeMaterial? ==> e.material.Owned?
    ensures Meshed(ts) == 0 ==> r == []
  {
    if ts == [] then []
    else
      var head := DisposeBy(d, ts[0]).1;
      var rest := DisposeAll(d, ts[1..]);
      assert multiset(head + rest) == multiset(head) + multiset(rest);
      assert forall slot: nat :: SlotReleases(head + rest, slot) == SlotReleases(head, slot) + SlotReleases(rest, slot);
      head + rest
  }

  /** The ledger: live transactions, oldest first. */
  datatype Manager = Manager(transactions: seq<Transaction>)

  /** The population bound the ledger keeps. */
  predicate Bounded(m: Manager) {
    |m.transactions| <= MaxTransactions
  }

  /** `cleanupOldest`: shift the oldest transaction off and dispose it. */
  function CleanupOldest(d: Disposal, m: Manager): (r: (Manager, seq<Release>))
    ensures m.transactions == [] ==> r == (m, [])
    ensures m.transactions != [] ==> r.0.transactions == m.transactions[1..] && r.1 == DisposeBy(d, m.transactions[0]).1
    ensures m.transactions != [] && m.transactions[0].hasMesh ==>
      HitboxReleases(r.1) == if d.AsWritten? then 1 else 0
  {
    if m.transactions == [] then (m, [])
    else (Manager(m.transactions[1..]), DisposeBy(d, m.transactions[0]).1)
  }

  /** The outcome of `addTransaction`. `whale` is the call made to the
      effects, carrying its `isLarge` argument, if one is made. */
  datatype Added = Added(manager: Manager, tx: Transaction, released: seq<Release>, whale: Option<bool>)

  /** `addTransaction`: a full ledger first evicts and disposes its oldest
      entry, then the new transaction is appended; 100 BTC and more raise the
      whale effect. */
  function AddTransaction(d: Disposal, m: Manager, data: TxData, laneDraw: real): (r: Added)
    requires 0.0 <= laneDraw < 1.0
    ensures Bounded(m) ==> Bounded(r.manager)
    ensures r.tx == NewTransaction(data, laneDraw)
    ensures |m.transactions| >= MaxTransactions ==>
      r.manager.transactions == m.transactions[1..] + [r.tx] && r.released == DisposeBy(d, m.transactions[0]).1
    ensures |m.transactions| < MaxTransactions ==>
      r.manager.transactions == m.transactions + [r.tx] && r.released == []
    ensures r.whale.Some? <==> data.value >= LargeSats
    ensures r.whale.Some? ==> r.whale.value
  {
    var (m1, released) := if |m.transactions| >= MaxTransactions then CleanupOldest(d, m) else (m, []);
    var tx := NewTransaction(data, laneDraw);
    var whale := if data.value >= LargeSats then Some(data.value >= WhaleSats) else None;
    Added(Manager(m1.transactions + [tx]), tx, released, whale)
  }

  /** Eviction-then-push on a bounded ledger is the same as push-then-trim
      to the capacity, oldest first. */
  lemma AddTransactionIsFifo(d: Disposal, m: Manager, data: TxData, laneDraw: real)
    requires 0.0 <= laneDraw < 1.0
    requires Bounded(m)
    ensures var r := AddTransaction(d, m, data, laneDraw);
      r.manager.transactions == Fifo.Trim(m.transactions + [r.tx], MaxTransactions)
  {
    Fifo.PushTrim(m.transactions, NewTransaction(data, laneDraw), MaxTransactions);
  }

  /** Adding a sequence of transactions, each with its lane draw. Which
      disposal evicts does not affect the ledger, so the code's is used. */
  function AddAll(m: Manager, items: seq<(TxData, real)>): Manager
    requires forall i :: 0 <= i < |items| ==> 0.0 <= items[i].1 < 1.0
    decreases |items|
  {
    if items == [] then m
    else AddAll(AddTransaction(AsWritten, m, items[0].0, items[0].1).manager, items[1..])
  }

  /** After any sequence of insertions the ledger holds at most 50 entries,
      and the last insertion is the newest entry. */
  lemma {:induction false} AddAllBounded(m: Manager, items: seq<(TxData, real)>)
    requires Bounded(m)
    requires forall i :: 0 <= i < |items| ==> 0.0 <= items[i].1 < 1.0
    ensures Bounded(AddAll(m, items))
    ensures items != [] ==>
      var ts := AddAll(m, items).transactions;
      |ts| > 0 && ts[|ts| - 1] == NewTransaction(items[|items| - 1].0, items[|items| - 1].1)
    decreases |items|
  {
    if items != [] {
      var m1 := AddTransaction(AsWritten, m, items[0].0, items[0].1).manager;
      assert Bounded(m1);
      assert AddAll(m, items) == AddAll(m1, items[1..]);
      AddAllBounded(m1, items[1..]);
      if |items| == 1 {
        assert AddAll(m1, items[1..]) == m1;
      } else {
        assert items[1..][|items| - 2] == items[|items| - 1];
      }
    }
  }

  /** `update`: advance every transaction one frame, walking the list from
      the back, and remove and dispose each one that went inactive. */
  method Update(d: Disposal, m: Manager, delta: real) returns (r: Manager, released: seq<Release>)
    ensures r.transactions == Sweep.Survivors(m.transactions, (t: Transaction) => Step(t, delta), (t: Transaction) => t.active)
    ensures forall i :: 0 <= i < |r.transactions| ==> r.transactions[i].active
    ensures |r.transactions| <= |m.transactions|
    ensures Bounded(m) ==> Bounded(r)
    ensures released == DisposeAll(d, Sweep.Reverse(Sweep.Casualties(m.transactions, (t: Transaction) => Step(t, delta), (t: Transaction) => t.active)))
  {
    var kept, removed := Sweep.SweepBackward(m.transactions, (t: Transaction) => Step(t, delta), (t: Transaction) => t.active);
    r := Manager(kept);
    released := DisposeAll(d, removed);
  }

  /** The counts `getStats` reports. */
  datatype Stats = Stats(lightCycles: nat, armoredTransports: nat, recognizers: nat, total: nat)

  /** Number of transactions of a list that satisfy a tier test. */
  function CountTier(ts: seq<Transaction>, p: Tier -> bool): (n: nat)
    ensures n <= |ts|
  {
    if ts == [] then 0 else (if p(ts[0].tier) then 1 else 0) + CountTier(ts[1..], p)
  }

  /** `getStats`: per-tier counts that add up to the ledger's size. */
  method GetStats(m: Manager) returns (s: Stats)
    ensures s.total == |m.transactions|
    ensures s.lightCycles + s.armoredTransports + s.recognizers == s.total
    ensures s.lightCycles == CountTier(m.transactions, (t: Tier) => t.LightCycle?)
    ensures s.armoredTransports == CountTier(m.transactions, (t: Tier) => t.ArmoredTransport?)
    ensures s.recognizers == CountTier(m.transactions, (t: Tier) => t.IsRecognizer())
  {
    var ts := m.transactions;
    var lc, at, rc := 0, 0, 0;
    var i := |ts|;
    // counting from the back keeps the invariant on a suffix
    while i > 0
      invariant 0 <= i <= |ts|
      invariant lc + at + rc == |ts| - i
      invariant lc == CountTier(ts[i..], (t: Tier) => t.LightCycle?)
      invariant at == CountTier(ts[i..], (t: Tier) => t.ArmoredTransport?)
      invariant rc == CountTier(ts[i..], (t: Tier) => t.IsRecognizer())
    {
      i := i - 1;
      assert ts[i..][0] == ts[i] && ts[i..][1..] == ts[i + 1..];
      match ts[i].tier {
        case LightCycle => lc := lc + 1;
        case ArmoredTransport => at := at + 1;
        case _ => rc := rc + 1;
      }
    }
    assert ts[0..] == ts;
    s := Stats(lc, at, rc, |ts|);
  }

  /** `TransactionManager.dispose`: every transaction is disposed and the
      ledger is left empty. As written the shared hitbox material is
      disposed once for every transaction that had a mesh; corrected, only
      owned materials are. */
  function DisposeManager(d: Disposal, m: Manager): (r: (Manager, seq<Release>))
    ensures r.0.transactions == []
    ensures HitboxReleases(r.1) == if d.AsWritten? then Meshed(m.transactions) else 0
    ensures Removals(r.1) == Meshed(m.transactions)
    ensures forall slot: nat :: SlotReleases(r.1, slot) == Holding(m.transactions, slot)
    ensures d.OwnedOnly? ==> forall e :: e in r.1 && e.DisposeMaterial? ==> e.material.Owned?
    ensures |m.transactions| > 0 && m.transactions[0].hasMesh ==> |r.1| > 0 && r.1[0] == RemoveFromScene
  {
    (Manager([]), DisposeAll(d, m.transactions))
  }

  /** The emptied ledger has nothing left to release: a second dispose is
      silent. */
  lemma DisposeManagerTwice(d: Disposal, m: Manager)
    ensures var (m1, _) := DisposeManager(d, m);
      DisposeManager(d, m1) == (m1, [])
  {
  }

  /** Three transactions worth 0.05, 50 and 500 BTC enter an empty ledger as
      a light cycle, a small and a large recognizer; only the last raises the
      whale effect. */
  lemma ThreeTiersScenario(d1: TxData, d2: TxData, d3: TxData)
    requires d1.value == 5_000_000 && d2.value == 5_000_000_000 && d3.value == 50_000_000_000
    ensures var a1 := AddTransaction(AsWritten, Manager([]), d1, 0.5);
      var a2 := AddTransaction(AsWritten, a1.manager, d2, 0.5);
      var a3 := AddTransaction(AsWritten, a2.manager, d3, 0.5);
      && |a3.manager.transactions| == 3
      && a3.manager.transactions[0].tier == LightCycle
      && a3.manager.transactions[1].tier == RecognizerSmall
      && a3.manager.transactions[2].tier == RecognizerLarge
      && a1.whale.None? && a2.whale.None? && a3.whale == Some(true)
  {
  }
}

=== FILE: values.dfy ===
/** Plain values shared by every module: an optional value, the JavaScript
    reading of a number through `x || d`, and `Math.round`. */
module Values {

  /** A value that may be missing. For JavaScript numbers, `None` stands for
      `undefined`, `null` and `NaN`; `Some(0)` is the (falsy) zero. */
  datatype Option<+T> = None | Some(value: T)

  /** True when a JavaScript number is truthy: present and non-zero. */
  predicate Truthy(x: Option<real>) {
    x.Some? && x.value != 0.0
  }

  /** True when a JavaScript integer is truthy: present and non-zero. */
  predicate TruthyInt(x: Option<int>) {
    x.Some? && x.value != 0
  }

  /** `x || d` for a JavaScript number. */
  function OrElse(x: Option<real>, d: real): real {
    if Truthy(x) then x.value else d
  }

  /** `Math.round`: the nearest integer, halves rounded up. */
  function JsRound(x: real): (n: int)
    ensures x - 0.5 < n as real <= x + 0.5
  {
    (x + 0.5).Floor
  }
}
